=== FILE: README.md ===
# MindThePath puzzle core in Dafny

MindThePath is a turn-based grid puzzle. A stage is a stack of character
layers read from a text file. Characters (walkers and robots) march one cell
per turn. They turn round at walls and pits, push boxes, step onto goals and
take their facing from arrow tiles. Players step forward unconditionally.
Boxes teleport between the portals of a pair. A turn manager runs the turns,
re-stamps the grid after each one and latches the first turn in which every
player is complete. An undo stack snapshots the scene. Before a run the player
places pieces by dragging them onto the stage, and clicks arrow tiles to turn
them. Swipes and taps are mapped through the orbiting camera. Each stage's
video is fetched from a Supabase storage URL built from the stage number.

This project models that logic as pure functions over immutable data:

- The stage grid is `seq<seq<seq<char>>>`, indexed `[col][height][row]` like
  the C# `char[,,]`.
- Positions are integer cells `Vec(x, y, z)`. One `forward * 2.0` of the game
  is one cell.
- The scene is a `World` record: both grids, the list of objects (slots of
  characters, players and boxes), the GameManager flags and the completion
  latch.
- C# exceptions that end a handler or the turn coroutine become
  `Step.Threw(partial)`. Errors the code reports are `Result` or `Option`
  values.

A character's move has two phases. OnTurn only sets its target and starts the
tween. `Arrive`, run by `TurnManager.Settle` between turns, moves the
character, applies the arrow tile at the new cell and fires a delayed goal
completion.

Modules follow the source files:

| module | file |
|---|---|
| `StageBuilder` | StageBuilder.cs, with the grid helpers in `StageGrid` and the unit conversion in `WorldUnits` |
| `TurnBasedCharacter` | TurnBasedCharacter.cs and Robot.cs |
| `PlayerTurn` | Player.cs |
| `MoveBoxes` | MoveBox.cs |
| `TurnManager` | TurnManager.cs |
| `GameManager` | GameManager.cs |
| `UndoManager` | UndoManager.cs |
| `SwipeInput` | SwipeInputController.cs |
| `CameraController` | CameraController.cs |
| `Arrow` | Arrow.cs |
| `DraggableGimmic` and `DraggableGimmic1` | the two files of that name (both declare a class `DraggableGimmic`) |
| `Supabase` | Supabase.cs |

Several members that the character, box, undo, camera and input scripts
call are not defined by StageBuilder.cs or GameManager.cs in this
revision, because the scripts come from different revisions:

- StageBuilder.IsValidGridPosition
- StageBuilder.IsMatchingCellType and IsAnyMatchingCellType
- StageBuilder.GetTopCellPosition
- StageBuilder.UpdateGridAtPosition and UpdateDynamicTileAtPosition
- StageBuilder.TryFindOtherCell
- StageBuilder.GetGridCharType and GetDynamicGridCharType
- StageBuilder.GetGridDataCopy and SetGridData (UndoManager.cs:55,68)
- StageBuilder.GridFromPosition (MoveBox.cs:27, TurnBasedCharacter.cs:224) and WorldFromGrid (MoveBox.cs:30)
- the static StageBuilder.BLOCK_SIZE (DraggableGimmic.cs:27-29,51,118; DraggableGimmic1.cs:21-23,50,94; TurnBasedCharacter.cs:108,227-229) and HEIGHT_OFFSET (MoveBox.cs:23; TurnBasedCharacter.cs:42,57,131,183); StageBuilder.cs:15-16 declares only the instance fields `blockSize` and `heightOffset`
- StageBuilder.stageNumber (TurnBasedCharacter.cs:203, Supabase.cs:181)
- GameManager.Is2DMode (CameraController.cs:20-21, TurnBasedCharacter.cs:22)
- GameManager.IsGameClear (SwipeInputController.cs:31, UndoManager.cs:46,92)

The model gives each of them its evident meaning. `StageGrid` holds the grid ones:

- IsValidGridPosition: a cell inside the grid;
- IsMatchingCellType and IsAnyMatchingCellType: a cell inside the grid holding the given mark (or one of the marks); a cell outside matches nothing;
- GetTopCellPosition: the highest non-`'N'` cell of a column;
- UpdateGridAtPosition and UpdateDynamicTileAtPosition: overwriting one cell, with a position outside the grid ignored;
- TryFindOtherCell: the first other cell with the same mark, scanning column, layer, row;
- GetGridCharType and GetDynamicGridCharType: the mark of a cell inside the grid; a cell outside has no mark, so any comparison with a mark fails (TurnBasedCharacter.UpdateForwardFromDynamic keeps the facing there);
- GetGridDataCopy: a copy of the grid by value, so a snapshot is unaffected by later writes; SetGridData: replacing the grid with the given one.

The `WorldUnits` module holds the coordinate ones:

- GridFromPosition: the index computation of StageBuilder.cs:152-154, `WorldUnits.GridFromWorld`;
- WorldFromGrid: the spawn position of StageBuilder.cs:87, `WorldUnits.WorldFromGrid`;
- BLOCK_SIZE and HEIGHT_OFFSET: the values of `blockSize` and `heightOffset`, both 2.0 (`WorldUnits.BlockSize` and `WorldUnits.HeightOffset`). Because the two are equal, a vertical step of BLOCK_SIZE (TurnBasedCharacter.cs:108,228-229) is exactly one layer, and the model takes it as one.

StageBuilder.stageNumber is the int32 index of the stage being played: the `stage` field of `TurnManager.World`, which the goal check reads, and the `stage` argument of Supabase.ResolveStagePath, where `None` stands for a missing StageBuilder (index 0). Nothing in the model writes it.

The two GameManager ones are fields of `GameManager.Manager`:

- `is2D` for Is2DMode: a flag that only CameraController.SwitchView writes;
- `isGameClear` for IsGameClear: a flag that the undo snapshot records and restores. The input Update method reads it; that method is not modelled (see "## Left out").

## Model

| member | source | states |
|---|---|---|
| Int32.Wrap | Assets/MyAssets/GM/Scripts/GameManager.cs:55 | The value an unchecked C# int holds: in the 32-bit range, congruent to the exact result modulo 2^32, and the exact result when that fits |
| Int32.WrapOverflows | Assets/MyAssets/GM/Scripts/GameManager.cs:55 | int.MaxValue + 1 wraps to int.MinValue |
| WorldUnits.RoundToInt | Assets/MyAssets/StageBuilder/Scripts/StageBuilder.cs:152-154 | Mathf.RoundToInt lands within half a unit of its argument, and a tie goes to the even integer |
| WorldUnits.RoundNear | Assets/MyAssets/StageBuilder/Scripts/StageBuilder.cs:152-154 | Any value strictly within half a unit of an integer rounds to that integer |
| WorldUnits.WorldFromGrid | Assets/MyAssets/StageBuilder/Scripts/StageBuilder.cs:87-94 | The position where a cell's block is spawned is read back as that cell by the index computation, so distinct cells get distinct positions |
| WorldUnits.GridFromWorld | Assets/MyAssets/StageBuilder/Scripts/StageBuilder.cs:152-154 | The cell computed from a world point has its block position within half a block (half a layer in height) of the point on every axis |
| WorldUnits.GridFromNearWorld | Assets/MyAssets/StageBuilder/Scripts/StageBuilder.cs:152-154 | A world point less than one unit from a cell's block position on every axis converts back to that cell |
| WorldUnits.GridWorldRoundTrip | Assets/MyAssets/StageBuilder/Scripts/StageBuilder.cs:87-94 | The world position where a cell's block is spawned converts back to the same (col, height, corrected row) indices |
| WorldUnits.Snap | Assets/MyAssets/DraggableGimmic/Scripts/DraggableGimmic.cs:116-124 | A snapped coordinate is a multiple of the block size and at most half a block from the input |
| WorldUnits.SnapIdempotent | Assets/MyAssets/DraggableGimmic/Scripts/DraggableGimmic.cs:116-124 | Snapping a snapped coordinate changes nothing |
| WorldUnits.SnapToGrid | Assets/MyAssets/DraggableGimmic/Scripts/DraggableGimmic.cs:116-124 | Every axis of the snapped point is a whole number of blocks and at most half a block from the input |
| WorldUnits.SnapKeepsCell | Assets/MyAssets/DraggableGimmic/Scripts/DraggableGimmic.cs:26-29 | Snapping before computing the cell indices does not change the cell, and the snapped point is that cell's world position |
| WorldUnits.SnapIsCellCentre | Assets/MyAssets/DraggableGimmic/Scripts/DraggableGimmic.cs:116-124 | On the horizontal axes, the snapped point is the world position of the cell the point rounds to |
| StageGrid.Put | Assets/MyAssets/MoveBox/Scripts/MoveBox.cs:17 | UpdateGridAtPosition: the cell gets the mark and every other cell is unchanged. The grid keeps its shape. A position outside the grid changes nothing |
| StageGrid.TopCell | Assets/MyAssets/TurnBasedCharacter/Scripts/TurnBasedCharacter.cs:50 | GetTopCellPosition: a cell of the same column with only `'N'` above it, which is non-`'N'` unless the whole column is empty (then the ground cell) |
| StageGrid.FindOther | Assets/MyAssets/MoveBox/Scripts/MoveBox.cs:27-28 | TryFindOtherCell: a hit holds the mark and is not the excluded cell; no hit means no other cell holds the mark |
| StageBuilder.SplitOn | Assets/MyAssets/StageBuilder/Scripts/StageBuilder.cs:83 | String.Split on one separator: at least one piece, and no piece contains the separator |
| StageBuilder.JoinSplit | Assets/MyAssets/StageBuilder/Scripts/StageBuilder.cs:83 | Joining the split pieces with the separator gives the line back, so no character is lost or invented |
| StageBuilder.SplitLines | Assets/MyAssets/StageBuilder/Scripts/StageBuilder.cs:40 | Splitting on "\r\n" or "\n" gives at least one line and no line contains a line feed |
| StageBuilder.SplitLinesUnix | Assets/MyAssets/StageBuilder/Scripts/StageBuilder.cs:40 | For text without carriage returns, the lines joined with "\n" are the text |
| StageBuilder.GroupLayers | Assets/MyAssets/StageBuilder/Scripts/StageBuilder.cs:45-63 | Layers already closed are kept as a prefix, and starting from proper layers and an open layer of non-blank lines no empty layer and no blank line is ever added |
| StageBuilder.NoEmptyLayer | Assets/MyAssets/StageBuilder/Scripts/StageBuilder.cs:45-63 | Leading, trailing or repeated blank lines never make an empty layer, and no blank line ends up inside a layer |
| StageBuilder.LayersAreTheNonBlankLines | Assets/MyAssets/StageBuilder/Scripts/StageBuilder.cs:45-63 | The layers, read in order, are exactly the non-blank lines in order |
| StageBuilder.SplitJoinedLayers | Assets/MyAssets/StageBuilder/Scripts/StageBuilder.cs:45-63 | Layers written with one blank line after each split back into the same layers |
| StageBuilder.UnterminatedLayerKept | Assets/MyAssets/StageBuilder/Scripts/StageBuilder.cs:60-63 | A last layer that no blank line closes is still kept |
| StageBuilder.GenerateStage | Assets/MyAssets/StageBuilder/Scripts/StageBuilder.cs:68-97 | Fails with NoLayers on no layer, and with MalformedStage exactly when an indexed line, field or character is missing. On success the grid is a box of columns (comma fields of the first line) by heights (layers) by rows (lines of the first layer). File row r of layer h, column c, is stored at row rowCount-1-r and holds the field's first character |
| StageBuilder.BlankTextFails | Assets/MyAssets/StageBuilder/Scripts/StageBuilder.cs:40-71 | Text whose every line is blank has no layer, so generating the stage fails with NoLayers |
| StageBuilder.LoadStage | Assets/MyAssets/StageBuilder/Scripts/StageBuilder.cs:31-66 | A missing resource fails before anything is built. Otherwise the layers are proper, and loading fails with NoLayers exactly when no line is non-blank. It fails at all exactly when the layers are missing or malformed, and a success is GenerateStage's well-formed grid with one height per layer |
| StageBuilder.ResetGridData | Assets/MyAssets/StageBuilder/Scripts/StageBuilder.cs:176-192 | B, G, S and P cells are kept, every other cell becomes `'N'`, and the dimensions are unchanged |
| StageBuilder.ResetIdempotent | Assets/MyAssets/StageBuilder/Scripts/StageBuilder.cs:176-192 | Resetting twice is the same as resetting once |
| StageBuilder.ClearPlayerMarks | Assets/MyAssets/StageBuilder/Scripts/StageBuilder.cs:157-169 | Every `'P'` becomes `'N'` and every other cell is unchanged |
| StageBuilder.UpdatePlayerPosition | Assets/MyAssets/StageBuilder/Scripts/StageBuilder.cs:149-173 | Completes exactly when the player's cell is inside the grid. Then that cell is the only `'P'`. Former `'P'` cells become `'N'` and all other cells are unchanged. Outside the grid the index throws after the clearing, leaving no `'P'` at all |
| Actors.FirstBoxAt | Assets/MyAssets/TurnBasedCharacter/Scripts/TurnBasedCharacter.cs:221-224 | The box the search loop settles on: a box on the cell with no earlier box on it, or none when no box is there |
| MoveBoxes.Spawn | Assets/MyAssets/MoveBox/Scripts/MoveBox.cs:7-10 | TargetPos starts equal to the box's position |
| MoveBoxes.UpdateGridData | Assets/MyAssets/MoveBox/Scripts/MoveBox.cs:14-18 | `'M'` goes on the box's actual cell and nothing else changes |
| MoveBoxes.TryPush | Assets/MyAssets/TurnBasedCharacter/Scripts/TurnBasedCharacter.cs:252 | A pushed box keeps its id and moves, TargetPos included, one cell in the push direction |
| MoveBoxes.TeleportIfOnPortal | Assets/MyAssets/MoveBox/Scripts/MoveBox.cs:20-45 | A no-op unless the cell under TargetPos is a valid `'A'`. A box that moves has gone to the free (`'N'`) cell one layer above the other `'A'` cell, with position and TargetPos both there. The old cell is `'N'`, the new one `'M'` and every other cell unchanged |
| MoveBoxes.TeleportMovesToPartner | Assets/MyAssets/MoveBox/Scripts/MoveBox.cs:27-43 | A box on a portal whose partner has a free cell above it lands there, and `'M'` is written there |
| MoveBoxes.TeleportRefusedWhenBlocked | Assets/MyAssets/MoveBox/Scripts/MoveBox.cs:33-35 | An occupied or invalid cell above the partner portal leaves box and grid alone |
| TurnBasedCharacter.TryFlipDirection | Assets/MyAssets/TurnBasedCharacter/Scripts/TurnBasedCharacter.cs:157-170 | Reverses the facing, aims at the cell behind, and answers true exactly when that cell is valid and not B or P |
| TurnBasedCharacter.FlipTwiceRestores | Assets/MyAssets/TurnBasedCharacter/Scripts/TurnBasedCharacter.cs:157-170 | Two flips give back the original facing and target |
| TurnBasedCharacter.CheckGoal | Assets/MyAssets/TurnBasedCharacter/Scripts/TurnBasedCharacter.cs:199-206 | A walker aiming at `'G'` saves stage+1 (int wrap-around) and arms the delayed completion. No goal means no change. A robot uses its override |
| TurnBasedCharacter.RobotCheckGoal | Assets/MyAssets/Robot/Scripts/Robot.cs:4-11 | A robot aiming at `'G'` reverses and aims at the cell behind, unchecked. Its completion flags are never touched |
| TurnBasedCharacter.MoveForward | Assets/MyAssets/TurnBasedCharacter/Scripts/TurnBasedCharacter.cs:143-154 | Starting a move sets isMoving and leaves the position for the tween. A walker keeps its target and facing |
| TurnBasedCharacter.TryHandleImmediateFlip | Assets/MyAssets/TurnBasedCharacter/Scripts/TurnBasedCharacter.cs:96-116 | When the cell ahead is invalid, B or P, or an `'N'` over another `'N'`, the character flips, and the turn ends exactly when the flip fails. Otherwise nothing changes |
| TurnBasedCharacter.TryHandleMoveBox | Assets/MyAssets/TurnBasedCharacter/Scripts/TurnBasedCharacter.cs:209-258 | Only box positions may change. The character's cell never does. A turn that goes on leaves the character as it was, and moving a box never ends the turn |
| TurnBasedCharacter.OnTurn3D | Assets/MyAssets/TurnBasedCharacter/Scripts/TurnBasedCharacter.cs:65-80 | A moving or complete character does nothing (ShouldSkipTurn). Otherwise only boxes may move and the character's own cell is unchanged |
| TurnBasedCharacter.MoveOnto | Assets/MyAssets/TurnBasedCharacter/Scripts/TurnBasedCharacter.cs:56-58 | A 2D move starts a tween without changing the current cell. A walker aims at the cell above the column top and keeps its facing |
| TurnBasedCharacter.OnTurn2D | Assets/MyAssets/TurnBasedCharacter/Scripts/TurnBasedCharacter.cs:22-64 | The 2D rules never move the character's cell or change its kind or completion |
| TurnBasedCharacter.TryFlipDirectionFor2D | Assets/MyAssets/TurnBasedCharacter/Scripts/TurnBasedCharacter.cs:172-187 | Reverses the facing. Answers true when the cell behind is outside the grid. Otherwise it answers true exactly when that column is topped by P or K, and then aims one layer above that top |
| TurnBasedCharacter.OnTurn | Assets/MyAssets/TurnBasedCharacter/Scripts/TurnBasedCharacter.cs:20-82 | In either view, a turn moves no object but boxes and never moves the character's own cell |
| TurnBasedCharacter.TileFacing | Assets/MyAssets/TurnBasedCharacter/Scripts/TurnBasedCharacter.cs:190-196 | A U tile faces forward, D back, R right and L left. Any other tile keeps the facing |
| TurnBasedCharacter.UpdateForwardFromDynamic | Assets/MyAssets/TurnBasedCharacter/Scripts/TurnBasedCharacter.cs:190-196 | An arrow tile at the cell sets the facing it points to: U forward, D back, R right, L left. Any other tile, or a cell outside the dynamic grid, keeps the facing |
| TurnBasedCharacter.Arrive | Assets/MyAssets/TurnBasedCharacter/Scripts/TurnBasedCharacter.cs:147-153 | A finished tween puts the character on its target, stops it, and takes the target's dynamic tile facing. A pending goal completion fires |
| TurnBasedCharacter.UpdateGridData | Assets/MyAssets/TurnBasedCharacter/Scripts/TurnBasedCharacter.cs:267-279 | Nothing once complete. Otherwise the mark (P, or K for a robot as in Robot.cs:13-26) goes on the target when it is valid and not B, P or K, and on the current cell if not. No other cell changes |
| TurnBasedCharacter.BlockedBothWaysTurnsOnly | Assets/MyAssets/TurnBasedCharacter/Scripts/TurnBasedCharacter.cs:96-103 | Blocked ahead and behind, a character only turns round and aims behind, and no object moves |
| TurnBasedCharacter.BlockedAheadWalksBack | Assets/MyAssets/TurnBasedCharacter/Scripts/TurnBasedCharacter.cs:96-116 | A walker blocked ahead, or facing a two-deep pit, with a free non-box cell behind turns and starts walking back |
| TurnBasedCharacter.RefusedPushMovesNoBox | Assets/MyAssets/TurnBasedCharacter/Scripts/TurnBasedCharacter.cs:227-250 | When the push rule refuses, no object moves and a walker ends the turn reversed |
| TurnBasedCharacter.AcceptedPushFollowsBox | Assets/MyAssets/TurnBasedCharacter/Scripts/TurnBasedCharacter.cs:251-257 | An accepted push moves the first box there one cell forward, and the character starts into the cell the box left, in the same turn and facing |
| TurnBasedCharacter.WalkerReachesGoal | Assets/MyAssets/TurnBasedCharacter/Scripts/TurnBasedCharacter.cs:199-206 | A walker heading onto `'G'` saves stage+1, and once the move settles it stands on the goal and is complete |
| TurnBasedCharacter.RobotTurnsAtGoal | Assets/MyAssets/Robot/Scripts/Robot.cs:4-11 | A robot heading onto `'G'` saves nothing, reverses and starts moving to the cell behind |
| TurnBasedCharacter.WalkerTargetsFreeCell | Assets/MyAssets/TurnBasedCharacter/Scripts/TurnBasedCharacter.cs:67-79 | In the 3D view a walker only starts moving towards a valid cell that holds no B and no P |
| TurnBasedCharacter.RobotWalksIntoBlock | Assets/MyAssets/Robot/Scripts/Robot.cs:9 | Because the flip's answer is ignored, a robot facing a goal with a block behind walks into the block |
| TurnBasedCharacter.RobotNeverCompletes | Assets/MyAssets/Robot/Scripts/Robot.cs:4-11 | No turn of a robot arms a completion, so settling never completes it |
| TurnBasedCharacter.Walk2DLandsOnTop | Assets/MyAssets/TurnBasedCharacter/Scripts/TurnBasedCharacter.cs:37-62 | In 2D a walker either keeps its target (possibly turned round), or starts to the cell just above a B or M column top next to it |
| PlayerTurn.OnTurn | Assets/MyAssets/Player/Scripts/Player.cs:5-9 | The player advances exactly one cell along its facing and keeps its facing |
| PlayerTurn.UpdateGridData | Assets/MyAssets/Player/Scripts/Player.cs:11-15 | Completes exactly when the player is inside the grid. Then its cell is the only `'P'`. Any other cell that did not hold `'P'` is kept, as is the grid's shape |
| PlayerTurn.WalkIsStraight | Assets/MyAssets/Player/Scripts/Player.cs:5-9 | After n turns the player is n cells further along its facing, with no bounds check, collision or turn |
| PlayerTurn.SteppingOffTheGridThrows | Assets/MyAssets/StageBuilder/Scripts/StageBuilder.cs:157-172 | A player that walks off the grid makes its next grid update throw, leaving no `'P'` |
| GameManager.Awake | Assets/MyAssets/GM/Scripts/GameManager.cs:14-18 | After Awake the player list is empty, the box list is still null and the game is not started |
| GameManager.GetPlayer | Assets/MyAssets/GM/Scripts/GameManager.cs:20-23 | The player is appended, order kept, and nothing else changes |
| GameManager.GetMoveBox | Assets/MyAssets/GM/Scripts/GameManager.cs:25-28 | Fails (NullReferenceException) exactly when the box list is null. Otherwise the box is appended |
| GameManager.AllComplete | Assets/MyAssets/GM/Scripts/GameManager.cs:30-37 | True exactly when every flag is true, so true with no players |
| GameManager.SetIsStart | Assets/MyAssets/GM/Scripts/GameManager.cs:41-44 | The game is started and nothing else changes |
| GameManager.SetGameStop | Assets/MyAssets/GM/Scripts/GameManager.cs:45-50 | Both lists become empty (the box list no longer null), the game stops, and the stage number and view flags stay |
| GameManager.SetStageNumber | Assets/MyAssets/GM/Scripts/GameManager.cs:53-57 | Stores and returns the old value plus the argument, modulo 2^32 |
| GameManager.BoxesNeedAStop | Assets/MyAssets/GM/Scripts/GameManager.cs:14-28 | Registering a box straight after Awake throws. After a stop it gives a one-box list |
| GameManager.StageNumbersAccumulate | Assets/MyAssets/GM/Scripts/GameManager.cs:53-57 | Two successive additions give the wrapped sum of both |
| TurnManager.IsComplete | Assets/MyAssets/TurnManager/Scripts/TurnManager.cs:29 | The completion check holds exactly when every registered player of the scene is complete |
| TurnManager.ActCharacter | Assets/MyAssets/TurnManager/Scripts/TurnManager.cs:23 | The character's slot becomes the character after its OnTurn. Every box slot takes the value OnTurn gave it, and the stages OnTurn saved are appended. Kinds and player completions are kept, and no other non-box object changes |
| TurnManager.ActOne | Assets/MyAssets/TurnManager/Scripts/TurnManager.cs:21-24 | An index that is out of range or names a box changes nothing. A player slot takes one step of Player.OnTurn and nothing else changes. A character slot takes its OnTurn and appends its saved stages. Kinds and completions are kept |
| TurnManager.ActAll | Assets/MyAssets/TurnManager/Scripts/TurnManager.cs:21-24 | Running OnTurn over the list only adds saved stages. Each player walks once per time it is listed, and an unlisted character is unchanged. Kinds and completions are kept |
| TurnManager.ActAllAppend | Assets/MyAssets/TurnManager/Scripts/TurnManager.cs:21-24 | Acting over a list split in two is acting over the first part, then over the second |
| TurnManager.ActAllSingle | Assets/MyAssets/TurnManager/Scripts/TurnManager.cs:21-24 | Acting on a one-object list is exactly that object's OnTurn, whatever its kind |
| TurnManager.ActAllSnoc | Assets/MyAssets/TurnManager/Scripts/TurnManager.cs:21-24 | Acting on a list ending in slot i is acting on the rest and then running slot i's OnTurn, so the loop is ActOne applied once per entry, in list order |
| TurnManager.StampAll | Assets/MyAssets/TurnManager/Scripts/TurnManager.cs:41-44 | Re-stamping throws exactly when a listed player is off the grid. A cell that no listed object may stamp keeps its value unless it held a 'P'. The grid's shape and well-formedness are kept |
| TurnManager.StampAllAppend | Assets/MyAssets/TurnManager/Scripts/TurnManager.cs:41-44 | Stamping a list split in two is stamping the first part, then stamping the second on its grid, and a throw stops it |
| TurnManager.LastStampWins | Assets/MyAssets/TurnManager/Scripts/TurnManager.cs:41-44 | When the last object stamped is a box, its in-bounds cell holds 'M'. When it is a player, that player is on the grid and its cell is the only 'P' |
| TurnManager.StampOne | Assets/MyAssets/TurnManager/Scripts/TurnManager.cs:43 | Only a player's update can throw, and it throws exactly when the player is off the grid. A box writes 'M' at its cell. A player that lands is the only 'P'. A complete character writes nothing, and any other character marks its next cell, or its own cell when next is off the grid. No other cell changes, apart from a stale 'P'. The shape and well-formedness are kept |
| TurnManager.Reconcile | Assets/MyAssets/TurnManager/Scripts/TurnManager.cs:36-45 | Reset then re-stamp changes only the grid. It throws exactly when a listed player is off the grid. A cell no listed object may stamp ends as the reset left it: static marks stay and everything else is 'N' |
| TurnManager.Restamp | Assets/MyAssets/GM/Scripts/UndoManager.cs:94-99 | The same reset and re-stamp over any object list, shared by TurnManager and UndoManager, with the same throw condition and untouched cells |
| TurnManager.ReconcileMarksLastPlayer | Assets/MyAssets/TurnManager/Scripts/TurnManager.cs:36-45 | When the last object in the list is a player and reconciling succeeds, that player is on the grid and its cell is the only 'P' |
| TurnManager.ExecuteTurn | Assets/MyAssets/TurnManager/Scripts/TurnManager.cs:18-34 | A no-op once latched. Otherwise the objects and saved stages are those of the act phase, and the grid and any throw are those of reconciling afterwards. The latch is set exactly when a turn completes with every player complete, and the clear screen count rises by one exactly then. The manager and the object list are kept |
| TurnManager.TurnStepsListedPlayers | Assets/MyAssets/TurnManager/Scripts/TurnManager.cs:18-26 | A turn moves each player once per time it is listed and leaves an unlisted character as it was |
| TurnManager.Settle | Assets/MyAssets/TurnManager/Scripts/TurnManager.cs:54-55 | During the wait every character's tween and pending completion finish, and players and boxes are untouched |
| TurnManager.Rounds | Assets/MyAssets/TurnManager/Scripts/TurnManager.cs:48-57 | The loop does nothing unless the game is started, and keeps the manager, the object list and the scene's validity |
| TurnManager.StartMove | Assets/MyAssets/TurnManager/Scripts/TurnManager.cs:59-67 | Refused while started. Otherwise the game is started and the object list is the objects found |
| TurnManager.LatchedTurnIsNoOp | Assets/MyAssets/TurnManager/Scripts/TurnManager.cs:20 | Once the latch is set a turn changes nothing |
| TurnManager.ClearScreenAtMostOnce | Assets/MyAssets/TurnManager/Scripts/TurnManager.cs:29-33 | However many turns run, the clear screen is shown at most once, never again after latching, and only together with the latch |
| TurnManager.NoPlayersClearAtOnce | Assets/MyAssets/GM/Scripts/GameManager.cs:30-37 | With no registered player, the first turn that reconciles cleanly latches and shows the clear screen |
| TurnManager.StartRunsAnImmediateTurn | Assets/MyAssets/TurnManager/Scripts/TurnManager.cs:59-67 | Starting a stopped game runs one turn at once with the latch cleared and the found objects registered |
| UndoManager.FirstPlayer | Assets/MyAssets/GM/Scripts/UndoManager.cs:39 | The first player slot of the scene, or none when there is no player |
| UndoManager.FirstPlayerFollowsCast | Assets/MyAssets/GM/Scripts/UndoManager.cs:72 | Two states of the same scene have their first player in the same slot |
| UndoManager.BoxStates | Assets/MyAssets/GM/Scripts/UndoManager.cs:47-54 | Every box's state is listed, and every listed state is some box's |
| UndoManager.Insert | Assets/MyAssets/GM/Scripts/UndoManager.cs:48 | Inserting into an id-sorted list keeps it sorted and adds exactly that element |
| UndoManager.SortById | Assets/MyAssets/GM/Scripts/UndoManager.cs:47-48 | OrderBy(GetInstanceID): sorted by id and a permutation of its input |
| UndoManager.Lookup | Assets/MyAssets/GM/Scripts/UndoManager.cs:83 | FirstOrDefault by id: a hit is in the list with that id, and a miss means no element has it |
| UndoManager.Snapshot | Assets/MyAssets/GM/Scripts/UndoManager.cs:42-56 | The snapshot holds the player's cell and facing, the clear flag, the grid, and the box states sorted by id as a permutation of the scene's |
| UndoManager.Record | Assets/MyAssets/GM/Scripts/UndoManager.cs:37-59 | With no player the history is unchanged. Otherwise exactly one snapshot is pushed on top |
| UndoManager.Clear | Assets/MyAssets/GM/Scripts/UndoManager.cs:32-35 | The history is empty |
| UndoManager.RestoreBox | Assets/MyAssets/GM/Scripts/UndoManager.cs:81-89 | A box with a recorded id gets that position and TargetPos. A box with none is untouched |
| UndoManager.Restore | Assets/MyAssets/GM/Scripts/UndoManager.cs:67-92 | The grid and clear flag come from the snapshot, and the first player gets its cell and facing. Every box is restored by id. Characters and other players are untouched and every slot keeps its kind |
| UndoManager.Undo | Assets/MyAssets/GM/Scripts/UndoManager.cs:61-100 | Nothing on an empty history. Otherwise the top snapshot is popped and restored, and the grid is the reset snapshot grid re-stamped by the objects found. It throws exactly when one of them is a player off that grid, and a cell none of them may stamp holds the reset value |
| UndoManager.UndoPopsLastRecord | Assets/MyAssets/GM/Scripts/UndoManager.cs:58-65 | Undo after Record gives back the history as it was before (LIFO) |
| UndoManager.UndoAfterClearIsNoOp | Assets/MyAssets/GM/Scripts/UndoManager.cs:32-63 | After Clear, Undo changes nothing |
| UndoManager.UndoResetsSnapshotGrid | Assets/MyAssets/GM/Scripts/UndoManager.cs:95-99 | The re-stamping starts from the snapshot grid with its dynamic marks reset |
| UndoManager.SnapshotFindsEveryBox | Assets/MyAssets/GM/Scripts/UndoManager.cs:47-89 | With unique instance ids, looking up a box's id in the sorted snapshot finds that box's own state |
| UndoManager.UndoRestoresRecord | Assets/MyAssets/GM/Scripts/UndoManager.cs:37-92 | Record then Undo, whatever happened between, restores the player's cell and facing, every box's cell and TargetPos, and the clear flag. Characters stay where they are |
| SwipeInput.BaseDirection | Assets/MyAssets/Player/Scripts/SwipeInputController.cs:118-127 | Horizontal only when strictly wider than tall (right or left by sign), else forward or back |
| SwipeInput.MapIsRotation | Assets/MyAssets/Player/Scripts/SwipeInputController.cs:155-201 | On the four directions, camera 0 is the identity, 1 a quarter turn counter-clockwise, 2 a reversal and 3 a quarter turn clockwise |
| SwipeInput.MapOutsideTableIsIdentity | Assets/MyAssets/Player/Scripts/SwipeInputController.cs:155-201 | Any other index or direction is returned unchanged |
| SwipeInput.ProcessPointerEnd | Assets/MyAssets/Player/Scripts/SwipeInputController.cs:88-130 | A quick short release is a tap. A tap only forgets the pending tap exactly when UI taps are suppressed and it is over UI. Otherwise it undoes exactly when it comes soon enough after and close enough to the pending tap, and the tap is consumed. A non-tap shorter than the swipe distance is ignored. Any other release is the dominant axis mapped by the camera, with the tap memory kept |
| SwipeInput.UITapBreaksDoubleTap | Assets/MyAssets/Player/Scripts/SwipeInputController.cs:95-113 | With UI taps suppressed, a tap over UI followed by a gameplay tap does not undo. The second tap is recorded as the pending one |
| SwipeInput.ApplyMove | Assets/MyAssets/Player/Scripts/SwipeInputController.cs:132-142 | A zero direction changes nothing. Otherwise every player gets that direction |
| SwipeInput.LastMoveWins | Assets/MyAssets/Player/Scripts/SwipeInputController.cs:132-142 | The later non-zero move overrides an earlier one for every player, a zero move leaves the earlier one standing, and a repeated move changes nothing |
| SwipeInput.TryUndo | Assets/MyAssets/Player/Scripts/SwipeInputController.cs:144-152 | No undo while any player is tweening. Otherwise the undo runs |
| SwipeInput.TapNeverMoves | Assets/MyAssets/Player/Scripts/SwipeInputController.cs:92-114 | A quick short release is one of the three tap outcomes, never a move |
| SwipeInput.ThreeTapsOneUndo | Assets/MyAssets/Player/Scripts/SwipeInputController.cs:102-113 | Three quick taps on one spot give record, undo, record: one undo |
| SwipeInput.ShortDragIgnored | Assets/MyAssets/Player/Scripts/SwipeInputController.cs:117 | A long press that moves less than the swipe distance does nothing and keeps the pending tap |
| SwipeInput.DiagonalIsVertical | Assets/MyAssets/Player/Scripts/SwipeInputController.cs:120-127 | A drag at exactly 45 degrees counts as vertical |
| CameraController.Rotate | Assets/MyAssets/CameraController/Scripts/CameraController.cs:82-84 | An out-of-range CurrentIndex throws before any write. Otherwise the old camera goes to 0 and the new one to 10, and all others are kept |
| CameraController.RotateRight | Assets/MyAssets/CameraController/Scripts/CameraController.cs:78-85 | No-op on an empty array. Otherwise the index moves to the next camera, wrapping to 0, with the priorities handed over |
| CameraController.RotateLeft | Assets/MyAssets/CameraController/Scripts/CameraController.cs:87-94 | No-op on an empty array. Otherwise the index moves to the previous camera, wrapping to the last, with the priorities handed over |
| CameraController.HandOverKeepsCanonical | Assets/MyAssets/CameraController/Scripts/CameraController.cs:82-84 | From a rig where only the current camera is live, a hand-over leaves only the new camera live |
| CameraController.LeftUndoesRight | Assets/MyAssets/CameraController/Scripts/CameraController.cs:78-94 | RotateLeft undoes RotateRight, and the other way round |
| CameraController.RightRotationsAdvance | Assets/MyAssets/CameraController/Scripts/CameraController.cs:83 | k right rotations, for k up to the camera count, advance the index by k modulo the count and keep only that camera live |
| CameraController.FullTurnRestores | Assets/MyAssets/CameraController/Scripts/CameraController.cs:78-85 | As many right rotations as cameras give back the starting rig |
| CameraController.SwitchView | Assets/MyAssets/CameraController/Scripts/CameraController.cs:18-76 | Toggles Is2DMode. The 2D camera's priority becomes 11 in 2D and 0 in 3D. For indices 0 to 3 its yaw undoes the orbit camera's quarter turns. The orbit cameras are untouched |
| CameraController.SwitchTwiceRestoresMode | Assets/MyAssets/CameraController/Scripts/CameraController.cs:18-32 | Switching twice restores the mode and all priorities |
| CameraController.ShownCameraFollowsMode | Assets/MyAssets/CameraController/Scripts/CameraController.cs:34-76 | In 2D the 2D camera outranks every orbit camera. In 3D the live orbit camera outranks it |
| Arrow.NextArrow | Assets/MyAssets/Arrow/Scripts/Arrow.cs:71-85 | An arrow mark becomes a different arrow mark, and a non-arrow mark is unchanged (the switch has no default) |
| Arrow.FourClicksRestore | Assets/MyAssets/Arrow/Scripts/Arrow.cs:71-85 | Four steps of the R, D, L, U cycle give back the mark |
| Arrow.NextArrowTurnsClockwise | Assets/MyAssets/Arrow/Scripts/Arrow.cs:71-85 | The next arrow's tile facing is the old one turned a quarter clockwise |
| Arrow.RotationParentGimic | Assets/MyAssets/Arrow/Scripts/Arrow.cs:63-87 | The rotate sound always plays. It throws exactly when the parent has no DraggableGimmic, or when the piece is an arrow and there is no StageBuilder. An arrow piece is retyped and its new mark written into the dynamic grid at its cell. Any other piece, and the board after a throw, are unchanged |
| Arrow.ClickTurnsTheTile | Assets/MyAssets/Arrow/Scripts/Arrow.cs:63-87 | After a click, a character arriving on the tile is turned a quarter clockwise from where the old tile turned it |
| Arrow.FourClicksRestoreTile | Assets/MyAssets/Arrow/Scripts/Arrow.cs:63-87 | Four clicks on an arrow tile restore the piece and both grids |
| DraggableGimmic.NewPiece | Assets/MyAssets/DraggableGimmic/Scripts/DraggableGimmic.cs:11-14 | A new piece is not dragging and its last drag cell is the zero cell |
| DraggableGimmic.Place | Assets/MyAssets/DraggableGimmic/Scripts/DraggableGimmic.cs:92-100 | B, M and P are written into the main grid and any other mark into the dynamic grid. Exactly that cell of that grid changes |
| DraggableGimmic.PickUp | Assets/MyAssets/DraggableGimmic/Scripts/DraggableGimmic.cs:16-38 | Ignored once started. Otherwise dragging starts and the snapped cell becomes `'N'` in the main grid, then the dynamic grid. A cell outside either grid throws before the collider and dragging flag are set |
| DraggableGimmic.Across | Assets/MyAssets/DraggableGimmic/Scripts/DraggableGimmic.cs:49-60 | A hit on a side face moves half a block outward along its normal, and a hit on a top or bottom face stays |
| DraggableGimmic.Drag | Assets/MyAssets/DraggableGimmic/Scripts/DraggableGimmic.cs:40-83 | Only a non-UI hit while dragging moves the piece, to the centre of the cell across the face. The drag sound plays and the cell is recorded exactly when it is a valid cell different from the last. No StageBuilder throws |
| DraggableGimmic.Drop | Assets/MyAssets/DraggableGimmic/Scripts/DraggableGimmic.cs:85-104 | Ignored once started. A missing collider or StageBuilder throws. Otherwise the collider is re-enabled, the mark is routed by Place, dragging clears and the drop sound plays |
| DraggableGimmic.SetCellTypeFromArrow | Assets/MyAssets/DraggableGimmic/Scripts/DraggableGimmic.cs:126-139 | The piece takes the mark even when the write throws, which it does exactly when there is no StageBuilder. Otherwise the mark is written at the piece's cell in the grid it belongs to |
| DraggableGimmic.PickUpThenDropRestores | Assets/MyAssets/DraggableGimmic/Scripts/DraggableGimmic.cs:16-104 | Picking up and dropping a piece in place restores both grids exactly |
| DraggableGimmic.DropLandsWhereDragged | Assets/MyAssets/DraggableGimmic/Scripts/DraggableGimmic.cs:40-104 | After a drag, the drop writes the mark at the cell across the face last hit, in the right grid |
| DraggableGimmic1.NewPiece | Assets/MyAssets/DraggableGimmic/Scripts/DraggableGimmic1.cs:9 | A new piece is a `'G'` that is not dragging |
| DraggableGimmic1.PickUp | Assets/MyAssets/DraggableGimmic/Scripts/DraggableGimmic1.cs:11-32 | No start gate. The grab offset is remembered, and the snapped cell is cleared in both grids, throwing when outside either |
| DraggableGimmic1.Settle | Assets/MyAssets/DraggableGimmic/Scripts/DraggableGimmic1.cs:61-74 | An empty cell is used as is and an occupied one is lifted exactly one layer, never more. Outside the grid the read throws |
| DraggableGimmic1.Drag | Assets/MyAssets/DraggableGimmic/Scripts/DraggableGimmic1.cs:34-54 | The piece follows mouse plus offset to the settled cell. No StageBuilder, or a cell outside the grid, throws |
| DraggableGimmic1.Drop | Assets/MyAssets/DraggableGimmic/Scripts/DraggableGimmic1.cs:56-80 | A missing collider throws. With a StageBuilder the mark goes into the main grid at the settled cell (the dynamic grid is never written). Without one the grids are untouched |
| DraggableGimmic1.DropOverOccupiedOverwritesAbove | Assets/MyAssets/DraggableGimmic/Scripts/DraggableGimmic1.cs:69-77 | A drop on an occupied cell keeps that cell and overwrites the cell above, whatever it held |
| DraggableGimmic1.DropOnEmptyStaysPut | Assets/MyAssets/DraggableGimmic/Scripts/DraggableGimmic1.cs:56-80 | A drop on an empty cell writes the mark exactly there |
| DraggableGimmic1.PickUpThenDropInPlace | Assets/MyAssets/DraggableGimmic/Scripts/DraggableGimmic1.cs:11-80 | Pick-up then drop in place puts the mark back in the main grid and leaves the dynamic cell `'N'` |
| Supabase.TrimEnd | Assets/MyAssets/Supabase/Scripts/Supabase.cs:172 | A prefix of the input, without a trailing slash, having dropped only slashes |
| Supabase.TrimStart | Assets/MyAssets/Supabase/Scripts/Supabase.cs:173 | A suffix of the input, without a leading slash, having dropped only slashes |
| Supabase.TrimIdempotent | Assets/MyAssets/Supabase/Scripts/Supabase.cs:172-173 | Trimming twice trims nothing more |
| Supabase.ShowInt | Assets/MyAssets/Supabase/Scripts/Supabase.cs:183 | int.ToString: a non-empty text that starts with '-' exactly for a negative int and is decimal digits otherwise |
| Supabase.ShowIntRoundTrip | Assets/MyAssets/Supabase/Scripts/Supabase.cs:183 | Reading back the decimal text of an int gives the int |
| Supabase.ShowIntInjective | Assets/MyAssets/Supabase/Scripts/Supabase.cs:183 | Different ints have different decimal texts |
| Supabase.DisplayNumber | Assets/MyAssets/Supabase/Scripts/Supabase.cs:182 | The index, or index+1 when one-based, with int.MaxValue wrapping to int.MinValue |
| Supabase.ResolveStagePath | Assets/MyAssets/Supabase/Scripts/Supabase.cs:177-189 | prefix + number + extension, under the slash-trimmed folder with one '/' when a folder is set. Stage 0 without a StageBuilder. Never empty |
| Supabase.DistinctStagesDistinctPaths | Assets/MyAssets/Supabase/Scripts/Supabase.cs:177-189 | Different stages get different object paths, wrap-around included |
| Supabase.BuildFileUrl | Assets/MyAssets/Supabase/Scripts/Supabase.cs:157-175 | A direct URL is returned verbatim, then an absolute http(s) path. There is no URL exactly when project URL, bucket or path is missing. Otherwise the URL is trimmed base + public or private prefix + bucket + '/' + trimmed path |
| Supabase.ComposedUrlJoinsCleanly | Assets/MyAssets/Supabase/Scripts/Supabase.cs:170-174 | The composed URL starts with the base, which has no trailing slash, and ends after the bucket and one '/' with the path minus its leading slashes. Those two joins never double a slash |
| Supabase.BucketSlashDoublesUp | Assets/MyAssets/Supabase/Scripts/Supabase.cs:170-174 | The bucket is not trimmed. A bucket ending in '/' gives two slashes before the object path, and one starting with '/' gives two right after the storage prefix |
| Supabase.PlaybackUrl | Assets/MyAssets/Supabase/Scripts/Supabase.cs:210-218 | Playback stops exactly when the file URL built from the resolved stage path is missing or empty, and otherwise plays that URL. A set direct URL is played as it is. Otherwise an http(s) stage path is played as it is, and any other path gets the trimmed base, the prefix, the bucket, '/' and the trimmed path |
| Supabase.StageAlwaysHasUrl | Assets/MyAssets/Supabase/Scripts/Supabase.cs:212-218 | With a project URL and a bucket set, every stage has a URL to play |
| Supabase.ShouldDownload | Assets/MyAssets/Supabase/Scripts/Supabase.cs:220-221 | Download when asked to, never for a public bucket unless asked, and always for a private bucket without an http(s) direct URL |
| Supabase.StreamsExactlyWhen | Assets/MyAssets/Supabase/Scripts/Supabase.cs:220-221 | The video streams exactly when it is streamable (public bucket or absolute direct URL) and download is not preferred |

## Left out

- Tweens, timing and coroutines. DOMove, DOVirtual.DelayedCall, WaitForSeconds and the Animator are engine scheduling. A move is a target plus a flag that `Arrive` completes. The delayed completion is the `goalPending` flag. One second of the turn loop is one `Settle`.
- TurnManager.Rounds: the coroutine's unbounded loop is cut at `n` turns, so behaviour after any finite number of turns is modelled but not an infinite run.
- Object discovery. FindObjectsOfType and FindObjectOfType are replaced by explicit slot lists (`found`, `turnObjects`), taken in the order the engine would return them. The engine's order itself is not modelled.
- The turn loop started at the end of GenerateStage for debugging (StageBuilder.cs:115). The Update methods that poll input, and Arrow's deactivation once the run starts, are engine callbacks.
- Rendering and UI: SpawnBlock and Instantiate, camera lens, blend and orthographic settings, StageBuilder.SwitchTo2DView and SwitchTo3DView, and the StageSelectUI calls (clear screen, start UI, rotate buttons). The clear screen is a counter.
- Raycasts and mouse projection. The hit (point, normal, UI layer) and the mouse's world point are parameters.
- Floating point. World coordinates are exact reals. Mathf rounding is modelled with ties to even. Unity's approximate Vector3 equality is taken as exact.
- Reading the resource is a parameter of LoadStage: the text, or None for a missing TextAsset. The error log is not modelled.
- The partly filled grid GenerateStage leaves when it throws mid-fill. The model reports MalformedStage and no grid.
- MoveBoxes.TryPush: MoveBox.cs does not define TryPush, which TurnBasedCharacter.cs:252 calls. The pushed box is taken to move one cell, TargetPos included.
- RebuildFragilesFromGrid, Player.TeleportTo, Player.GetIsComplete, Player.Direction and UndoManager.UndoForCurrentInput belong to other revisions:
  - fragile tiles are not modelled;
  - a restored player is given its cell and facing;
  - a player's completion is a flag;
  - ApplyMove returns the players' new directions;
  - TryUndo calls Undo.
- Characters are not in undo snapshots, as in UndoManager.cs.
- StageBuilder.stageNumber's origin (stage selection) is not modelled. It is a field of the world.
- Supabase.IsHttp, Supabase.BuildFileUrl, Supabase.PlaybackUrl and Supabase.ShouldDownload: the C# `StartsWith(string)` calls (Supabase.cs:161,220) compare in the current culture, which skips ignorable code points such as U+00AD. The model compares strings ordinally, so a path like "\u00ADhttps://x" is not taken as a web address here although C# may take it as one.
- Supabase.ShowInt and Supabase.ResolveStagePath: the stage number is formatted as in the invariant culture, with '-' as the negative sign. A culture whose NegativeSign differs (U+2212 under ICU for sv-SE) gives a different file name for a negative stage number.
- Supabase networking, audio and video playback, temporary files, request headers and Path.GetExtension. SanitizeProjectUrl's System.Uri parsing is a function parameter. C# null strings are the empty string, and a null URL is None.
- SwipeInput.MapByCameraIndex carries no ensures of its own. Its table is stated by SwipeInput.MapIsRotation and SwipeInput.MapOutsideTableIsIdentity.
- TurnBasedCharacter.RefusedPushMovesNoBox: the reversed facing is stated only for walkers. A robot's own goal check can flip it a second time.
- TurnBasedCharacter.RobotTurnsAtGoal: stated for a robot with no pending completion. A robot never has one (TurnBasedCharacter.RobotNeverCompletes).
- TurnBasedCharacter.OnTurn: the contract states the frame conditions. The 3D and 2D outcomes are stated by the lemmas about OnTurn3D and OnTurn2D.
- TurnManager.ActAll: its own contract covers players, unlisted characters, kinds, flags and saved prefixes. The turn of a listed character is stated through TurnManager.ActAllSingle and TurnManager.ActAllSnoc.
- Supabase.ComposedUrlJoinsCleanly: only the base join and the path join are promised clean. The bucket setting is copied as given, so a slash at either end of it doubles up (Supabase.BucketSlashDoublesUp).
- Offsets stored but never read, such as DraggableGimmic's `offset` field, are not modelled.
- The swipe distance tests compare squared distances. That agrees with Vector2.Distance, including for negative thresholds, which match nothing.

=== FILE: actors.dfy ===
/** The objects that take part in turns (the ITurnBased implementations) and
    their state, with positions as grid cells. */
module Actors {
  import opened Cells
  import opened Wrappers

  /** TurnbsedCharacter itself, or its Robot subclass (which overrides
      CheckGoal and UpdateGridData). */
  datatype Kind = Walker | Robot

  /** A TurnbsedCharacter.
      `pos`: transform.position; `facing`: transform.forward;
      `next`: nextPos, which keeps its value between turns;
      `moving`: isMoving, true while a move tween runs;
      `complete`: isComplete;
      `goalPending`: a goal was reached and the delayed `isComplete = true` is
      still waiting to fire. */
  datatype Character = Character(
    kind: Kind,
    pos: Vec,
    facing: Vec,
    next: Vec,
    moving: bool,
    complete: bool,
    goalPending: bool)

  /** Player: a position and a facing; `complete` stands for GetIsComplete,
      which GameManager asks of every registered player. */
  datatype Player = Player(pos: Vec, facing: Vec, complete: bool)

  /** MoveBox with its instance id, position and TargetPos. */
  datatype MoveBox = MoveBox(id: int, pos: Vec, target: Vec)

  datatype Actor =
    | AsCharacter(character: Character)
    | AsPlayer(player: Player)
    | AsBox(box: MoveBox)

  /** A freshly spawned character: nextPos is a zero vector until the first turn. */
  function NewCharacter(kind: Kind, pos: Vec, facing: Vec): Character {
    Character(kind, pos, facing, Zero, false, false, false)
  }

  /** `after` differs from `before` at most in the positions of boxes: same
      length, same kind of object in every slot, same box ids. */
  predicate OnlyBoxesMoved(before: seq<Actor>, after: seq<Actor>) {
    && |after| == |before|
    && (forall i :: 0 <= i < |before| && !before[i].AsBox? ==> after[i] == before[i])
    && (forall i :: 0 <= i < |before| && before[i].AsBox? ==> after[i].AsBox? && after[i].box.id == before[i].box.id)
  }

  /** The first box (in object order) standing on `cell`, as the search loop
      of TurnbsedCharacter.TryHandleMoveBox finds it. */
  function FirstBoxAt(actors: seq<Actor>, cell: Vec): (r: Option<nat>)
    ensures r.Some? ==> r.value < |actors| && actors[r.value].AsBox? && actors[r.value].box.pos == cell
    ensures r.Some? ==> forall j :: 0 <= j < r.value && actors[j].AsBox? ==> actors[j].box.pos != cell
    ensures r.None? ==> forall j :: 0 <= j < |actors| && actors[j].AsBox? ==> actors[j].box.pos != cell
  {
    if |actors| == 0 then None
    else if actors[0].AsBox? && actors[0].box.pos == cell then Some(0)
    else match FirstBoxAt(actors[1..], cell)
      case None => None
      case Some(k) => Some(k + 1)
  }

  /** The kind of object in a slot: character (with its subclass), player or box. */
  function Cast(a: Actor): (int, int) {
    match a
    case AsCharacter(c) => (0, if c.kind == Walker then 0 else 1)
    case AsPlayer(_) => (1, 0)
    case AsBox(b) => (2, b.id)
  }

  /** Two object lists with the same kind of object, and the same box ids,
      in every slot: the state of the same scene at two moments. */
  predicate SameCast(before: seq<Actor>, after: seq<Actor>) {
    && |after| == |before|
    && forall i :: 0 <= i < |before| ==> Cast(after[i]) == Cast(before[i])
  }

  lemma OnlyBoxesMovedKeepsCast(before: seq<Actor>, after: seq<Actor>)
    requires OnlyBoxesMoved(before, after)
    ensures SameCast(before, after)
  {
  }
}

=== FILE: arrow.dfy ===
/** Arrow: the button on an arrow tile that turns the tile a quarter turn and
    re-types it R → D → L → U → R, so characters stepping on it are sent a
    quarter turn further clockwise. */
module Arrow {
  import opened Cells
  import opened Wrappers
  import opened StageGrid
  import opened WorldUnits
  import opened DraggableGimmic
  import TBC = TurnBasedCharacter
  import StageBuilder

  predicate IsArrow(t: char) {
    t == 'R' || t == 'D' || t == 'L' || t == 'U'
  }

  /** The re-typing of RotationParentGimic; a mark that is not an arrow has
      no case in the switch. */
  function NextArrow(t: char): (r: char)
    ensures IsArrow(t) <==> IsArrow(r)
    ensures IsArrow(t) ==> r != t
    ensures !IsArrow(t) ==> r == t
  {
    match t
    case 'R' => 'D'
    case 'D' => 'L'
    case 'L' => 'U'
    case 'U' => 'R'
    case _ => t
  }

  /** Four clicks bring every mark back. */
  lemma FourClicksRestore(t: char)
    ensures NextArrow(NextArrow(NextArrow(NextArrow(t)))) == t
  {
  }

  /** The new arrow sends a character a quarter turn clockwise (seen from
      above) from where the old arrow sent it, whatever it faced before. */
  lemma NextArrowTurnsClockwise(t: char, facing: Vec)
    requires IsArrow(t)
    ensures TBC.TileFacing(NextArrow(t), facing) == TurnClockwise(TBC.TileFacing(t, facing))
  {
  }

  /** RotationParentGimic on the piece the arrow belongs to (Start always
      sets topParent, so the guard holds): the rotate sound plays, then the
      piece's mark is read. `hasGimmic` says whether the arrow's parent
      carries a DraggableGimmic; without one, reading the mark throws. An
      arrow piece is re-typed through SetCellTypeFromArrow, which writes the
      new arrow into the dynamic grid at the piece's cell and throws with no
      StageBuilder; any other piece keeps its mark and the board is
      untouched. */
  function RotationParentGimic(s: Scene, hasGimmic: bool, hasBuilder: bool): (r: Step<Scene>)
    ensures r.Threw? <==> !hasGimmic || (IsArrow(s.piece.cellType) && !hasBuilder)
    ensures r.State().sounds == s.sounds + [RotateSound]
    ensures r.State().inputDragging == s.inputDragging && r.State().board.grid == s.board.grid
    ensures !hasGimmic ==> r.partial.piece == s.piece && r.partial.board == s.board
    ensures hasGimmic ==> r.State().piece == s.piece.(cellType := NextArrow(s.piece.cellType))
    ensures r.Threw? || !IsArrow(s.piece.cellType) ==> r.State().board == s.board
    ensures r.Done? && IsArrow(s.piece.cellType) ==>
      WroteCell(s.board.dynamic, r.value.board.dynamic, GridFromWorld(s.piece.pos), NextArrow(s.piece.cellType))
  {
    var s1 := s.(sounds := s.sounds + [RotateSound]);
    if !hasGimmic then Threw(s1)
    else if IsArrow(s.piece.cellType) then SetCellTypeFromArrow(s1, NextArrow(s.piece.cellType), hasBuilder)
    else Done(s1)
  }

  /** A click on a scene whose piece and StageBuilder are both present. */
  function Click(s: Scene): (r: Scene)
    ensures RotationParentGimic(s, true, true) == Done(r)
  {
    RotationParentGimic(s, true, true).value
  }

  /** After a click on an arrow piece standing inside the grid, a character
      finishing a move onto the piece's cell turns a quarter turn clockwise
      from where the old tile would have turned it. */
  lemma ClickTurnsTheTile(s: Scene, facing: Vec)
    requires IsArrow(s.piece.cellType)
    requires InBounds(s.board.dynamic, GridFromWorld(s.piece.pos))
    ensures var cell := GridFromWorld(s.piece.pos);
      TBC.UpdateForwardFromDynamic(Click(s).board.dynamic, cell, facing)
        == TurnClockwise(TBC.TileFacing(s.piece.cellType, facing))
  {
    OneClick(s);
    hide Click, RotationParentGimic;
    NextArrowTurnsClockwise(s.piece.cellType, facing);
  }

  /** Clicking `k` times. */
  function Clicks(s: Scene, k: nat): Scene
    decreases k
  {
    if k == 0 then s else Clicks(Click(s), k - 1)
  }

  /** `b` has the shape of `a` and the same cells except, perhaps, `cell`. */
  ghost predicate AgreeBesides(a: Grid, b: Grid, cell: Vec) {
    && SameShape(a, b)
    && (forall q :: InBounds(b, q) <==> InBounds(a, q))
    && (forall q :: InBounds(a, q) && q != cell ==> At(b, q) == At(a, q))
  }

  lemma AgreeBesidesTrans(a: Grid, b: Grid, c: Grid, cell: Vec)
    requires AgreeBesides(a, b, cell) && AgreeBesides(b, c, cell)
    ensures AgreeBesides(a, c, cell)
  {
  }

  /** One click on an arrow piece inside the grid, as seen from its cell. */
  lemma OneClick(s: Scene)
    requires IsArrow(s.piece.cellType)
    requires InBounds(s.board.dynamic, GridFromWorld(s.piece.pos))
    ensures var r := Click(s);
      && r.piece == s.piece.(cellType := NextArrow(s.piece.cellType))
      && r.board.grid == s.board.grid
      && AgreeBesides(s.board.dynamic, r.board.dynamic, GridFromWorld(s.piece.pos))
      && At(r.board.dynamic, GridFromWorld(s.piece.pos)) == NextArrow(s.piece.cellType)
  {
    SameShapeInBounds(s.board.dynamic, Click(s).board.dynamic);
  }

  /** Four clicks on an arrow piece inside the grid restore its mark and its
      tile; only the rotate sounds remain. */
  lemma FourClicksRestoreTile(s: Scene)
    requires IsArrow(s.piece.cellType)
    requires InBounds(s.board.dynamic, GridFromWorld(s.piece.pos))
    requires At(s.board.dynamic, GridFromWorld(s.piece.pos)) == s.piece.cellType
    ensures Clicks(s, 4).piece == s.piece
    ensures Clicks(s, 4).board == s.board
  {
    var cell := GridFromWorld(s.piece.pos);
    var t := s.piece.cellType;
    var s1 := Click(s);
    var s2 := Click(s1);
    var s3 := Click(s2);
    var s4 := Click(s3);
    assert Clicks(s, 4) == s4 by {
      assert Clicks(s, 4) == Clicks(s1, 3);
      assert Clicks(s1, 3) == Clicks(s2, 2);
      assert Clicks(s2, 2) == Clicks(s3, 1);
    }
    hide Click, RotationParentGimic;
    OneClick(s);
    OneClick(s1);
    OneClick(s2);
    OneClick(s3);
    AgreeBesidesTrans(s.board.dynamic, s1.board.dynamic, s2.board.dynamic, cell);
    AgreeBesidesTrans(s.board.dynamic, s2.board.dynamic, s3.board.dynamic, cell);
    AgreeBesidesTrans(s.board.dynamic, s3.board.dynamic, s4.board.dynamic, cell);
    FourClicksRestore(t);
    StageBuilder.GridExtensionality(s4.board.dynamic, s.board.dynamic);
  }
}

=== FILE: camera_controller.dfy ===
/** CameraController: the ring of orbiting virtual cameras that RotateRight and
    RotateLeft step through, and the switch between the 3D view and the
    top-down 2D camera. A Cinemachine brain shows the virtual camera with the
    highest priority; only the priorities and the index are modelled. */
module CameraController {
  import opened Wrappers
  import GM = GameManager

  /** Priority of the orbit camera that is in use, and of the others. */
  const Live: int := 10
  const Idle: int := 0
  /** Priority of the 2D camera while the 2D view is on, and while it is off. */
  const Overlay: int := 11
  const Hidden: int := 0

  /** `priorities`: virtualCameras[i].Priority; `index`: CurrentIndex, a public
      property any caller may set; `overlayPriority` and `overlayYaw`: the
      priority of virtualCamera2D and the yaw (degrees) of its rotation. */
  datatype Rig = Rig(priorities: seq<int>, index: int, overlayPriority: int, overlayYaw: int)

  predicate IndexInRange(r: Rig) {
    0 <= r.index < |r.priorities|
  }

  /** The priorities a rotation leaves: exactly the camera at `r.index` is live. */
  predicate Canonical(r: Rig) {
    && IndexInRange(r)
    && forall i :: 0 <= i < |r.priorities| ==> r.priorities[i] == (if i == r.index then Live else Idle)
  }

  /** `after` is `before` with the live camera handed from `before.index` to
      `after.index`: the old camera drops to Idle (unless it is also the new
      one), the new one is Live, every other priority and the 2D camera are
      untouched. */
  predicate HandedOver(before: Rig, after: Rig) {
    && IndexInRange(before) && IndexInRange(after)
    && |after.priorities| == |before.priorities|
    && after.priorities[after.index] == Live
    && (before.index != after.index ==> after.priorities[before.index] == Idle)
    && (forall i :: 0 <= i < |before.priorities| && i != before.index && i != after.index ==>
          after.priorities[i] == before.priorities[i])
    && after.overlayPriority == before.overlayPriority
    && after.overlayYaw == before.overlayYaw
  }

  /** The shared body of the two rotations: idle the current camera, move the
      index to `next`, make that camera live. Indexing the array with an
      out-of-range CurrentIndex throws before anything is written. */
  function Rotate(r: Rig, next: int): (s: Step<Rig>)
    requires |r.priorities| > 0 && 0 <= next < |r.priorities|
    ensures !IndexInRange(r) ==> s == Threw(r)
    ensures IndexInRange(r) ==> s.Done? && s.value.index == next && HandedOver(r, s.value)
  {
    if !IndexInRange(r) then Threw(r)
    else
      var idled := r.priorities[r.index := Idle];
      Done(r.(priorities := idled[next := Live], index := next))
  }

  /** The remainder of a number below twice the divisor. */
  lemma WrapOnce(a: int, n: int)
    requires 0 <= a < 2 * n
    ensures a % n == if a < n then a else a - n
  {
  }

  /** RotateRight: an empty camera array is left alone; otherwise the next
      camera in the ring, wrapping from the last back to the first, becomes
      live. The C# remainder is taken of a non-negative number here, so it
      agrees with Dafny's. */
  function RotateRight(r: Rig): (s: Step<Rig>)
    ensures |r.priorities| == 0 ==> s == Done(r)
    ensures |r.priorities| > 0 && !IndexInRange(r) ==> s == Threw(r)
    ensures IndexInRange(r) ==>
      && s.Done? && HandedOver(r, s.value)
      && (if r.index + 1 < |r.priorities| then s.value.index == r.index + 1 else s.value.index == 0)
  {
    if |r.priorities| == 0 then Done(r)
    else if !IndexInRange(r) then Threw(r)
    else
      WrapOnce(r.index + 1, |r.priorities|);
      Rotate(r, (r.index + 1) % |r.priorities|)
  }

  /** RotateLeft: the previous camera in the ring, wrapping from the first to
      the last. */
  function RotateLeft(r: Rig): (s: Step<Rig>)
    ensures |r.priorities| == 0 ==> s == Done(r)
    ensures |r.priorities| > 0 && !IndexInRange(r) ==> s == Threw(r)
    ensures IndexInRange(r) ==>
      && s.Done? && HandedOver(r, s.value)
      && (if r.index > 0 then s.value.index == r.index - 1 else s.value.index == |r.priorities| - 1)
  {
    if |r.priorities| == 0 then Done(r)
    else if !IndexInRange(r) then Threw(r)
    else
      WrapOnce(r.index - 1 + |r.priorities|, |r.priorities|);
      Rotate(r, (r.index - 1 + |r.priorities|) % |r.priorities|)
  }

  /** A hand-over out of a canonical rig yields the canonical rig of the new index. */
  lemma HandOverKeepsCanonical(before: Rig, after: Rig)
    requires Canonical(before) && HandedOver(before, after)
    ensures Canonical(after)
  {
  }

  /** Two canonical rigs that agree on index and on the 2D camera are equal. */
  lemma CanonicalDeterminedByIndex(a: Rig, b: Rig)
    requires Canonical(a) && Canonical(b)
    requires |a.priorities| == |b.priorities| && a.index == b.index
    requires a.overlayPriority == b.overlayPriority && a.overlayYaw == b.overlayYaw
    ensures a == b
  {
    assert a.priorities == b.priorities by {
      forall i | 0 <= i < |a.priorities|
        ensures a.priorities[i] == b.priorities[i]
      {
      }
    }
  }

  /** Rotating left undoes rotating right, and the other way round, on a rig
      where only the current camera is live. */
  lemma LeftUndoesRight(r: Rig)
    requires Canonical(r)
    ensures RotateRight(r).Done? && RotateLeft(RotateRight(r).value) == Done(r)
    ensures RotateLeft(r).Done? && RotateRight(RotateLeft(r).value) == Done(r)
  {
    var right := RotateRight(r).value;
    HandOverKeepsCanonical(r, right);
    var back := RotateLeft(right).value;
    HandOverKeepsCanonical(right, back);
    CanonicalDeterminedByIndex(back, r);

    var left := RotateLeft(r).value;
    HandOverKeepsCanonical(r, left);
    var forth := RotateRight(left).value;
    HandOverKeepsCanonical(left, forth);
    CanonicalDeterminedByIndex(forth, r);
  }

  /** `k` presses of the right-rotation button; the first exception ends the run. */
  function RotateRightTimes(r: Rig, k: nat): Step<Rig>
    decreases k
  {
    if k == 0 then Done(r)
    else match RotateRight(r)
      case Threw(p) => Threw(p)
      case Done(r1) => RotateRightTimes(r1, k - 1)
  }

  /** After `k` (at most one full turn of) right rotations of a canonical rig,
      the rig is canonical, the index has advanced by `k` around the ring, and
      the 2D camera is untouched. */
  lemma {:induction false} RightRotationsAdvance(r: Rig, k: nat)
    requires Canonical(r) && k <= |r.priorities|
    ensures RotateRightTimes(r, k).Done?
    ensures var s := RotateRightTimes(r, k).value;
      && Canonical(s) && |s.priorities| == |r.priorities|
      && s.index == (if r.index + k < |r.priorities| then r.index + k else r.index + k - |r.priorities|)
      && s.overlayPriority == r.overlayPriority && s.overlayYaw == r.overlayYaw
    decreases k
  {
    if k > 0 {
      var r1 := RotateRight(r).value;
      HandOverKeepsCanonical(r, r1);
      RightRotationsAdvance(r1, k - 1);
    }
  }

  /** As many right rotations as there are cameras bring a canonical rig back
      to where it started. */
  lemma FullTurnRestores(r: Rig)
    requires Canonical(r)
    ensures RotateRightTimes(r, |r.priorities|) == Done(r)
  {
    RightRotationsAdvance(r, |r.priorities|);
    CanonicalDeterminedByIndex(RotateRightTimes(r, |r.priorities|).value, r);
  }

  /** SwitchView: flip Is2DMode; entering 2D raises the 2D camera above the
      orbit cameras and turns it to match the orbit camera in use (a quarter
      turn anticlockwise per index, for the four indices it knows; any other
      index keeps the last rotation); leaving 2D drops it to priority 0. */
  function SwitchView(m: GM.Manager, r: Rig): (res: (GM.Manager, Rig))
    ensures res.0 == m.(is2D := !m.is2D)
    ensures res.1.priorities == r.priorities && res.1.index == r.index
    ensures res.1.overlayPriority == (if res.0.is2D then Overlay else Hidden)
    ensures res.0.is2D && 0 <= r.index < 4 ==>
      -180 <= res.1.overlayYaw <= 180 && (res.1.overlayYaw + 90 * r.index) % 360 == 0
    ensures !(res.0.is2D && 0 <= r.index < 4) ==> res.1.overlayYaw == r.overlayYaw
  {
    var m1 := m.(is2D := !m.is2D);
    if m1.is2D then
      var yaw :=
        if r.index == 0 then 0
        else if r.index == 1 then -90
        else if r.index == 2 then 180
        else if r.index == 3 then 90
        else r.overlayYaw;
      (m1, r.(overlayPriority := Overlay, overlayYaw := yaw))
    else
      (m1, r.(overlayPriority := Hidden))
  }

  /** Switching twice restores the mode, the orbit cameras and the 2D
      camera's priority. */
  lemma SwitchTwiceRestoresMode(m: GM.Manager, r: Rig)
    requires r.overlayPriority == (if m.is2D then Overlay else Hidden)
    ensures var once := SwitchView(m, r);
      var twice := SwitchView(once.0, once.1);
      && twice.0 == m
      && twice.1.priorities == r.priorities && twice.1.index == r.index
      && twice.1.overlayPriority == r.overlayPriority
  {
  }

  /** In the 2D view the 2D camera outranks every orbit camera of a canonical
      rig, so the brain shows it; in the 3D view the live orbit camera
      outranks it. */
  lemma ShownCameraFollowsMode(m: GM.Manager, r: Rig)
    requires Canonical(r)
    ensures var res := SwitchView(m, r);
      && (res.0.is2D ==> forall i :: 0 <= i < |r.priorities| ==> res.1.overlayPriority > res.1.priorities[i])
      && (!res.0.is2D ==> res.1.priorities[r.index] > res.1.overlayPriority)
  {
  }
}

=== FILE: cells.dfy ===
/** Integer grid triples. A position is (col, height, row); a direction is a
    unit step in the same axes, so `position + forward * 2.0` of the game is
    `Add(pos, facing)` here. */
module Cells {

  /** x = column, y = height (layer), z = row. */
  datatype Vec = Vec(x: int, y: int, z: int)

  const Zero := Vec(0, 0, 0)
  /** Unity's Vector3.forward, back, right, left, up and down. */
  const Forward := Vec(0, 0, 1)
  const Back := Vec(0, 0, -1)
  const Right := Vec(1, 0, 0)
  const Left := Vec(-1, 0, 0)
  const Up := Vec(0, 1, 0)
  const Down := Vec(0, -1, 0)

  function Add(a: Vec, b: Vec): Vec {
    Vec(a.x + b.x, a.y + b.y, a.z + b.z)
  }

  function Neg(a: Vec): Vec {
    Vec(-a.x, -a.y, -a.z)
  }

  /** The four horizontal unit directions a swipe or an arrow tile can give. */
  predicate IsCardinal(d: Vec) {
    d == Forward || d == Back || d == Right || d == Left
  }

  /** A 90 degree turn about the vertical axis, clockwise seen from above
      (Unity's `Rotate(0, 90, 0)`): forward -> right -> back -> left. */
  function TurnClockwise(d: Vec): Vec {
    Vec(d.z, d.y, -d.x)
  }

  /** The opposite quarter turn: forward -> left -> back -> right. */
  function TurnCounterClockwise(d: Vec): Vec {
    Vec(-d.z, d.y, d.x)
  }
}

=== FILE: draggable_gimmic.dfy ===
/** DraggableGimmic: a placeable piece (block, box, arrow tile, ...) the player
    picks up, drags across the stage and drops before the run starts. Picking
    up clears the piece's cell in both grids; dropping writes the piece's
    cell type into the static grid (blocks 'B', boxes 'M', players 'P') or
    into the dynamic grid (everything else). */
module DraggableGimmic {
  import opened Cells
  import opened Wrappers
  import opened StageGrid
  import opened WorldUnits
  import opened StageBuilder

  /** The sound effects the piece asks AudioManager for. */
  datatype Sound = DragSound | DropSound | RotateSound

  /** StageBuilder's two grids: gridData and dynamicGridData. */
  datatype Board = Board(grid: Grid, dynamic: Grid)

  /** `cellType`: the piece's mark; `pos`: transform.position; `dragging`:
      isDragging; `lastCell`: lastGridPosition, the cell of the last drag
      sound; `collider`: the BoxCollider once fetched, with its enabled flag
      (None before the first pick-up has fetched it). */
  datatype Piece = Piece(cellType: char, pos: Point, dragging: bool, lastCell: Vec, collider: Option<bool>)

  /** The piece together with what it changes outside itself: StageBuilder's
      grids, InputStateManager.IsDragging and the sounds played so far. */
  datatype Scene = Scene(board: Board, piece: Piece, inputDragging: bool, sounds: seq<Sound>)

  /** Start: lastGridPosition begins at the zero cell. */
  function NewPiece(cellType: char, pos: Point): (p: Piece)
    ensures p.cellType == cellType && p.pos == pos && !p.dragging && p.lastCell == Zero
  {
    Piece(cellType, pos, false, Zero, None)
  }

  /** Marks that belong to the static grid rather than the dynamic one. */
  predicate IsGridMark(t: char) {
    t == 'B' || t == 'M' || t == 'P'
  }

  /** `r` is `g` with the cell `p` (when it lies inside the grid) set to `t`
      and nothing else changed. */
  ghost predicate WroteCell(g: Grid, r: Grid, p: Vec, t: char) {
    && SameShape(g, r)
    && (InBounds(g, p) ==> At(r, p) == t)
    && (forall q :: InBounds(g, q) && q != p ==> At(r, q) == At(g, q))
  }

  /** The write shared by OnMouseUp and SetCellTypeFromArrow: UpdateGridAtPosition
      for a static mark, UpdateDynamicTileAtPosition for any other; a position
      outside the grid writes nothing. */
  function Place(b: Board, w: Point, t: char): (r: Board)
    ensures IsGridMark(t) ==> r.dynamic == b.dynamic && WroteCell(b.grid, r.grid, GridFromWorld(w), t)
    ensures !IsGridMark(t) ==> r.grid == b.grid && WroteCell(b.dynamic, r.dynamic, GridFromWorld(w), t)
  {
    var cell := GridFromWorld(w);
    if IsGridMark(t) then b.(grid := Put(b.grid, cell, t))
    else b.(dynamic := Put(b.dynamic, cell, t))
  }

  /** OnMouseDown. Ignored once the run has started. Otherwise the piece
      starts dragging and, when a StageBuilder exists, the cell under the
      snapped position is set to 'N' in the static grid and then in the
      dynamic grid. Those writes index the arrays directly, so a cell outside
      either grid throws, and the collider and the global dragging flag are
      then never touched. */
  function PickUp(s: Scene, isStart: bool, hasBuilder: bool): (r: Step<Scene>)
    ensures isStart ==> r == Done(s)
    ensures !isStart ==> r.State().piece.dragging && r.State().sounds == s.sounds
    ensures !isStart ==> r.State().piece.cellType == s.piece.cellType && r.State().piece.pos == s.piece.pos
    ensures !isStart && r.Done? ==> r.value.inputDragging && r.value.piece.collider == Some(false)
    ensures !isStart && r.Threw? ==> r.partial.inputDragging == s.inputDragging && r.partial.piece.collider == s.piece.collider
    ensures !isStart && !hasBuilder ==> r.Done? && r.value.board == s.board
    ensures !isStart && hasBuilder ==>
      var cell := GridFromWorld(s.piece.pos);
      && (r.Done? <==> InBounds(s.board.grid, cell) && InBounds(s.board.dynamic, cell))
      && (!InBounds(s.board.grid, cell) ==> r.State().board == s.board)
      && WroteCell(s.board.grid, r.State().board.grid, cell, 'N')
      && (r.Done? ==> WroteCell(s.board.dynamic, r.value.board.dynamic, cell, 'N'))
      && (r.Threw? ==> r.partial.board.dynamic == s.board.dynamic)
  {
    if isStart then Done(s)
    else
      var s1 := s.(piece := s.piece.(dragging := true));
      if !hasBuilder then
        Done(s1.(piece := s1.piece.(collider := Some(false)), inputDragging := true))
      else
        var cell := GridFromWorld(SnapToGrid(s.piece.pos));
        SnapKeepsCell(s.piece.pos);
        if !InBounds(s.board.grid, cell) then Threw(s1)
        else
          var s2 := s1.(board := s1.board.(grid := Put(s1.board.grid, cell, 'N')));
          if !InBounds(s.board.dynamic, cell) then Threw(s2)
          else
            var s3 := s2.(board := s2.board.(dynamic := Put(s2.board.dynamic, cell, 'N')));
            Done(s3.(piece := s3.piece.(collider := Some(false)), inputDragging := true))
  }

  /** A raycast hit: the point, the surface normal, and whether the collider
      hit is on the UI layer. */
  datatype Hit = Hit(point: Point, normal: Point, onUI: bool)

  /** Half a block towards the outside of the side face that was hit; a hit on
      a top or bottom face (or any other normal) is not moved. */
  function Across(h: Hit): (w: Point)
    ensures h.normal == Point(1.0, 0.0, 0.0) ==> w == h.point.(x := h.point.x + BlockSize / 2.0)
    ensures h.normal == Point(-1.0, 0.0, 0.0) ==> w == h.point.(x := h.point.x - BlockSize / 2.0)
    ensures h.normal == Point(0.0, 0.0, 1.0) ==> w == h.point.(z := h.point.z + BlockSize / 2.0)
    ensures h.normal == Point(0.0, 0.0, -1.0) ==> w == h.point.(z := h.point.z - BlockSize / 2.0)
    ensures h.normal.x == 0.0 && h.normal.z == 0.0 ==> w == h.point
  {
    var half := BlockSize * 0.5;
    var p := h.point;
    if h.normal == Point(1.0, 0.0, 0.0) then p.(x := p.x + half)
    else if h.normal == Point(-1.0, 0.0, 0.0) then p.(x := p.x - half)
    else if h.normal == Point(0.0, 0.0, 1.0) then p.(z := p.z + half)
    else if h.normal == Point(0.0, 0.0, -1.0) then p.(z := p.z - half)
    else p
  }

  /** OnMouseDrag with the result of the mouse raycast. Nothing happens unless
      the piece is being dragged and the ray hit something off the UI layer.
      The bounds test then asks StageBuilder.Instance without a null check,
      so with no StageBuilder it throws before the piece moves. Otherwise the
      piece moves to the centre of the cell across the face that was hit,
      even outside the grid; inside the grid, entering a cell other than the
      last one recorded plays the drag sound and records it. The grids are
      never touched. */
  function Drag(s: Scene, hit: Option<Hit>, hasBuilder: bool): (r: Step<Scene>)
    ensures r.State().board == s.board && r.State().inputDragging == s.inputDragging
    ensures r.State().piece.cellType == s.piece.cellType && r.State().piece.dragging == s.piece.dragging
    ensures r.State().piece.collider == s.piece.collider
    ensures !s.piece.dragging || hit.None? || hit.value.onUI ==> r == Done(s)
    ensures s.piece.dragging && hit.Some? && !hit.value.onUI && !hasBuilder ==> r == Threw(s)
    ensures s.piece.dragging && hit.Some? && !hit.value.onUI && hasBuilder ==>
      var cell := GridFromWorld(Across(hit.value));
      && r.Done?
      && GridFromWorld(r.value.piece.pos) == cell
      && r.value.piece.pos == WorldFromGrid(cell)
      && (InBounds(s.board.grid, cell) && cell != s.piece.lastCell <==> r.value.sounds == s.sounds + [DragSound])
      && (r.value.sounds == s.sounds || r.value.sounds == s.sounds + [DragSound])
      && r.value.piece.lastCell == (if InBounds(s.board.grid, cell) then cell else s.piece.lastCell)
  {
    if !s.piece.dragging || hit.None? || hit.value.onUI then Done(s)
    else if !hasBuilder then Threw(s)
    else
      var snapped := SnapToGrid(Across(hit.value));
      SnapKeepsCell(Across(hit.value));
      var cell := GridFromWorld(snapped);
      var s1 := s.(piece := s.piece.(pos := snapped));
      if !InBounds(s.board.grid, cell) then Done(s1)
      else if cell != s.piece.lastCell then
        Done(s1.(piece := s1.piece.(lastCell := cell), sounds := s.sounds + [DragSound]))
      else Done(s1)
  }

  /** OnMouseUp. Ignored once the run has started. Otherwise dragging stops,
      the collider is re-enabled (a collider never fetched throws
      NullReferenceException here), the piece's mark is written at its cell
      (StageBuilder.Instance is used without a null check, so with no
      StageBuilder this throws too), the global dragging flag is cleared and
      the drop sound plays. */
  function Drop(s: Scene, isStart: bool, hasBuilder: bool): (r: Step<Scene>)
    ensures isStart ==> r == Done(s)
    ensures !isStart ==> !r.State().piece.dragging
    ensures !isStart ==> r.State().piece.pos == s.piece.pos && r.State().piece.cellType == s.piece.cellType
    ensures !isStart ==> (r.Threw? <==> s.piece.collider.None? || !hasBuilder)
    ensures !isStart && r.Threw? ==>
      && r.partial.board == s.board && r.partial.sounds == s.sounds
      && r.partial.inputDragging == s.inputDragging
      && r.partial.piece.collider == (if s.piece.collider.None? then None else Some(true))
    ensures !isStart && r.Done? ==>
      && r.value.piece.collider == Some(true)
      && !r.value.inputDragging
      && r.value.sounds == s.sounds + [DropSound]
      && r.value.board == Place(s.board, s.piece.pos, s.piece.cellType)
  {
    if isStart then Done(s)
    else
      var s1 := s.(piece := s.piece.(dragging := false));
      if s.piece.collider.None? then Threw(s1)
      else
        var s2 := s1.(piece := s1.piece.(collider := Some(true)));
        if !hasBuilder then Threw(s2)
        else
          Done(s2.(board := Place(s2.board, s2.piece.pos, s2.piece.cellType),
                   inputDragging := false,
                   sounds := s2.sounds + [DropSound]))
  }

  /** SetCellTypeFromArrow: take the new mark and write it at the piece's cell
      (into the grid that mark belongs to). StageBuilder.Instance is used
      without a null check, so with no StageBuilder the piece has already
      taken the mark when the write throws. */
  function SetCellTypeFromArrow(s: Scene, t: char, hasBuilder: bool): (r: Step<Scene>)
    ensures r.Threw? <==> !hasBuilder
    ensures r.State().piece == s.piece.(cellType := t)
    ensures r.State().inputDragging == s.inputDragging && r.State().sounds == s.sounds
    ensures r.Threw? ==> r.partial.board == s.board
    ensures r.Done? && IsGridMark(t) ==>
      r.value.board.dynamic == s.board.dynamic && WroteCell(s.board.grid, r.value.board.grid, GridFromWorld(s.piece.pos), t)
    ensures r.Done? && !IsGridMark(t) ==>
      r.value.board.grid == s.board.grid && WroteCell(s.board.dynamic, r.value.board.dynamic, GridFromWorld(s.piece.pos), t)
  {
    var s1 := s.(piece := s.piece.(cellType := t));
    if !hasBuilder then Threw(s1)
    else Done(s1.(board := Place(s.board, s.piece.pos, t)))
  }

  /** The board is consistent with a piece standing at cell `cell`: its mark
      is in the grid it belongs to and the other grid is empty there. */
  predicate Holds(b: Board, cell: Vec, t: char) {
    && InBounds(b.grid, cell) && InBounds(b.dynamic, cell)
    && At(b.grid, cell) == (if IsGridMark(t) then t else 'N')
    && At(b.dynamic, cell) == (if IsGridMark(t) then 'N' else t)
  }

  /** Picking a piece up clears its cell; dropping it again without dragging
      writes its mark back, in the right grid, and leaves the rest of the
      stage as it was: the pair is a round trip on a board that held the
      piece. */
  lemma PickUpThenDropRestores(s: Scene)
    requires Holds(s.board, GridFromWorld(s.piece.pos), s.piece.cellType)
    ensures PickUp(s, false, true).Done?
    ensures var picked := PickUp(s, false, true).value;
      && Drop(picked, false, true).Done?
      && Drop(picked, false, true).value.board == s.board
  {
    var cell := GridFromWorld(s.piece.pos);
    var picked := PickUp(s, false, true).value;
    var dropped := Drop(picked, false, true).value;
    GridExtensionality(dropped.board.grid, s.board.grid);
    GridExtensionality(dropped.board.dynamic, s.board.dynamic);
  }

  /** A whole drag gesture between pick-up and drop: the piece is dropped on
      the cell across the face the last ray hit, and that cell receives its
      mark. */
  lemma DropLandsWhereDragged(s: Scene, hit: Hit)
    requires s.piece.dragging && !hit.onUI && s.piece.collider.Some?
    ensures Drag(s, Some(hit), true).Done?
    ensures var dropped := Drop(Drag(s, Some(hit), true).value, false, true);
      var cell := GridFromWorld(Across(hit));
      && dropped.Done?
      && (IsGridMark(s.piece.cellType) && InBounds(s.board.grid, cell) ==> At(dropped.value.board.grid, cell) == s.piece.cellType)
      && (!IsGridMark(s.piece.cellType) && InBounds(s.board.dynamic, cell) ==> At(dropped.value.board.dynamic, cell) == s.piece.cellType)
  {
    WorldUnits.GridWorldRoundTrip(GridFromWorld(Across(hit)));
  }
}

=== FILE: draggable_gimmic1.dfy ===
/** The second DraggableGimmic variant (DraggableGimmic1.cs): a piece, by
    default a goal 'G', that follows the mouse with the grab offset, rides one
    layer up over an occupied cell, and is always written into the static
    grid when dropped. It has no start-of-run gate and plays no sounds. */
module DraggableGimmic1 {
  import opened Cells
  import opened Wrappers
  import opened StageGrid
  import opened WorldUnits
  import DG = DraggableGimmic

  /** The default mark of this variant. */
  const DefaultType: char := 'G'

  /** `offset`: transform.position minus the mouse point at pick-up; the
      other fields as in DraggableGimmic. */
  datatype Piece = Piece(cellType: char, pos: Point, offset: Point, dragging: bool, collider: Option<bool>)

  datatype Scene = Scene(board: DG.Board, piece: Piece, inputDragging: bool)

  function NewPiece(pos: Point): (p: Piece)
    ensures p.cellType == DefaultType && p.pos == pos && !p.dragging
  {
    Piece(DefaultType, pos, Point(0.0, 0.0, 0.0), false, None)
  }

  function Sub(a: Point, b: Point): Point {
    Point(a.x - b.x, a.y - b.y, a.z - b.z)
  }

  function Plus(a: Point, b: Point): Point {
    Point(a.x + b.x, a.y + b.y, a.z + b.z)
  }

  /** OnMouseDown with the mouse's world point: remember the grab offset and,
      when a StageBuilder exists, clear the piece's cell in both grids exactly
      as DraggableGimmic does (an index outside either grid throws). */
  function PickUp(s: Scene, mouse: Point, hasBuilder: bool): (r: Step<Scene>)
    ensures r.State().piece.dragging && r.State().piece.cellType == s.piece.cellType
    ensures r.State().piece.pos == s.piece.pos
    ensures Plus(mouse, r.State().piece.offset) == s.piece.pos
    ensures r.Done? ==> r.value.inputDragging && r.value.piece.collider == Some(false)
    ensures !hasBuilder ==> r.Done? && r.value.board == s.board
    ensures hasBuilder ==>
      var cell := GridFromWorld(s.piece.pos);
      && (r.Done? <==> InBounds(s.board.grid, cell) && InBounds(s.board.dynamic, cell))
      && DG.WroteCell(s.board.grid, r.State().board.grid, cell, 'N')
      && (r.Done? ==> DG.WroteCell(s.board.dynamic, r.value.board.dynamic, cell, 'N'))
  {
    var s1 := s.(piece := s.piece.(dragging := true, offset := Sub(s.piece.pos, mouse)));
    if !hasBuilder then
      Done(s1.(piece := s1.piece.(collider := Some(false)), inputDragging := true))
    else
      var cell := GridFromWorld(SnapToGrid(s.piece.pos));
      SnapKeepsCell(s.piece.pos);
      if !InBounds(s.board.grid, cell) then Threw(s1)
      else
        var s2 := s1.(board := s1.board.(grid := Put(s1.board.grid, cell, 'N')));
        if !InBounds(s.board.dynamic, cell) then Threw(s2)
        else
          var s3 := s2.(board := s2.board.(dynamic := Put(s2.board.dynamic, cell, 'N')));
          Done(s3.(piece := s3.piece.(collider := Some(false)), inputDragging := true))
  }

  /** The cell a snapped position is set down on: the cell itself when it is
      empty ('N') in the static grid, otherwise the one directly above it. The
      lift looks at one cell only: the cell above is used whatever it holds.
      Reading the grid outside its bounds throws (None). */
  function Settle(g: Grid, w: Point): (r: Option<Vec>)
    ensures var cell := GridFromWorld(w);
      && (r.None? <==> !InBounds(g, cell))
      && (r.Some? && At(g, cell) == 'N' ==> r.value == cell)
      && (r.Some? && At(g, cell) != 'N' ==> r.value == Add(cell, Up))
  {
    var cell := GridFromWorld(SnapToGrid(w));
    SnapKeepsCell(w);
    if !InBounds(g, cell) then None
    else if g[cell.x][cell.y][cell.z] != 'N' then Some(Vec(cell.x, cell.y + 1, cell.z))
    else Some(cell)
  }

  /** OnMouseDrag with the mouse's world point: the piece follows the mouse
      (plus the grab offset), snapped to a cell and raised one layer over an
      occupied one. The grid is read through StageBuilder.Instance without a
      null check, so with no StageBuilder the drag throws before the piece
      moves; so does a snapped cell outside the grid. */
  function Drag(s: Scene, mouse: Point, hasBuilder: bool): (r: Step<Scene>)
    ensures r.State().board == s.board && r.State().inputDragging == s.inputDragging
    ensures r.State().piece.cellType == s.piece.cellType && r.State().piece.dragging == s.piece.dragging
    ensures !s.piece.dragging ==> r == Done(s)
    ensures s.piece.dragging && !hasBuilder ==> r == Threw(s)
    ensures s.piece.dragging && hasBuilder ==>
      match Settle(s.board.grid, Plus(mouse, s.piece.offset))
      case None => r == Threw(s)
      case Some(cell) => r.Done? && r.value.piece.pos == WorldFromGrid(cell)
  {
    if !s.piece.dragging then Done(s)
    else if !hasBuilder then Threw(s)
    else
      var target := Plus(mouse, s.piece.offset);
      match Settle(s.board.grid, target)
      case None => Threw(s)
      case Some(cell) =>
        SnapKeepsCell(target);
        var snapped := SnapToGrid(target);
        Done(s.(piece := s.piece.(pos := snapped.(y := cell.y as real * BlockSize))))
  }

  /** OnMouseUp: stop dragging, re-enable the collider (a collider never
      fetched throws), and, when a StageBuilder exists, set the piece down on
      its settled cell and write its mark there into the static grid. */
  function Drop(s: Scene, hasBuilder: bool): (r: Step<Scene>)
    ensures !r.State().piece.dragging && r.State().piece.cellType == s.piece.cellType
    ensures r.State().board.dynamic == s.board.dynamic
    ensures s.piece.collider.None? ==> r.Threw? && r.partial.board == s.board
    ensures s.piece.collider.Some? && !hasBuilder ==>
      r.Done? && r.value.board == s.board && !r.value.inputDragging && r.value.piece.pos == s.piece.pos
    ensures s.piece.collider.Some? && hasBuilder ==>
      match Settle(s.board.grid, s.piece.pos)
      case None => r.Threw? && r.partial.board == s.board
      case Some(cell) =>
        && r.Done? && !r.value.inputDragging
        && r.value.piece.pos == WorldFromGrid(cell)
        && DG.WroteCell(s.board.grid, r.value.board.grid, cell, s.piece.cellType)
  {
    var s1 := s.(piece := s.piece.(dragging := false));
    if s.piece.collider.None? then Threw(s1)
    else
      var s2 := s1.(piece := s1.piece.(collider := Some(true)));
      if !hasBuilder then Done(s2.(inputDragging := false))
      else
        match Settle(s.board.grid, s.piece.pos)
        case None => Threw(s2)
        case Some(cell) =>
          SnapKeepsCell(s.piece.pos);
          var snapped := SnapToGrid(s.piece.pos);
          var placed := snapped.(y := cell.y as real * BlockSize);
          GridWorldRoundTrip(cell);
          Done(s2.(piece := s2.piece.(pos := placed),
                   board := s2.board.(grid := Put(s2.board.grid, GridFromWorld(placed), s.piece.cellType)),
                   inputDragging := false))
  }

  /** Dropping on an occupied cell leaves that cell's mark alone and puts the
      piece's mark one layer up, overwriting whatever the cell above held:
      the lift is a single layer, not a search for a free cell. */
  lemma DropOverOccupiedOverwritesAbove(s: Scene)
    requires s.piece.collider.Some?
    requires InBounds(s.board.grid, GridFromWorld(s.piece.pos))
    requires At(s.board.grid, GridFromWorld(s.piece.pos)) != 'N'
    requires InBounds(s.board.grid, Add(GridFromWorld(s.piece.pos), Up))
    ensures var cell := GridFromWorld(s.piece.pos);
      var r := Drop(s, true);
      && r.Done?
      && At(r.value.board.grid, cell) == At(s.board.grid, cell)
      && At(r.value.board.grid, Add(cell, Up)) == s.piece.cellType
  {
  }

  /** A drop on an empty cell writes the mark into exactly that cell. */
  lemma DropOnEmptyStaysPut(s: Scene)
    requires s.piece.collider.Some?
    requires InBounds(s.board.grid, GridFromWorld(s.piece.pos))
    requires At(s.board.grid, GridFromWorld(s.piece.pos)) == 'N'
    ensures var cell := GridFromWorld(s.piece.pos);
      var r := Drop(s, true);
      && r.Done?
      && At(r.value.board.grid, cell) == s.piece.cellType
      && GridFromWorld(r.value.piece.pos) == cell
  {
    GridWorldRoundTrip(GridFromWorld(s.piece.pos));
  }

  /** Picking a piece up and dropping it where it stood, with no drag, puts
      its mark back into the static grid at its own cell (the pick-up emptied
      the cell, so there is no lift). */
  lemma PickUpThenDropInPlace(s: Scene, mouse: Point)
    requires InBounds(s.board.grid, GridFromWorld(s.piece.pos))
    requires InBounds(s.board.dynamic, GridFromWorld(s.piece.pos))
    ensures PickUp(s, mouse, true).Done?
    ensures var picked := PickUp(s, mouse, true).value;
      var cell := GridFromWorld(s.piece.pos);
      && Drop(picked, true).Done?
      && At(Drop(picked, true).value.board.grid, cell) == s.piece.cellType
      && At(Drop(picked, true).value.board.dynamic, cell) == 'N'
  {
    var picked := PickUp(s, mouse, true).value;
    DropOnEmptyStaysPut(picked);
  }
}

=== FILE: game_manager.dfy ===
/** GameManager: the registry of players and boxes, the started flag, the
    stage counter, and the view and clear flags other components share. */
module GameManager {
  import opened Wrappers
  import opened Int32

  /** `players` and `boxes` hold object identities (slots of the world's
      actor list); `boxes` is `None` while the C# list is still null.
      `is2D` and `isGameClear` stand for Is2DMode and IsGameClear, which
      other scripts use but GameManager.cs in this revision does not define;
      they are plain flags. */
  datatype Manager = Manager(
    players: seq<nat>,
    boxes: Option<seq<nat>>,
    isStart: bool,
    stageNumber: int32,
    is2D: bool,
    isGameClear: bool)

  /** The exception a call on the still-null box list raises. */
  datatype Fault = NullReference

  /** The manager after Awake: an empty player list and no box list yet. */
  function Awake(): (m: Manager)
    ensures m.players == [] && m.boxes.None? && !m.isStart
  {
    Manager([], None, false, 0, false, false)
  }

  /** GetPlayer registers a player at the end of the list. */
  function GetPlayer(m: Manager, player: nat): (r: Manager)
    ensures r.players == m.players + [player]
    ensures r == m.(players := r.players)
  {
    m.(players := m.players + [player])
  }

  /** GetMoveBox registers a box; on the null list it throws. */
  function GetMoveBox(m: Manager, box: nat): (r: Result<Manager, Fault>)
    ensures r.Failure? <==> m.boxes.None?
    ensures r.Success? ==> r.value == m.(boxes := Some(m.boxes.value + [box]))
  {
    match m.boxes
    case None => Failure(NullReference)
    case Some(bs) => Success(m.(boxes := Some(bs + [box])))
  }

  /** The loop of IsComplete over the players' completion flags, returning
      false at the first incomplete one. */
  function AllComplete(flags: seq<bool>): (r: bool)
    ensures r <==> forall i :: 0 <= i < |flags| ==> flags[i]
  {
    if |flags| == 0 then true
    else if !flags[0] then false
    else AllComplete(flags[1..])
  }

  function SetIsStart(m: Manager): (r: Manager)
    ensures r.isStart
    ensures r == m.(isStart := true)
  {
    m.(isStart := true)
  }

  /** SetGameStop: both lists become new empty lists and the game stops. */
  function SetGameStop(m: Manager): (r: Manager)
    ensures r.players == [] && r.boxes == Some([]) && !r.isStart
    ensures r.stageNumber == m.stageNumber && r.is2D == m.is2D && r.isGameClear == m.isGameClear
  {
    m.(players := [], boxes := Some([]), isStart := false)
  }

  /** SetStageNumber adds to the counter (with int wrap-around) and returns
      the new value. */
  function SetStageNumber(m: Manager, num: int32): (r: (Manager, int32))
    ensures r.1 == r.0.stageNumber
    ensures (r.1 - (m.stageNumber + num)) % Modulus == 0
    ensures r.0 == m.(stageNumber := r.1)
  {
    var n := Wrap(m.stageNumber + num);
    (m.(stageNumber := n), n)
  }

  /** Box registration only works after a stop has created the list. */
  lemma BoxesNeedAStop(m: Manager, box: nat)
    ensures GetMoveBox(Awake(), box).Failure?
    ensures GetMoveBox(SetGameStop(m), box) == Success(SetGameStop(m).(boxes := Some([box])))
  {
    assert [] + [box] == [box];
  }

  /** Two ints that agree modulo 2^32 are the same int. */
  lemma {:induction false} SameResidueSameInt(a: int32, b: int32)
    requires (a - b) % Modulus == 0
    ensures a == b
  {
  }

  /** Two successive SetStageNumber calls add up, wrap-around included. */
  lemma {:induction false} StageNumbersAccumulate(m: Manager, a: int32, b: int32)
    ensures SetStageNumber(SetStageNumber(m, a).0, b).1 == Wrap(m.stageNumber + a + b)
  {
    var first := SetStageNumber(m, a).1;
    var second := SetStageNumber(SetStageNumber(m, a).0, b).1;
    var want := Wrap(m.stageNumber + a + b);
    assert (first - (m.stageNumber + a)) % Modulus == 0;
    assert (second - (first + b)) % Modulus == 0;
    assert (want - (m.stageNumber + a + b)) % Modulus == 0;
    ModularSum(second - (first + b), first - (m.stageNumber + a), want - (m.stageNumber + a + b));
    SameResidueSameInt(second, want);
  }

  lemma {:induction false} ModularSum(x: int, y: int, z: int)
    requires x % Modulus == 0 && y % Modulus == 0 && z % Modulus == 0
    ensures (x + y - z) % Modulus == 0
  {
    assert x == Modulus * (x / Modulus);
    assert y == Modulus * (y / Modulus);
    assert z == Modulus * (z / Modulus);
    assert x + y - z == Modulus * (x / Modulus + y / Modulus - z / Modulus);
  }
}

=== FILE: int32.dfy ===
/** C#'s `int`: 32-bit two's complement with silent wrap-around in unchecked
    arithmetic. */
module Int32 {

  const Modulus: int := 0x1_0000_0000
  const MinValue: int := -0x8000_0000
  const MaxValue: int := 0x7FFF_FFFF

  type int32 = x: int | MinValue <= x <= MaxValue

  /** The value an unchecked C# `int` expression whose exact result is `x`
      actually holds. */
  function Wrap(x: int): (r: int32)
    ensures (r - x) % Modulus == 0
    ensures MinValue <= x <= MaxValue ==> r == x
  {
    var m := (x - MinValue) % Modulus;
    m + MinValue
  }

  /** Adding one to the largest int gives the smallest one. */
  lemma WrapOverflows()
    ensures Wrap(MaxValue + 1) == MinValue
  {
  }
}

=== FILE: move_box.dfy ===
/** MoveBox: its start-up, its grid mark and the portal teleport. */
module MoveBoxes {
  import opened Cells
  import opened Wrappers
  import opened StageGrid
  import opened Actors

  /** Start: TargetPos begins at the box's own position. */
  function Spawn(id: int, pos: Vec): (b: MoveBox)
    ensures b.target == b.pos == pos && b.id == id
  {
    MoveBox(id, pos, pos)
  }

  /** UpdateGridData: 'M' at the box's actual position, nothing else touched. */
  function UpdateGridData(b: MoveBox, g: Grid): (r: Grid)
    ensures SameShape(g, r)
    ensures InBounds(g, b.pos) ==> At(r, b.pos) == 'M'
    ensures forall q :: InBounds(g, q) && q != b.pos ==> At(r, q) == At(g, q)
  {
    Put(g, b.pos, 'M')
  }

  /** The box after a push one cell in direction `d`. MoveBox.cs does not
      define TryPush, which TurnBasedCharacter.cs calls; the box is taken to
      end up one cell further, TargetPos included. */
  function TryPush(b: MoveBox, d: Vec): (r: MoveBox)
    ensures r.id == b.id && r.pos == r.target == Add(b.pos, d)
  {
    MoveBox(b.id, Add(b.pos, d), Add(b.pos, d))
  }

  datatype Teleported = Teleported(box: MoveBox, grid: Grid)

  /** TeleportIfOnPortal: when the cell under TargetPos is an 'A' portal, jump
      to one layer above the other 'A' cell, provided that cell is a valid,
      empty ('N') cell. */
  function TeleportIfOnPortal(b: MoveBox, g: Grid): (r: Teleported)
    ensures SameShape(g, r.grid) && r.box.id == b.id
    ensures !IsCell(g, Add(b.target, Down), 'A') ==> r == Teleported(b, g)
    ensures r.box != b ==>
      && IsCell(g, Add(b.target, Down), 'A')
      && FindOther(g, 'A', Add(b.target, Down)).Some?
      && var dest := Add(FindOther(g, 'A', Add(b.target, Down)).value, Up);
      && IsCell(g, dest, 'N')
      && r.box.pos == dest && r.box.target == dest
      && At(r.grid, dest) == 'M'
      && (InBounds(g, b.target) ==> At(r.grid, b.target) == 'N')
      && (forall q :: InBounds(g, q) && q != dest && q != b.target ==> At(r.grid, q) == At(g, q))
    ensures r.box == b ==> r.grid == g
  {
    var support := Add(b.target, Down);
    if !InBounds(g, support) || !IsCell(g, support, 'A') then Teleported(b, g)
    else
      match FindOther(g, 'A', support)
      case None => Teleported(b, g)
      case Some(other) =>
        var dest := Add(other, Up);
        if !InBounds(g, dest) || At(g, dest) != 'N' then Teleported(b, g)
        else
          var g1 := Put(Put(g, b.target, 'N'), dest, 'M');
          Teleported(MoveBox(b.id, dest, dest), g1)
  }

  /** A box standing on one of a pair of portals whose partner has a free cell
      above it is moved onto the partner. */
  lemma TeleportMovesToPartner(b: MoveBox, g: Grid, other: Vec)
    requires IsCell(g, Add(b.target, Down), 'A')
    requires FindOther(g, 'A', Add(b.target, Down)) == Some(other)
    requires IsCell(g, Add(other, Up), 'N')
    ensures TeleportIfOnPortal(b, g).box == MoveBox(b.id, Add(other, Up), Add(other, Up))
    ensures At(TeleportIfOnPortal(b, g).grid, Add(other, Up)) == 'M'
  {
  }

  /** A portal whose partner has no free cell above it (occupied or outside
      the grid) leaves box and grid alone. */
  lemma TeleportRefusedWhenBlocked(b: MoveBox, g: Grid)
    requires FindOther(g, 'A', Add(b.target, Down)).Some?
    requires !IsCell(g, Add(FindOther(g, 'A', Add(b.target, Down)).value, Up), 'N')
    ensures TeleportIfOnPortal(b, g) == Teleported(b, g)
  {
  }
}

=== FILE: player.dfy ===
/** Player: the actor that steps one cell every turn, unconditionally, and
    keeps the single 'P' of the grid at its cell. */
module PlayerTurn {
  import opened Cells
  import opened Wrappers
  import opened StageGrid
  import opened Actors
  import StageBuilder

  /** OnTurn: one cell forward, with no bounds or collision check. */
  function OnTurn(p: Player): (r: Player)
    ensures r.pos == Add(p.pos, p.facing)
    ensures r.facing == p.facing && r.complete == p.complete
  {
    p.(pos := Add(p.pos, p.facing))
  }

  /** UpdateGridData: the grid's player marks are rewritten to this player's cell. */
  function UpdateGridData(p: Player, g: Grid): (r: Step<Grid>)
    ensures r.Done? <==> InBounds(g, p.pos)
    ensures forall q :: InBounds(r.State(), q) <==> InBounds(g, q)
    ensures r.Done? ==> forall q :: InBounds(g, q) ==> (At(r.value, q) == 'P' <==> q == p.pos)
    ensures SameShape(g, r.State()) && (Wf(g) ==> Wf(r.State()))
    ensures forall q :: InBounds(g, q) && q != p.pos && At(g, q) != 'P' ==> At(r.State(), q) == At(g, q)
  {
    StageBuilder.UpdatePlayerPosition(g, p.pos)
  }

  /** `n` turns of the player. */
  function Walk(p: Player, n: nat): Player
    decreases n
  {
    if n == 0 then p else Walk(OnTurn(p), n - 1)
  }

  function Scale(d: Vec, n: int): Vec {
    Vec(d.x * n, d.y * n, d.z * n)
  }

  /** After `n` turns the player stands `n` cells further along its facing,
      facing the same way: it never stops and never turns by itself. */
  lemma {:induction false} WalkIsStraight(p: Player, n: nat)
    ensures Walk(p, n) == p.(pos := Add(p.pos, Scale(p.facing, n)))
    decreases n
  {
    if n > 0 {
      WalkIsStraight(OnTurn(p), n - 1);
    }
  }

  /** A player at the edge of the grid, facing out of it, walks off it, and
      the next reconciliation of its mark throws, leaving no 'P' at all. */
  lemma SteppingOffTheGridThrows(p: Player, g: Grid)
    requires InBounds(g, p.pos) && !InBounds(g, Add(p.pos, p.facing))
    ensures var r := UpdateGridData(OnTurn(p), g);
      r.Threw? && forall q :: InBounds(g, q) ==> At(r.partial, q) != 'P'
  {
  }
}

=== FILE: stage_builder.dfy ===
/** StageBuilder: turning the stage text into the character grid, and the two
    grid-wide updates the scheduler relies on (the single player mark and the
    per-turn reset of dynamic marks). */
module StageBuilder {
  import opened Cells
  import opened Wrappers
  import opened StageGrid

  // ---------------------------------------------------------------------
  // Splitting text
  // ---------------------------------------------------------------------

  /** String.Split on a single separator character with no options: every
      separator ends a piece, so there is always one piece more than there
      are separators, and pieces may be empty. */
  function SplitOn(s: string, sep: char): (r: seq<string>)
    ensures |r| >= 1
    ensures forall i :: 0 <= i < |r| ==> sep !in r[i]
  {
    SplitOnFrom(s, sep, "")
  }

  function SplitOnFrom(s: string, sep: char, cur: string): (r: seq<string>)
    requires sep !in cur
    ensures |r| >= 1
    ensures forall i :: 0 <= i < |r| ==> sep !in r[i]
    decreases |s|
  {
    if |s| == 0 then [cur]
    else if s[0] == sep then [cur] + SplitOnFrom(s[1..], sep, "")
    else SplitOnFrom(s[1..], sep, cur + [s[0]])
  }

  /** String.Join with a one-character separator: the inverse of SplitOn. */
  function JoinOn(pieces: seq<string>, sep: char): string {
    if |pieces| == 0 then ""
    else if |pieces| == 1 then pieces[0]
    else pieces[0] + [sep] + JoinOn(pieces[1..], sep)
  }

  lemma {:induction false} JoinSplitFrom(s: string, sep: char, cur: string)
    requires sep !in cur
    ensures JoinOn(SplitOnFrom(s, sep, cur), sep) == cur + s
    decreases |s|
  {
    if |s| == 0 {
    } else if s[0] == sep {
      var rest := SplitOnFrom(s[1..], sep, "");
      JoinSplitFrom(s[1..], sep, "");
      assert [cur] + rest == [cur] + rest;
      assert ([cur] + rest)[1..] == rest;
      assert s == [sep] + s[1..];
    } else {
      JoinSplitFrom(s[1..], sep, cur + [s[0]]);
      assert cur + [s[0]] + s[1..] == cur + s;
    }
  }

  /** Splitting and joining again gives back the text. */
  lemma JoinSplit(s: string, sep: char)
    ensures JoinOn(SplitOn(s, sep), sep) == s
  {
    JoinSplitFrom(s, sep, "");
  }

  /** One trailing '\r' removed. */
  function DropCarriageReturn(line: string): string {
    if |line| > 0 && line[|line| - 1] == '\r' then line[..|line| - 1] else line
  }

  /** `text.Split(new[] { "\r\n", "\n" }, StringSplitOptions.None)`: every
      "\r\n" or lone "\n" ends a line. A '\r' directly before a line feed
      belongs to the separator; the last piece is followed by no separator and
      keeps a trailing '\r'. */
  function SplitLines(text: string): (r: seq<string>)
    ensures |r| >= 1
    ensures forall i :: 0 <= i < |r| ==> '\n' !in r[i]
  {
    var pieces := SplitOn(text, '\n');
    seq(|pieces|, i requires 0 <= i < |pieces| =>
      if i < |pieces| - 1 then DropCarriageReturn(pieces[i]) else pieces[i])
  }

  /** For text with Unix line ends, joining the lines with '\n' gives the text back. */
  lemma SplitLinesUnix(text: string)
    requires '\r' !in text
    ensures JoinOn(SplitLines(text), '\n') == text
  {
    var pieces := SplitOn(text, '\n');
    JoinSplit(text, '\n');
    NoCarriageReturnInPieces(text, '\n', "");
    assert SplitLines(text) == pieces;
  }

  lemma {:induction false} NoCarriageReturnInPieces(s: string, sep: char, cur: string)
    requires sep !in cur && '\r' !in s && '\r' !in cur
    ensures forall i :: 0 <= i < |SplitOnFrom(s, sep, cur)| ==> '\r' !in SplitOnFrom(s, sep, cur)[i]
    decreases |s|
  {
    if |s| == 0 {
    } else if s[0] == sep {
      NoCarriageReturnInPieces(s[1..], sep, "");
    } else {
      assert s[0] in s;
      NoCarriageReturnInPieces(s[1..], sep, cur + [s[0]]);
    }
  }

  /** Char.IsWhiteSpace: the Unicode space, line and paragraph separators,
      the control characters U+0009 to U+000D, and U+0085. */
  predicate IsWhiteSpace(ch: char) {
    || ch == ' ' || ('\t' <= ch <= '\r') || ch == '\U{0085}' || ch == '\U{00A0}'
    || ch == '\U{1680}' || ('\U{2000}' <= ch <= '\U{200A}') || ch == '\U{2028}' || ch == '\U{2029}'
    || ch == '\U{202F}' || ch == '\U{205F}' || ch == '\U{3000}'
  }

  /** String.IsNullOrWhiteSpace (the empty line included). */
  predicate IsBlank(line: string) {
    forall i :: 0 <= i < |line| ==> IsWhiteSpace(line[i])
  }

  // ---------------------------------------------------------------------
  // Layers
  // ---------------------------------------------------------------------

  /** One layer of the stage: its non-blank lines, first file row first. */
  type Layer = seq<string>

  function Close(done: seq<Layer>, cur: Layer): seq<Layer> {
    if |cur| > 0 then done + [cur] else done
  }

  /** The layer-splitting loop of LoadStage: a blank line closes the current
      layer if it has any line; the layer still open at the end is kept.
      Layers already closed stay as they are, and no empty or blank-lined
      layer is ever added. */
  function GroupLayers(lines: seq<string>, cur: Layer, done: seq<Layer>): (r: seq<Layer>)
    ensures done <= r
    ensures ProperLayers(done) && NonBlankLines(cur) ==> ProperLayers(r)
    decreases |lines|
  {
    if |lines| == 0 then Close(done, cur)
    else if IsBlank(lines[0]) then GroupLayers(lines[1..], [], Close(done, cur))
    else GroupLayers(lines[1..], cur + [lines[0]], done)
  }

  function SplitLayers(lines: seq<string>): seq<Layer> {
    GroupLayers(lines, [], [])
  }

  predicate NonBlankLines(ls: seq<string>) {
    forall i :: 0 <= i < |ls| ==> !IsBlank(ls[i])
  }

  /** Every layer has at least one line and no line of a layer is blank. */
  predicate ProperLayers(layers: seq<Layer>) {
    forall k :: 0 <= k < |layers| ==> |layers[k]| > 0 && NonBlankLines(layers[k])
  }

  lemma {:induction false} GroupLayersProper(lines: seq<string>, cur: Layer, done: seq<Layer>)
    requires ProperLayers(done) && NonBlankLines(cur)
    ensures ProperLayers(GroupLayers(lines, cur, done))
    decreases |lines|
  {
    if |lines| == 0 {
    } else if IsBlank(lines[0]) {
      GroupLayersProper(lines[1..], [], Close(done, cur));
    } else {
      GroupLayersProper(lines[1..], cur + [lines[0]], done);
    }
  }

  /** Blank lines, wherever they are and however many, never produce an
      empty layer, and no blank line ends up inside a layer. */
  lemma NoEmptyLayer(lines: seq<string>)
    ensures ProperLayers(SplitLayers(lines))
  {
    GroupLayersProper(lines, [], []);
  }

  function Flatten(layers: seq<Layer>): seq<string> {
    if |layers| == 0 then [] else layers[0] + Flatten(layers[1..])
  }

  function NonBlank(lines: seq<string>): seq<string> {
    if |lines| == 0 then []
    else if IsBlank(lines[0]) then NonBlank(lines[1..])
    else [lines[0]] + NonBlank(lines[1..])
  }

  lemma {:induction false} FlattenAppend(a: seq<Layer>, b: seq<Layer>)
    ensures Flatten(a + b) == Flatten(a) + Flatten(b)
    decreases |a|
  {
    if |a| == 0 {
      assert a + b == b;
    } else {
      assert (a + b)[1..] == a[1..] + b;
      FlattenAppend(a[1..], b);
    }
  }

  lemma {:induction false} GroupLayersKeepsLines(lines: seq<string>, cur: Layer, done: seq<Layer>)
    ensures Flatten(GroupLayers(lines, cur, done)) == Flatten(done) + cur + NonBlank(lines)
    decreases |lines|
  {
    FlattenAppend(done, [cur]);
    assert Flatten([cur]) == cur + Flatten([cur][1..]);
    assert [cur][1..] == [];
    if |lines| == 0 {
    } else if IsBlank(lines[0]) {
      GroupLayersKeepsLines(lines[1..], [], Close(done, cur));
    } else {
      GroupLayersKeepsLines(lines[1..], cur + [lines[0]], done);
    }
  }

  /** The layers, read in order, are exactly the non-blank lines in order. */
  lemma LayersAreTheNonBlankLines(lines: seq<string>)
    ensures Flatten(SplitLayers(lines)) == NonBlank(lines)
  {
    GroupLayersKeepsLines(lines, [], []);
  }

  /** Stage text lines for `layers`, each layer followed by one blank line. */
  function JoinLayers(layers: seq<Layer>): seq<string> {
    if |layers| == 0 then [] else layers[0] + [""] + JoinLayers(layers[1..])
  }

  lemma {:induction false} GroupRun(run: seq<string>, rest: seq<string>, cur: Layer, done: seq<Layer>)
    requires NonBlankLines(run)
    ensures GroupLayers(run + rest, cur, done) == GroupLayers(rest, cur + run, done)
    decreases |run|
  {
    if |run| == 0 {
      assert run + rest == rest;
      assert cur + run == cur;
    } else {
      assert (run + rest)[0] == run[0];
      assert (run + rest)[1..] == run[1..] + rest;
      GroupRun(run[1..], rest, cur + [run[0]], done);
      assert cur + [run[0]] + run[1..] == cur + run;
    }
  }

  /** A layer followed by a blank line is closed as one whole layer. */
  lemma {:induction false} GroupOneLayer(layer: Layer, rest: seq<string>, done: seq<Layer>)
    requires |layer| > 0 && NonBlankLines(layer)
    ensures GroupLayers(layer + ([""] + rest), [], done) == GroupLayers(rest, [], done + [layer])
  {
    GroupRun(layer, [""] + rest, [], done);
    assert [] + layer == layer;
    assert ([""] + rest)[0] == "" && ([""] + rest)[1..] == rest;
    assert IsBlank("");
  }

  lemma {:induction false} GroupJoined(layers: seq<Layer>, done: seq<Layer>)
    requires ProperLayers(layers)
    ensures GroupLayers(JoinLayers(layers), [], done) == done + layers
    decreases |layers|
  {
    if |layers| == 0 {
    } else {
      var rest := JoinLayers(layers[1..]);
      assert JoinLayers(layers) == layers[0] + ([""] + rest);
      hide GroupLayers, JoinLayers;
      GroupOneLayer(layers[0], rest, done);
      GroupJoined(layers[1..], done + [layers[0]]);
      assert done + [layers[0]] + layers[1..] == done + layers;
    }
  }

  /** Writing layers out with a blank line after each and splitting them again
      gives the same layers back. */
  lemma SplitJoinedLayers(layers: seq<Layer>)
    requires ProperLayers(layers)
    ensures SplitLayers(JoinLayers(layers)) == layers
  {
    GroupJoined(layers, []);
  }

  /** A final layer that no blank line terminates is kept. */
  lemma UnterminatedLayerKept(layers: seq<Layer>, last: Layer)
    requires ProperLayers(layers) && |last| > 0 && NonBlankLines(last)
    ensures SplitLayers(JoinLayers(layers) + last) == layers + [last]
  {
    GroupRunsThenLast(layers, last, []);
  }

  lemma {:induction false} GroupRunsThenLast(layers: seq<Layer>, last: Layer, done: seq<Layer>)
    requires ProperLayers(layers) && |last| > 0 && NonBlankLines(last)
    ensures GroupLayers(JoinLayers(layers) + last, [], done) == done + layers + [last]
    decreases |layers|
  {
    if |layers| == 0 {
      assert JoinLayers(layers) + last == last + [];
      GroupLastLayer(last, done);
    } else {
      var j := JoinLayers(layers[1..]);
      var rest := j + last;
      assert JoinLayers(layers) == layers[0] + [""] + j;
      SeqAssoc(layers[0], j, last);
      GroupOneLayer(layers[0], rest, done);
      GroupRunsThenLast(layers[1..], last, done + [layers[0]]);
      assert done + [layers[0]] + layers[1..] == done + layers;
    }
  }

  lemma SeqAssoc(a: seq<string>, b: seq<string>, c: seq<string>)
    ensures a + [""] + b + c == a + ([""] + (b + c))
  {
  }

  /** The last lines, with no blank line after them, form the last layer. */
  lemma {:induction false} GroupLastLayer(last: Layer, done: seq<Layer>)
    requires |last| > 0 && NonBlankLines(last)
    ensures GroupLayers(last + [], [], done) == done + [last]
  {
    GroupRun(last, [], [], done);
    assert [] + last == last;
  }

  // ---------------------------------------------------------------------
  // GenerateStage
  // ---------------------------------------------------------------------

  /** Why a stage cannot be generated: no layer at all (`layers[0]` throws),
      or a layer, line or field missing where the loops index it. */
  /** MissingResource: Resources.Load found no text asset, so LoadStage logs
      an error and returns before anything is built. */
  datatype LoadError = NoLayers | MalformedStage | MissingResource

  /** The comma field of file row `row` of layer `h`, column `col`. */
  function Field(layers: seq<Layer>, h: int, row: int, col: int): string
    requires 0 <= h < |layers| && 0 <= row < |layers[h]|
  {
    var fields := SplitOn(layers[h][row], ',');
    if 0 <= col < |fields| then fields[col] else ""
  }

  function RowCount(layers: seq<Layer>): nat
    requires |layers| > 0
  {
    |layers[0]|
  }

  function ColCount(layers: seq<Layer>): nat
    requires |layers| > 0 && |layers[0]| > 0
  {
    |SplitOn(layers[0][0], ',')|
  }

  /** Every index the fill loops touch exists: each layer has `rowCount`
      lines, each such line has `colCount` fields and each field a first
      character. */
  predicate Complete(layers: seq<Layer>)
    requires |layers| > 0 && |layers[0]| > 0
  {
    && (forall h :: 0 <= h < |layers| ==> |layers[h]| >= RowCount(layers))
    && (forall h, row :: 0 <= h < |layers| && 0 <= row < RowCount(layers) && row < |layers[h]| ==>
          |SplitOn(layers[h][row], ',')| >= ColCount(layers))
    && (forall h, row, col ::
          (0 <= h < |layers| && 0 <= row < RowCount(layers) && row < |layers[h]| && 0 <= col < ColCount(layers))
          ==> |Field(layers, h, row, col)| > 0)
  }

  /** GenerateStage's grid fill: `gridData[col, height, rowCount - 1 - row]`
      is the first character of field `col` of file row `row` of layer
      `height`. */
  function GenerateStage(layers: seq<Layer>): (r: Result<Grid, LoadError>)
    ensures r.Failure? <==> (|layers| == 0 || |layers[0]| == 0 || !Complete(layers))
    ensures r.Failure? && |layers| == 0 ==> r.error == NoLayers
    ensures r.Success? ==> Wf(r.value)
    ensures r.Success? ==> |r.value| == ColCount(layers)
    ensures r.Success? ==> |r.value[0]| == |layers| && |r.value[0][0]| == RowCount(layers)
    ensures r.Success? ==> forall h, row, col ::
      0 <= h < |layers| && 0 <= row < RowCount(layers) && 0 <= col < ColCount(layers) ==>
        row < |layers[h]| && |Field(layers, h, row, col)| > 0
        && At(r.value, Vec(col, h, RowCount(layers) - 1 - row)) == Field(layers, h, row, col)[0]
  {
    if |layers| == 0 then Failure(NoLayers)
    else if |layers[0]| == 0 || !Complete(layers) then Failure(MalformedStage)
    else
      var rows := RowCount(layers);
      var g: Grid := seq(ColCount(layers), c requires 0 <= c < ColCount(layers) =>
        seq(|layers|, h requires 0 <= h < |layers| =>
          seq(rows, z requires 0 <= z < rows =>
            Field(layers, h, rows - 1 - z, c)[0])));
      Success(g)
  }

  /** LoadStage with the text of the resource, None when Resources.Load
      finds none: the text is split into lines, the lines into layers, and
      the layers are handed to GenerateStage. It fails with NoLayers exactly
      when no line is non-blank, and otherwise exactly when GenerateStage
      finds the layers malformed. */
  function LoadStage(resource: Option<string>): (r: Result<Grid, LoadError>)
    ensures resource.None? <==> r == Failure(MissingResource)
    ensures resource.Some? ==>
      var lines := SplitLines(resource.value);
      var layers := SplitLayers(lines);
      && ProperLayers(layers)
      && (r == Failure(NoLayers) <==> NonBlank(lines) == [])
      && (r.Failure? <==> |layers| == 0 || !Complete(layers))
      && (r.Success? ==> r == GenerateStage(layers) && Wf(r.value) && |r.value[0]| == |layers|)
  {
    match resource
    case None => Failure(MissingResource)
    case Some(text) =>
      var lines := SplitLines(text);
      NoEmptyLayer(lines);
      LayersAreTheNonBlankLines(lines);
      FlattenEmpty(SplitLayers(lines));
      GenerateStage(SplitLayers(lines))
  }

  /** Proper layers are absent exactly when they hold no line. */
  lemma FlattenEmpty(layers: seq<Layer>)
    requires ProperLayers(layers)
    ensures layers == [] <==> Flatten(layers) == []
  {
    if |layers| > 0 {
      assert |Flatten(layers)| >= |layers[0]| > 0;
    }
  }

  /** Text with no non-blank line has no layer, so loading it fails. */
  lemma BlankTextFails(text: string)
    requires forall i :: 0 <= i < |SplitLines(text)| ==> IsBlank(SplitLines(text)[i])
    ensures LoadStage(Some(text)) == Failure(NoLayers)
  {
    var lines := SplitLines(text);
    LayersAreTheNonBlankLines(lines);
    NoEmptyLayer(lines);
    AllBlankFiltersToNothing(lines);
  }

  lemma {:induction false} AllBlankFiltersToNothing(lines: seq<string>)
    requires forall i :: 0 <= i < |lines| ==> IsBlank(lines[i])
    ensures NonBlank(lines) == []
    decreases |lines|
  {
    if |lines| > 0 {
      AllBlankFiltersToNothing(lines[1..]);
    }
  }

  // ---------------------------------------------------------------------
  // Per-turn grid updates
  // ---------------------------------------------------------------------

  /** Marks that survive ResetGridData: block, goal, start and player. */
  predicate IsStatic(ch: char) {
    ch == 'B' || ch == 'G' || ch == 'S' || ch == 'P'
  }

  function ResetCell(ch: char): char {
    if IsStatic(ch) then ch else 'N'
  }

  /** ResetGridData: keep B/G/S/P, turn every other cell into 'N'. */
  function ResetGridData(g: Grid): (r: Grid)
    ensures SameShape(g, r) && (Wf(g) ==> Wf(r))
    ensures forall q :: InBounds(r, q) <==> InBounds(g, q)
    ensures forall q :: InBounds(g, q) && IsStatic(At(g, q)) ==> At(r, q) == At(g, q)
    ensures forall q :: InBounds(g, q) && !IsStatic(At(g, q)) ==> At(r, q) == 'N'
  {
    MapCells(g, ResetCell)
  }

  /** Two grids of the same shape that agree on every cell are equal. */
  lemma GridExtensionality(a: Grid, b: Grid)
    requires SameShape(a, b)
    requires forall q :: InBounds(a, q) ==> At(a, q) == At(b, q)
    ensures a == b
  {
    forall c | 0 <= c < |a|
      ensures a[c] == b[c]
    {
      forall h | 0 <= h < |a[c]|
        ensures a[c][h] == b[c][h]
      {
        forall z | 0 <= z < |a[c][h]|
          ensures a[c][h][z] == b[c][h][z]
        {
          assert InBounds(a, Vec(c, h, z));
        }
      }
    }
  }

  /** Resetting twice is resetting once. */
  lemma ResetIdempotent(g: Grid)
    ensures ResetGridData(ResetGridData(g)) == ResetGridData(g)
  {
    var once := ResetGridData(g);
    var twice := ResetGridData(once);
    GridExtensionality(twice, once);
  }

  /** The C# loop that turns every 'P' into 'N'. */
  function ClearPlayerMarks(g: Grid): (r: Grid)
    ensures SameShape(g, r) && (Wf(g) ==> Wf(r))
    ensures forall q :: InBounds(r, q) <==> InBounds(g, q)
    ensures forall q :: InBounds(g, q) ==> At(r, q) == (if At(g, q) == 'P' then 'N' else At(g, q))
  {
    MapCells(g, ch => if ch == 'P' then 'N' else ch)
  }

  /** UpdatePlayerPosition: clear every 'P', then write 'P' at the player's
      cell. Writing outside the array throws IndexOutOfRangeException after
      the clearing has already happened. */
  function UpdatePlayerPosition(g: Grid, p: Vec): (r: Step<Grid>)
    ensures r.Done? <==> InBounds(g, p)
    ensures SameShape(g, r.State()) && (Wf(g) ==> Wf(r.State()))
    ensures forall q :: InBounds(r.State(), q) <==> InBounds(g, q)
    ensures r.Done? ==> forall q :: InBounds(g, q) ==> (At(r.value, q) == 'P' <==> q == p)
    ensures r.Threw? ==> forall q :: InBounds(g, q) ==> At(r.partial, q) != 'P'
    ensures forall q :: InBounds(g, q) && q != p && At(g, q) == 'P' ==> At(r.State(), q) == 'N'
    ensures forall q :: InBounds(g, q) && q != p && At(g, q) != 'P' ==> At(r.State(), q) == At(g, q)
  {
    var cleared := ClearPlayerMarks(g);
    if InBounds(g, p) then Done(Put(cleared, p, 'P')) else Threw(cleared)
  }
}

=== FILE: stage_grid.dfy ===
/** The character grid of StageBuilder and the small accessors the actors
    use on it: validity, cell tests, the top of a column, overwriting a cell
    and finding the partner of a portal cell. */
module StageGrid {
  import opened Cells
  import opened Wrappers

  /** `char[col, height, row]`, stored as nested sequences g[col][height][row]. */
  type Grid = seq<seq<seq<char>>>

  /** The grid is a non-empty box: every column has the same number of
      layers and every layer the same number of rows. */
  predicate Wf(g: Grid) {
    && |g| > 0 && |g[0]| > 0 && |g[0][0]| > 0
    && (forall c :: 0 <= c < |g| ==> |g[c]| == |g[0]|)
    && (forall c, h :: 0 <= c < |g| && 0 <= h < |g[c]| ==> |g[c][h]| == |g[0][0]|)
  }

  /** Two grids with identical extents on every axis. */
  predicate SameShape(a: Grid, b: Grid) {
    && |a| == |b|
    && (forall c :: 0 <= c < |a| ==> |a[c]| == |b[c]|)
    && (forall c, h :: 0 <= c < |a| && 0 <= h < |a[c]| ==> |a[c][h]| == |b[c][h]|)
  }

  /** IsValidGridPosition: the cell lies inside the grid. */
  predicate InBounds(g: Grid, p: Vec) {
    0 <= p.x < |g| && 0 <= p.y < |g[p.x]| && 0 <= p.z < |g[p.x][p.y]|
  }

  function At(g: Grid, p: Vec): char
    requires InBounds(g, p)
  {
    g[p.x][p.y][p.z]
  }

  /** IsMatchingCellType: a valid cell holding `ch` (an invalid cell matches nothing). */
  predicate IsCell(g: Grid, p: Vec, ch: char) {
    InBounds(g, p) && At(g, p) == ch
  }

  /** IsAnyMatchingCellType. */
  predicate IsAny(g: Grid, p: Vec, chs: set<char>) {
    InBounds(g, p) && At(g, p) in chs
  }

  lemma SameShapeInBounds(a: Grid, b: Grid)
    requires SameShape(a, b)
    ensures forall q :: InBounds(a, q) <==> InBounds(b, q)
  {
  }

  /** UpdateGridAtPosition: overwrite one cell; a position outside the grid
      is ignored. */
  function Put(g: Grid, p: Vec, ch: char): (r: Grid)
    ensures SameShape(g, r)
    ensures forall q :: InBounds(r, q) <==> InBounds(g, q)
    ensures InBounds(g, p) ==> At(r, p) == ch
    ensures forall q :: InBounds(g, q) && q != p ==> At(r, q) == At(g, q)
    ensures !InBounds(g, p) ==> r == g
    ensures Wf(g) ==> Wf(r)
  {
    if InBounds(g, p) then
      g[p.x := g[p.x][p.y := g[p.x][p.y][p.z := ch]]]
    else
      g
  }

  /** Apply `f` to every cell, keeping the extents. */
  function MapCells(g: Grid, f: char -> char): (r: Grid)
    ensures SameShape(g, r)
    ensures forall q :: InBounds(r, q) <==> InBounds(g, q)
    ensures forall q :: InBounds(g, q) ==> At(r, q) == f(At(g, q))
    ensures Wf(g) ==> Wf(r)
  {
    seq(|g|, c requires 0 <= c < |g| =>
      seq(|g[c]|, h requires 0 <= h < |g[c]| =>
        seq(|g[c][h]|, z requires 0 <= z < |g[c][h]| => f(g[c][h][z]))))
  }

  /** GetTopCellPosition: the highest non-'N' cell of the column through `p`,
      or the ground cell of that column when the whole column is 'N'. */
  function TopCell(g: Grid, p: Vec): (r: Vec)
    requires Wf(g) && InBounds(g, p)
    ensures r.x == p.x && r.z == p.z && InBounds(g, r)
    ensures forall h :: r.y < h < |g[p.x]| ==> g[p.x][h][p.z] == 'N'
    ensures At(g, r) != 'N' || (r.y == 0 && forall h :: 0 <= h < |g[p.x]| ==> g[p.x][h][p.z] == 'N')
  {
    TopFrom(g, p, |g[p.x]| - 1)
  }

  function TopFrom(g: Grid, p: Vec, h: int): (r: Vec)
    requires Wf(g) && InBounds(g, p) && -1 <= h < |g[p.x]|
    requires forall k :: h < k < |g[p.x]| ==> g[p.x][k][p.z] == 'N'
    ensures r.x == p.x && r.z == p.z && InBounds(g, r)
    ensures forall k :: r.y < k < |g[p.x]| ==> g[p.x][k][p.z] == 'N'
    ensures At(g, r) != 'N' || (r.y == 0 && forall k :: 0 <= k < |g[p.x]| ==> g[p.x][k][p.z] == 'N')
    decreases h + 1
  {
    if h < 0 then Vec(p.x, 0, p.z)
    else if g[p.x][h][p.z] != 'N' then Vec(p.x, h, p.z)
    else TopFrom(g, p, h - 1)
  }

  /** TryFindOtherCell: the first cell other than `ex` holding `ch`, scanning
      columns, then layers, then rows in increasing order. */
  function FindOther(g: Grid, ch: char, ex: Vec): (r: Option<Vec>)
    ensures r.Some? ==> IsCell(g, r.value, ch) && r.value != ex
    ensures r.None? ==> forall q :: IsCell(g, q, ch) ==> q == ex
  {
    FindFromColumn(g, ch, ex, 0)
  }

  function FindFromColumn(g: Grid, ch: char, ex: Vec, x: int): (r: Option<Vec>)
    requires 0 <= x <= |g|
    ensures r.Some? ==> IsCell(g, r.value, ch) && r.value != ex
    ensures r.None? ==> forall q :: IsCell(g, q, ch) && x <= q.x ==> q == ex
    decreases |g| - x
  {
    if x == |g| then None
    else
      match FindFromLayer(g, ch, ex, x, 0)
      case Some(q) => Some(q)
      case None => FindFromColumn(g, ch, ex, x + 1)
  }

  function FindFromLayer(g: Grid, ch: char, ex: Vec, x: int, y: int): (r: Option<Vec>)
    requires 0 <= x < |g| && 0 <= y <= |g[x]|
    ensures r.Some? ==> IsCell(g, r.value, ch) && r.value != ex
    ensures r.None? ==> forall q :: IsCell(g, q, ch) && q.x == x && y <= q.y ==> q == ex
    decreases |g[x]| - y
  {
    if y == |g[x]| then None
    else
      match FindFromRow(g, ch, ex, x, y, 0)
      case Some(q) => Some(q)
      case None => FindFromLayer(g, ch, ex, x, y + 1)
  }

  function FindFromRow(g: Grid, ch: char, ex: Vec, x: int, y: int, z: int): (r: Option<Vec>)
    requires 0 <= x < |g| && 0 <= y < |g[x]| && 0 <= z <= |g[x][y]|
    ensures r.Some? ==> IsCell(g, r.value, ch) && r.value != ex
    ensures r.None? ==> forall q :: IsCell(g, q, ch) && q.x == x && q.y == y && z <= q.z ==> q == ex
    decreases |g[x][y]| - z
  {
    if z == |g[x][y]| then None
    else if g[x][y][z] == ch && Vec(x, y, z) != ex then Some(Vec(x, y, z))
    else FindFromRow(g, ch, ex, x, y, z + 1)
  }
}

=== FILE: supabase.dfy ===
/** The string logic of the Supabase media player: the object path of the
    current stage's video, the storage URL it is fetched from, and the choice
    between streaming the URL and downloading it first. C# `null` and `""`
    are both the empty string here, which every check in this code treats
    alike (string.IsNullOrEmpty); a URL that "is null" is None. */
module Supabase {
  import opened Wrappers
  import opened Int32

  /** The serialized fields of the component that the URL logic reads. */
  datatype Settings = Settings(
    projectUrl: string,
    bucket: string,
    isPublicBucket: bool,
    directFileUrl: string,
    preferDownloadForPlayback: bool,
    stageFolder: string,
    stageFilePrefix: string,
    stageFileExtension: string,
    oneBasedIndex: bool)

  // ---------------------------------------------------------------------
  // String helpers
  // ---------------------------------------------------------------------

  /** An ordinal prefix test: `p` is exactly the first |p| characters of `s`. */
  predicate StartsWith(s: string, p: string) {
    |p| <= |s| && s[..|p|] == p
  }

  /** An absolute web address. */
  predicate IsHttp(s: string) {
    StartsWith(s, "http://") || StartsWith(s, "https://")
  }

  /** string.TrimEnd('/'): drop every trailing slash. */
  function TrimEnd(s: string): (r: string)
    ensures |r| <= |s| && r == s[..|r|]
    ensures |r| > 0 ==> r[|r| - 1] != '/'
    ensures forall i :: |r| <= i < |s| ==> s[i] == '/'
  {
    if |s| > 0 && s[|s| - 1] == '/' then TrimEnd(s[..|s| - 1]) else s
  }

  /** string.TrimStart('/'): drop every leading slash. */
  function TrimStart(s: string): (r: string)
    ensures |r| <= |s| && r == s[|s| - |r|..]
    ensures |r| > 0 ==> r[0] != '/'
    ensures forall i :: 0 <= i < |s| - |r| ==> s[i] == '/'
  {
    if |s| > 0 && s[0] == '/' then TrimStart(s[1..]) else s
  }

  /** Trimming twice trims nothing more. */
  lemma TrimIdempotent(s: string)
    ensures TrimEnd(TrimEnd(s)) == TrimEnd(s)
    ensures TrimStart(TrimStart(s)) == TrimStart(s)
  {
  }

  // ---------------------------------------------------------------------
  // Decimal text of an int
  // ---------------------------------------------------------------------

  function DigitChar(d: int): char
    requires 0 <= d < 10
  {
    ('0' as int + d) as char
  }

  predicate IsDigit(c: char) {
    '0' <= c <= '9'
  }

  function DigitValue(c: char): int {
    c as int - '0' as int
  }

  /** The decimal digits of a natural number, most significant first. */
  function Digits(n: nat): (r: string)
    ensures |r| > 0
    ensures forall i :: 0 <= i < |r| ==> IsDigit(r[i])
    decreases n
  {
    if n < 10 then [DigitChar(n)] else Digits(n / 10) + [DigitChar(n % 10)]
  }

  /** Int32.ToString() in the invariant culture: the digits with a leading
      '-' for a negative number. */
  function ShowInt(n: int32): (r: string)
    ensures |r| > 0
    ensures r[0] == '-' <==> n < 0
    ensures forall i :: (if n < 0 then 1 else 0) <= i < |r| ==> IsDigit(r[i])
  {
    if n < 0 then "-" + Digits(-(n as int)) else Digits(n)
  }

  /** The value of a string of digits. */
  function ParseDigits(s: string): int
    decreases |s|
  {
    if |s| == 0 then 0 else ParseDigits(s[..|s| - 1]) * 10 + DigitValue(s[|s| - 1])
  }

  /** The value of the text ShowInt produces. */
  function ParseInt(s: string): int {
    if |s| > 0 && s[0] == '-' then -ParseDigits(s[1..]) else ParseDigits(s)
  }

  lemma {:induction false} DigitsRoundTrip(n: nat)
    ensures ParseDigits(Digits(n)) == n
    decreases n
  {
    var s := Digits(n);
    if n >= 10 {
      assert s[..|s| - 1] == Digits(n / 10);
      DigitsRoundTrip(n / 10);
    }
  }

  /** Reading back the text of an int gives the int. */
  lemma ShowIntRoundTrip(n: int32)
    ensures ParseInt(ShowInt(n)) == n
  {
    if n < 0 {
      DigitsRoundTrip(-(n as int));
      assert ShowInt(n)[1..] == Digits(-(n as int));
    } else {
      DigitsRoundTrip(n);
      assert IsDigit(ShowInt(n)[0]);
    }
  }

  /** Different ints have different texts. */
  lemma ShowIntInjective(a: int32, b: int32)
    requires ShowInt(a) == ShowInt(b)
    ensures a == b
  {
    ShowIntRoundTrip(a);
    ShowIntRoundTrip(b);
  }

  // ---------------------------------------------------------------------
  // Object path of a stage
  // ---------------------------------------------------------------------

  /** The number in the file name: the stage index, plus one (in unchecked
      int arithmetic) when numbering is one-based. */
  function DisplayNumber(cfg: Settings, index: int32): (r: int32)
    ensures !cfg.oneBasedIndex ==> r == index
    ensures cfg.oneBasedIndex && index < MaxValue ==> r == index + 1
    ensures cfg.oneBasedIndex && index == MaxValue ==> r == MinValue
  {
    if cfg.oneBasedIndex then Wrap(index + 1) else index
  }

  /** ResolveStagePathOrObjectPath, with the StageBuilder's stage number when
      a StageBuilder exists (stage 0 otherwise): `<prefix><number><extension>`,
      under the folder (its trailing slashes trimmed, joined with one '/')
      when a folder is set. */
  function ResolveStagePath(cfg: Settings, stage: Option<int32>): (r: string)
    ensures var index := if stage.Some? then stage.value else 0;
      var fileName := cfg.stageFilePrefix + ShowInt(DisplayNumber(cfg, index)) + cfg.stageFileExtension;
      && (|cfg.stageFolder| == 0 ==> r == fileName)
      && (|cfg.stageFolder| > 0 ==> r == TrimEnd(cfg.stageFolder) + "/" + fileName)
    ensures |r| > 0
  {
    var index := if stage.Some? then stage.value else 0;
    var display := DisplayNumber(cfg, index);
    var fileName := cfg.stageFilePrefix + ShowInt(display) + cfg.stageFileExtension;
    if |cfg.stageFolder| > 0 then TrimEnd(cfg.stageFolder) + "/" + fileName else fileName
  }

  /** Strings that agree around a middle part agree in the middle. */
  lemma CancelAround(a: string, x: string, y: string, b: string)
    requires a + x + b == a + y + b
    ensures x == y
  {
    assert |x| == |y|;
    assert x == (a + x + b)[|a|..|a| + |x|];
    assert y == (a + y + b)[|a|..|a| + |y|];
  }

  /** Two different stages get two different object paths, so each stage has
      its own video (wrap-around included: one-based numbering is still one
      to one on the 32-bit range). */
  lemma DistinctStagesDistinctPaths(cfg: Settings, a: int32, b: int32)
    requires a != b
    ensures ResolveStagePath(cfg, Some(a)) != ResolveStagePath(cfg, Some(b))
  {
    var da := DisplayNumber(cfg, a);
    var db := DisplayNumber(cfg, b);
    if da == db {
      assert false;
    }
    var fa := cfg.stageFilePrefix + ShowInt(da) + cfg.stageFileExtension;
    var fb := cfg.stageFilePrefix + ShowInt(db) + cfg.stageFileExtension;
    if ResolveStagePath(cfg, Some(a)) == ResolveStagePath(cfg, Some(b)) {
      if |cfg.stageFolder| > 0 {
        var dir := TrimEnd(cfg.stageFolder) + "/";
        assert dir + fa == dir + fb;
        assert fa == (dir + fa)[|dir|..];
        assert fb == (dir + fb)[|dir|..];
      }
      assert fa == fb;
      CancelAround(cfg.stageFilePrefix, ShowInt(da), ShowInt(db), cfg.stageFileExtension);
      ShowIntInjective(da, db);
    }
  }

  // ---------------------------------------------------------------------
  // Storage URL
  // ---------------------------------------------------------------------

  const PublicPrefix: string := "/storage/v1/object/public/"
  const PrivatePrefix: string := "/storage/v1/object/"

  /** BuildFileUrlWithPath. `sanitize` stands for SanitizeProjectUrl, whose
      System.Uri parsing is not modelled. A set direct URL wins; then a path
      that is already an absolute http(s) URL; without a project URL, a
      bucket or a path there is no URL; otherwise the base (trailing slashes
      trimmed), the storage prefix for the bucket's visibility, the bucket,
      '/', and the path (leading slashes trimmed). */
  function BuildFileUrl(cfg: Settings, path: string, sanitize: string -> string): (r: Option<string>)
    ensures |cfg.directFileUrl| > 0 ==> r == Some(cfg.directFileUrl)
    ensures |cfg.directFileUrl| == 0 && IsHttp(path) ==> r == Some(path)
    ensures r.None? <==>
      |cfg.directFileUrl| == 0 && !IsHttp(path) && (|cfg.projectUrl| == 0 || |cfg.bucket| == 0 || |path| == 0)
    ensures |cfg.directFileUrl| == 0 && !IsHttp(path) && r.Some? ==>
      var base := TrimEnd(sanitize(cfg.projectUrl));
      var prefix := if cfg.isPublicBucket then PublicPrefix else PrivatePrefix;
      && r.value == base + prefix + cfg.bucket + "/" + TrimStart(path)
  {
    if |cfg.directFileUrl| > 0 then Some(cfg.directFileUrl)
    else if |path| > 0 && IsHttp(path) then Some(path)
    else if |cfg.projectUrl| == 0 || |cfg.bucket| == 0 || |path| == 0 then None
    else
      var base := TrimEnd(sanitize(cfg.projectUrl));
      var prefix := if cfg.isPublicBucket then PublicPrefix else PrivatePrefix;
      Some(base + prefix + cfg.bucket + "/" + TrimStart(path))
  }

  /** Two joins of a composed storage URL are clean: the base does not end
      in '/', and the object path, which is everything after the bucket and
      its '/', is the given path without its leading slashes. The bucket
      itself is not trimmed; see BucketSlashDoublesUp. */
  lemma ComposedUrlJoinsCleanly(cfg: Settings, path: string, sanitize: string -> string)
    requires |cfg.directFileUrl| == 0 && !IsHttp(path)
    requires |cfg.projectUrl| > 0 && |cfg.bucket| > 0 && |path| > 0
    ensures var url := BuildFileUrl(cfg, path, sanitize).value;
      var base := TrimEnd(sanitize(cfg.projectUrl));
      var prefix := if cfg.isPublicBucket then PublicPrefix else PrivatePrefix;
      var head := |base| + |prefix| + |cfg.bucket| + 1;
      && head <= |url|
      && url[head..] == TrimStart(path)
      && url[..|base|] == base
      && (|base| > 0 ==> url[|base| - 1] != '/')
      && (head < |url| ==> url[head] != '/')
  {
    var base := TrimEnd(sanitize(cfg.projectUrl));
    var prefix := if cfg.isPublicBucket then PublicPrefix else PrivatePrefix;
    JoinParts(base, prefix, cfg.bucket, TrimStart(path));
  }

  /** The bucket setting is copied as it is: one that ends in '/' puts two
      slashes in a row just before the object path, and one that starts
      with '/' puts two in a row right after the storage prefix, which ends
      in '/'. */
  lemma BucketSlashDoublesUp(cfg: Settings, path: string, sanitize: string -> string)
    requires |cfg.directFileUrl| == 0 && !IsHttp(path)
    requires |cfg.projectUrl| > 0 && |cfg.bucket| > 0 && |path| > 0
    ensures var url := BuildFileUrl(cfg, path, sanitize).value;
      var base := TrimEnd(sanitize(cfg.projectUrl));
      var prefix := if cfg.isPublicBucket then PublicPrefix else PrivatePrefix;
      var head := |base| + |prefix| + |cfg.bucket| + 1;
      && head <= |url|
      && (cfg.bucket[|cfg.bucket| - 1] == '/' ==> url[head - 2] == '/' && url[head - 1] == '/')
      && (cfg.bucket[0] == '/' ==> url[|base| + |prefix| - 1] == '/' && url[|base| + |prefix|] == '/')
  {
    var base := TrimEnd(sanitize(cfg.projectUrl));
    var prefix := if cfg.isPublicBucket then PublicPrefix else PrivatePrefix;
    SlashAfter(base + prefix, cfg.bucket, TrimStart(path));
    SlashBefore(base, prefix, cfg.bucket + "/" + TrimStart(path));
  }

  /** In `a + k + "/" + b` the last character of `k` and the added '/' sit
      side by side. */
  lemma SlashAfter(a: string, k: string, b: string)
    requires |k| > 0
    ensures var s := a + k + "/" + b;
      && |a| + |k| + 1 <= |s|
      && s[|a| + |k| - 1] == k[|k| - 1] && s[|a| + |k|] == '/'
  {
    var s := a + k + "/" + b;
    assert s == (a + k) + ("/" + b);
  }

  /** In `a + p + k` the last character of `p` and the first of `k` sit side
      by side. */
  lemma SlashBefore(a: string, p: string, k: string)
    requires |p| > 0 && |k| > 0
    ensures var s := a + p + k;
      && |a| + |p| < |s|
      && s[|a| + |p| - 1] == p[|p| - 1] && s[|a| + |p|] == k[0]
  {
  }

  /** The pieces of `a + p + k + "/" + b` sit where their lengths say; with
      no slash at the end of `a` or the start of `b` none appears at those
      joins. */
  lemma JoinParts(a: string, p: string, k: string, b: string)
    requires |a| > 0 ==> a[|a| - 1] != '/'
    requires |b| > 0 ==> b[0] != '/'
    ensures var s := a + p + k + "/" + b;
      var head := |a| + |p| + |k| + 1;
      && s[..|a|] == a && s[head..] == b
      && (|a| > 0 ==> s[|a| - 1] != '/')
      && (head < |s| ==> s[head] != '/')
  {
    var s := a + p + k + "/" + b;
    assert s[..|a|] == a;
    assert s[|a| + |p| + |k| + 1..] == b;
  }

  /** The URL the play coroutines request, or None when they log an error
      and stop (an empty or null URL): the file URL built from the resolved
      stage path. */
  function PlaybackUrl(cfg: Settings, stage: Option<int32>, sanitize: string -> string): (r: Option<string>)
    ensures var built := BuildFileUrl(cfg, ResolveStagePath(cfg, stage), sanitize);
      && (r.None? <==> built.None? || |built.value| == 0)
      && (r.Some? ==> r == built)
    ensures r.Some? ==> |r.value| > 0
    ensures r.Some? && |cfg.directFileUrl| > 0 ==> r.value == cfg.directFileUrl
    ensures var path := ResolveStagePath(cfg, stage);
      r.Some? && |cfg.directFileUrl| == 0 && IsHttp(path) ==> r.value == path
    ensures var path := ResolveStagePath(cfg, stage);
      var prefix := if cfg.isPublicBucket then PublicPrefix else PrivatePrefix;
      r.Some? && |cfg.directFileUrl| == 0 && !IsHttp(path) ==>
        r.value == TrimEnd(sanitize(cfg.projectUrl)) + prefix + cfg.bucket + "/" + TrimStart(path)
  {
    match BuildFileUrl(cfg, ResolveStagePath(cfg, stage), sanitize)
    case Some(u) => if |u| > 0 then Some(u) else None
    case None => None
  }

  /** The stage path is never empty, so with a project URL and a bucket set a
      stage always has a URL to play. */
  lemma StageAlwaysHasUrl(cfg: Settings, stage: Option<int32>, sanitize: string -> string)
    requires |cfg.projectUrl| > 0 && |cfg.bucket| > 0
    ensures PlaybackUrl(cfg, stage, sanitize).Some?
  {
    var path := ResolveStagePath(cfg, stage);
    if |cfg.directFileUrl| == 0 && !IsHttp(path) {
      var prefix := if cfg.isPublicBucket then PublicPrefix else PrivatePrefix;
      assert |BuildFileUrl(cfg, path, sanitize).value| >= |prefix|;
    } else if |cfg.directFileUrl| == 0 {
      assert |path| >= |"http://"|;
    }
  }

  // ---------------------------------------------------------------------
  // Stream or download
  // ---------------------------------------------------------------------

  /** canStream: a public bucket, or a direct URL that is an absolute http(s)
      address. */
  predicate CanStream(cfg: Settings) {
    cfg.isPublicBucket || (|cfg.directFileUrl| > 0 && IsHttp(cfg.directFileUrl))
  }

  /** shouldDownload: fetch to a temporary file first when the video cannot be
      streamed or downloading is preferred. */
  function ShouldDownload(cfg: Settings): (r: bool)
    ensures cfg.preferDownloadForPlayback ==> r
    ensures cfg.isPublicBucket && !cfg.preferDownloadForPlayback ==> !r
    ensures !cfg.isPublicBucket && !IsHttp(cfg.directFileUrl) ==> r
  {
    !CanStream(cfg) || cfg.preferDownloadForPlayback
  }

  /** Streaming happens exactly when the source can be streamed and no
      download is asked for. */
  lemma StreamsExactlyWhen(cfg: Settings)
    ensures !ShouldDownload(cfg) <==> CanStream(cfg) && !cfg.preferDownloadForPlayback
  {
  }
}

=== FILE: swipe_input.dfy ===
/** SwipeInputController: a pointer release becomes a tap (two close taps
    make an undo), a swipe (a direction for every player, turned to match
    the active camera) or nothing. Screen positions are real pairs; the
    engine's float rounding is not modelled. */
module SwipeInput {
  import opened Cells
  import opened Wrappers
  import UndoManager
  import TM = TurnManager

  datatype Vec2 = Vec2(x: real, y: real)

  /** The serialized settings (pixels and seconds). */
  datatype Config = Config(
    minSwipeDistance: real,
    maxTapDuration: real,
    doubleTapMaxDelay: real,
    doubleTapMaxDistance: real,
    suppressUndoOverUI: bool)

  const Defaults := Config(60.0, 0.20, 0.30, 40.0, true)

  /** The squared Vector2.Distance. */
  function DistSq(a: Vec2, b: Vec2): real {
    (a.x - b.x) * (a.x - b.x) + (a.y - b.y) * (a.y - b.y)
  }

  /** `Vector2.Distance(a, b) <= d`, without the square root (a distance is
      never negative, so no pair is within a negative bound). */
  predicate Within(a: Vec2, b: Vec2, d: real) {
    0.0 <= d && DistSq(a, b) <= d * d
  }

  /** `Vector2.Distance(a, b) < d`, without the square root. */
  predicate Closer(a: Vec2, b: Vec2, d: real) {
    0.0 < d && DistSq(a, b) < d * d
  }

  function Abs(x: real): real {
    if x < 0.0 then -x else x
  }

  /** lastTapTime and lastTapPos. */
  datatype TapMemory = TapMemory(lastTapTime: real, lastTapPos: Vec2)

  const NoTap: real := -10.0
  const Fresh := TapMemory(NoTap, Vec2(0.0, 0.0))

  /** What a release leads to. */
  datatype Gesture =
    | Ignored                 // too short for a swipe, too long for a tap
    | TapRecorded             // a first tap, remembered
    | TapsCleared             // a tap over the UI, forgetting the pending one
    | UndoRequested           // the second of two close taps
    | Swipe(dir: Vec)         // a swipe, already turned for the camera

  /** The dominant axis of a drag: horizontal only when strictly wider than tall. */
  function BaseDirection(delta: Vec2): (r: Vec)
    ensures IsCardinal(r)
    ensures Abs(delta.x) > Abs(delta.y) ==> r == (if delta.x > 0.0 then Right else Left)
    ensures Abs(delta.x) <= Abs(delta.y) ==> r == (if delta.y > 0.0 then Forward else Back)
  {
    if Abs(delta.x) > Abs(delta.y) then (if delta.x > 0.0 then Right else Left)
    else (if delta.y > 0.0 then Forward else Back)
  }

  /** MapByCameraIndex: screen-up is world forward for camera 0 and turns a
      quarter counter-clockwise with each further camera; an index outside
      0..3 or a direction that is not one of the four leaves it as it is. */
  function MapByCameraIndex(idx: int, d: Vec): Vec {
    if d == Forward then
      if idx == 0 then Forward else if idx == 1 then Left
      else if idx == 2 then Back else if idx == 3 then Right else d
    else if d == Back then
      if idx == 0 then Back else if idx == 1 then Right
      else if idx == 2 then Forward else if idx == 3 then Left else d
    else if d == Left then
      if idx == 0 then Left else if idx == 1 then Back
      else if idx == 2 then Right else if idx == 3 then Forward else d
    else if d == Right then
      if idx == 0 then Right else if idx == 1 then Forward
      else if idx == 2 then Left else if idx == 3 then Back else d
    else d
  }

  /** The table of MapByCameraIndex is a rotation by the camera's index:
      camera 1 turns a swipe a quarter counter-clockwise, camera 2 reverses
      it and camera 3 turns it a quarter clockwise. */
  lemma MapIsRotation(d: Vec)
    requires IsCardinal(d)
    ensures MapByCameraIndex(0, d) == d
    ensures MapByCameraIndex(1, d) == TurnCounterClockwise(d)
    ensures MapByCameraIndex(2, d) == Neg(d)
    ensures MapByCameraIndex(3, d) == TurnClockwise(d)
  {
    hide MapByCameraIndex;
    MapCamera(0, d);
    MapCamera(1, d);
    MapCamera(2, d);
    MapCamera(3, d);
  }

  /** One camera's column of the table. */
  lemma MapCamera(idx: int, d: Vec)
    requires IsCardinal(d) && 0 <= idx < 4
    ensures MapByCameraIndex(idx, d) ==
      if idx == 0 then d else if idx == 1 then TurnCounterClockwise(d)
      else if idx == 2 then Neg(d) else TurnClockwise(d)
  {
    if d == Forward {
    } else if d == Back {
    } else if d == Left {
    } else {
      assert d == Right;
    }
  }

  /** Outside the table (another index, or a direction that is not one of
      the four) the direction is returned as it is. */
  lemma MapOutsideTableIsIdentity(idx: int, d: Vec)
    requires !(0 <= idx < 4) || !IsCardinal(d)
    ensures MapByCameraIndex(idx, d) == d
  {
  }

  /** ProcessPointerEnd: `start` and `end` are the press and release
      positions, `duration` the press length, `now` the unscaled time,
      `overUI` whether the release is over the UI, `camIndex` the active
      camera (0 without a camera controller). */
  function ProcessPointerEnd(cfg: Config, mem: TapMemory, start: Vec2, end: Vec2,
                             duration: real, now: real, overUI: bool, camIndex: int): (r: (Gesture, TapMemory))
    ensures duration <= cfg.maxTapDuration && Within(end, start, cfg.doubleTapMaxDistance) ==> !r.0.Swipe? && r.0 != Ignored
    ensures duration <= cfg.maxTapDuration && Within(end, start, cfg.doubleTapMaxDistance) ==>
      (r.0 == TapsCleared <==> cfg.suppressUndoOverUI && overUI)
    ensures duration <= cfg.maxTapDuration && Within(end, start, cfg.doubleTapMaxDistance) && !(cfg.suppressUndoOverUI && overUI) ==>
      (r.0 == UndoRequested <==>
         now - mem.lastTapTime <= cfg.doubleTapMaxDelay && Within(end, mem.lastTapPos, cfg.doubleTapMaxDistance))
    ensures r.0 == UndoRequested ==> r.1.lastTapTime == NoTap
    ensures r.0 == TapsCleared ==> r.1.lastTapTime == NoTap && cfg.suppressUndoOverUI && overUI
    ensures r.0 == TapRecorded ==> r.1 == TapMemory(now, end)
    ensures r.0.Swipe? || r.0 == Ignored ==> r.1 == mem
    ensures r.0 == Ignored <==>
      !(duration <= cfg.maxTapDuration && Within(end, start, cfg.doubleTapMaxDistance)) && Closer(end, start, cfg.minSwipeDistance)
    ensures r.0.Swipe? <==>
      !(duration <= cfg.maxTapDuration && Within(end, start, cfg.doubleTapMaxDistance)) && !Closer(end, start, cfg.minSwipeDistance)
    ensures r.0.Swipe? ==> r.0.dir == MapByCameraIndex(camIndex, BaseDirection(Vec2(end.x - start.x, end.y - start.y)))
  {
    if duration <= cfg.maxTapDuration && Within(end, start, cfg.doubleTapMaxDistance) then
      if cfg.suppressUndoOverUI && overUI then (TapsCleared, mem.(lastTapTime := NoTap))
      else if now - mem.lastTapTime <= cfg.doubleTapMaxDelay && Within(end, mem.lastTapPos, cfg.doubleTapMaxDistance) then
        (UndoRequested, mem.(lastTapTime := NoTap))
      else
        (TapRecorded, TapMemory(now, end))
    else if Closer(end, start, cfg.minSwipeDistance) then (Ignored, mem)
    else
      var delta := Vec2(end.x - start.x, end.y - start.y);
      (Swipe(MapByCameraIndex(camIndex, BaseDirection(delta))), mem)
  }

  /** ApplyMove: every player takes the direction; the zero vector is ignored. */
  function ApplyMove(dir: Vec, directions: seq<Vec>): (r: seq<Vec>)
    ensures |r| == |directions|
    ensures dir == Zero ==> r == directions
    ensures dir != Zero ==> forall i :: 0 <= i < |r| ==> r[i] == dir
  {
    if dir == Zero then directions else seq(|directions|, _ => dir)
  }

  /** Of two moves, the later non-zero one decides every player's direction,
      and repeating a move changes nothing more. */
  lemma LastMoveWins(a: Vec, b: Vec, directions: seq<Vec>)
    ensures b != Zero ==> ApplyMove(b, ApplyMove(a, directions)) == ApplyMove(b, directions)
    ensures b == Zero ==> ApplyMove(b, ApplyMove(a, directions)) == ApplyMove(a, directions)
    ensures ApplyMove(a, ApplyMove(a, directions)) == ApplyMove(a, directions)
  {
  }

  /** TryUndo: undo only when no player is in a move tween. */
  function TryUndo(tweening: seq<bool>, h: UndoManager.History, w: TM.World, found: seq<nat>): (r: UndoManager.Undone)
    ensures (exists i :: 0 <= i < |tweening| && tweening[i]) ==> r == UndoManager.Undone(h, Done(w))
    ensures (forall i :: 0 <= i < |tweening| ==> !tweening[i]) ==> r == UndoManager.Undo(h, w, found)
  {
    if exists i :: 0 <= i < |tweening| && tweening[i] then UndoManager.Undone(h, Done(w))
    else UndoManager.Undo(h, w, found)
  }

  /** A quick, short release is a tap: never a swipe and never ignored. */
  lemma TapNeverMoves(cfg: Config, mem: TapMemory, start: Vec2, end: Vec2,
                      duration: real, now: real, overUI: bool, camIndex: int)
    requires duration <= cfg.maxTapDuration && Within(end, start, cfg.doubleTapMaxDistance)
    ensures var r := ProcessPointerEnd(cfg, mem, start, end, duration, now, overUI, camIndex);
      r.0 in {TapRecorded, TapsCleared, UndoRequested}
  {
  }

  /** Three quick taps on one spot, each within the double-tap delay of the
      one before, give one undo: the second tap consumes the first, and the
      third starts a new pair. */
  lemma {:induction false} ThreeTapsOneUndo(p: Vec2, t1: real, t2: real, t3: real, camIndex: int)
    requires 0.0 <= t1 <= t2 <= t3 && t2 - t1 <= Defaults.doubleTapMaxDelay && t3 - t2 <= Defaults.doubleTapMaxDelay
    ensures var r1 := ProcessPointerEnd(Defaults, Fresh, p, p, 0.1, t1, false, camIndex);
      var r2 := ProcessPointerEnd(Defaults, r1.1, p, p, 0.1, t2, false, camIndex);
      var r3 := ProcessPointerEnd(Defaults, r2.1, p, p, 0.1, t3, false, camIndex);
      r1.0 == TapRecorded && r2.0 == UndoRequested && r3.0 == TapRecorded
  {
    assert DistSq(p, p) == 0.0;
  }

  /** With undo suppressed over the UI, a tap on the UI breaks a double tap:
      the next gameplay tap (at a non-negative time, with a double-tap delay
      under ten seconds) is recorded as a first tap, never an undo. */
  lemma UITapBreaksDoubleTap(cfg: Config, mem: TapMemory, p1: Vec2, p2: Vec2, t1: real, t2: real,
                             d1: real, d2: real, camIndex: int)
    requires cfg.suppressUndoOverUI && cfg.doubleTapMaxDelay < 10.0 && 0.0 <= t2
    requires d1 <= cfg.maxTapDuration && d2 <= cfg.maxTapDuration && 0.0 <= cfg.doubleTapMaxDistance
    ensures var r1 := ProcessPointerEnd(cfg, mem, p1, p1, d1, t1, true, camIndex);
      var r2 := ProcessPointerEnd(cfg, r1.1, p2, p2, d2, t2, false, camIndex);
      r1.0 == TapsCleared && r2.0 == TapRecorded && r2.1 == TapMemory(t2, p2)
  {
    assert DistSq(p1, p1) == 0.0 && DistSq(p2, p2) == 0.0;
  }

  /** A release too long for a tap and shorter than the swipe distance does
      nothing and keeps the pending tap. */
  lemma ShortDragIgnored(cfg: Config, mem: TapMemory, start: Vec2, end: Vec2,
                         duration: real, now: real, overUI: bool, camIndex: int)
    requires duration > cfg.maxTapDuration
    requires Closer(end, start, cfg.minSwipeDistance)
    ensures ProcessPointerEnd(cfg, mem, start, end, duration, now, overUI, camIndex) == (Ignored, mem)
  {
  }

  /** A diagonal drag counts as vertical. */
  lemma DiagonalIsVertical(d: real)
    requires d > 0.0
    ensures BaseDirection(Vec2(d, d)) == Forward && BaseDirection(Vec2(-d, -d)) == Back
  {
  }
}

=== FILE: turn_based_character.dfy ===
/** TurnbsedCharacter and its Robot subclass: what one character does on a
    turn, what happens when its move tween finishes, and the mark it writes
    into the grid during reconciliation. Robot's two overrides are the
    `Robot...` members; dispatch on `Kind` plays the role of C#'s virtual
    calls. */
module TurnBasedCharacter {
  import opened Cells
  import opened Wrappers
  import opened Int32
  import opened StageGrid
  import opened Actors
  import opened MoveBoxes

  /** Cells a character will not walk into: blocks and player marks. */
  const Blocking: set<char> := {'B', 'P'}
  /** Cells UpdateGridData will not stamp: blocks, players and robots. */
  const StampBlocking: set<char> := {'B', 'P', 'K'}
  /** Occupants above a box that stop a push. */
  const AboveBox: set<char> := {'P', 'K', 'M'}
  /** Column tops a character may stand on in the 2D view. */
  const Standable: set<char> := {'B', 'M'}
  /** Column tops that turn a character back in the 2D view. */
  const Actorish: set<char> := {'P', 'K'}

  datatype Flip = Flip(c: Character, ok: bool)

  /** TryFlipDirection: turn round, aim at the cell behind, and report whether
      that cell can be walked into. */
  function TryFlipDirection(c: Character, g: Grid): (r: Flip)
    ensures r.c == c.(facing := Neg(c.facing), next := Add(c.pos, Neg(c.facing)))
    ensures r.ok <==> InBounds(g, r.c.next) && At(g, r.c.next) !in Blocking
  {
    var c1 := c.(facing := Neg(c.facing), next := Add(c.pos, Neg(c.facing)));
    Flip(c1, InBounds(g, c1.next) && !IsAny(g, c1.next, Blocking))
  }

  /** Two flips face the character the way it started and aim it at the
      cell in front again. */
  lemma FlipTwiceRestores(c: Character, g: Grid)
    requires c.next == Add(c.pos, c.facing)
    ensures TryFlipDirection(TryFlipDirection(c, g).c, g).c == c
  {
  }

  datatype Checked = Checked(c: Character, saved: seq<int32>)

  /** CheckGoal, dispatched on the kind. A walker about to step onto 'G'
      records the stage after the current one as cleared and arms the delayed
      completion; a robot turns round instead (Robot.CheckGoal). */
  function CheckGoal(c: Character, g: Grid, stage: int32): (r: Checked)
    ensures c.kind == Walker && IsCell(g, c.next, 'G') ==>
      r == Checked(c.(goalPending := true), [Wrap(stage + 1)])
    ensures !IsCell(g, c.next, 'G') ==> r == Checked(c, [])
    ensures c.kind == Robot ==> r == Checked(RobotCheckGoal(c, g), [])
  {
    match c.kind
    case Walker =>
      if IsCell(g, c.next, 'G') then Checked(c.(goalPending := true), [Wrap(stage + 1)])
      else Checked(c, [])
    case Robot => Checked(RobotCheckGoal(c, g), [])
  }

  /** Robot.CheckGoal: at a goal the robot flips; the flip's verdict is
      ignored, so the reversed cell becomes the target unchecked, and
      `isComplete` is never touched. */
  function RobotCheckGoal(c: Character, g: Grid): (r: Character)
    ensures IsCell(g, c.next, 'G') ==>
      r == c.(facing := Neg(c.facing), next := Add(c.pos, Neg(c.facing)))
    ensures !IsCell(g, c.next, 'G') ==> r == c
    ensures r.complete == c.complete && r.goalPending == c.goalPending
  {
    if IsCell(g, c.next, 'G') then TryFlipDirection(c, g).c else c
  }

  /** MoveForward: start the move tween towards `next` and check the goal. */
  function MoveForward(c: Character, g: Grid, stage: int32): (r: Checked)
    ensures r.c.moving && r.c.pos == c.pos && r.c.kind == c.kind && r.c.complete == c.complete
    ensures c.kind == Walker ==> r.c.next == c.next && r.c.facing == c.facing
  {
    CheckGoal(c.(moving := true), g, stage)
  }

  datatype Handled = Handled(c: Character, stop: bool)

  /** TryHandleImmediateFlip: the cell ahead is invalid, a block or a player,
      or it is empty with empty space under it (a two-deep pit); then turn
      round, and end the turn unless the cell behind can be walked into. */
  function TryHandleImmediateFlip(c: Character, g: Grid): (r: Handled)
    ensures (!InBounds(g, c.next) || IsAny(g, c.next, Blocking)
             || (IsCell(g, c.next, 'N') && IsCell(g, Add(c.next, Down), 'N'))) ==>
      r == Handled(TryFlipDirection(c, g).c, !TryFlipDirection(c, g).ok)
    ensures !(!InBounds(g, c.next) || IsAny(g, c.next, Blocking)
             || (IsCell(g, c.next, 'N') && IsCell(g, Add(c.next, Down), 'N'))) ==>
      r == Handled(c, false)
  {
    if !InBounds(g, c.next) || IsAny(g, c.next, Blocking) then
      var f := TryFlipDirection(c, g);
      Handled(f.c, !f.ok)
    else if IsCell(g, c.next, 'N') && IsCell(g, Add(c.next, Down), 'N') then
      var f := TryFlipDirection(c, g);
      Handled(f.c, !f.ok)
    else
      Handled(c, false)
  }

  /** Whether a push of the box standing on `c.next` must be refused: the
      box's destination is invalid or not empty, the cell under the box is
      empty, or something stands on the box. */
  predicate PushRefused(c: Character, box: MoveBox, g: Grid) {
    var boxNext := Add(box.pos, c.facing);
    || !InBounds(g, boxNext)
    || !IsCell(g, boxNext, 'N')
    || IsCell(g, Add(c.next, Down), 'N')
    || IsAny(g, Add(c.next, Up), AboveBox)
  }

  datatype Pushed = Pushed(c: Character, actors: seq<Actor>, saved: seq<int32>, stop: bool)

  /** TryHandleMoveBox: if the cell in front holds 'M', find the first box
      there; a refused push turns the character round (and walks back if it
      can, ending the turn either way), an accepted push moves the box one
      cell and lets the turn go on. */
  function TryHandleMoveBox(c: Character, g: Grid, actors: seq<Actor>, stage: int32): (r: Pushed)
    ensures OnlyBoxesMoved(actors, r.actors)
    ensures r.c.pos == c.pos && r.c.kind == c.kind && r.c.complete == c.complete
    ensures !r.stop ==> r.c == c && r.saved == []
    ensures r.actors != actors ==> !r.stop
  {
    var front := Add(c.pos, c.facing);
    if !InBounds(g, front) || At(g, front) != 'M' then Pushed(c, actors, [], false)
    else
      match FirstBoxAt(actors, front)
      case None => Pushed(c, actors, [], false)
      case Some(k) =>
        var box := actors[k].box;
        if PushRefused(c, box, g) then
          var f := TryFlipDirection(c, g);
          if !f.ok then Pushed(f.c, actors, [], true)
          else
            var m := MoveForward(f.c, g, stage);
            Pushed(m.c, actors, m.saved, true)
        else
          Pushed(c, actors[k := AsBox(TryPush(box, c.facing))], [], false)
  }

  datatype Turn = Turn(c: Character, actors: seq<Actor>, saved: seq<int32>)

  /** OnTurn in the normal (3D) view. Positions do not change here: a move
      only sets `next` and starts the tween (see Arrive). */
  function OnTurn3D(c: Character, g: Grid, actors: seq<Actor>, stage: int32): (r: Turn)
    ensures OnlyBoxesMoved(actors, r.actors)
    ensures r.c.pos == c.pos && r.c.kind == c.kind && r.c.complete == c.complete
    ensures c.moving || c.complete ==> r == Turn(c, actors, [])
  {
    if c.moving || c.complete then Turn(c, actors, [])
    else
      var c1 := c.(next := Add(c.pos, c.facing));
      var h := TryHandleImmediateFlip(c1, g);
      if h.stop then Turn(h.c, actors, [])
      else
        var p := TryHandleMoveBox(h.c, g, actors, stage);
        if p.stop then Turn(p.c, p.actors, p.saved)
        else
          var m := MoveForward(p.c, g, stage);
          Turn(m.c, p.actors, m.saved)
  }

  /** Aim at the cell above a column top and start moving there. */
  function MoveOnto(c: Character, top: Vec, g: Grid, stage: int32): (r: Checked)
    ensures r.c.moving && r.c.pos == c.pos && r.c.kind == c.kind && r.c.complete == c.complete
    ensures c.kind == Walker ==> r.c.next == Add(top, Up) && r.c.facing == c.facing
  {
    MoveForward(c.(next := Add(top, Up)), g, stage)
  }

  /** OnTurn in the 2D (top-down) view: the character walks onto the top of
      the neighbouring column when that top is a block or a box, turning
      round at the grid edge or at a column topped by a player or robot. */
  function OnTurn2D(c: Character, g: Grid, stage: int32): (r: Checked)
    requires Wf(g)
    ensures r.c.pos == c.pos && r.c.kind == c.kind && r.c.complete == c.complete
  {
    var ahead := Add(c.pos, c.facing);
    if !InBounds(g, ahead) then
      var c1 := c.(facing := Neg(c.facing));
      var flipped := Add(c1.pos, c1.facing);
      if !InBounds(g, flipped) then Checked(c1, [])
      else
        var top := TopCell(g, flipped);
        if IsAny(g, top, Standable) then MoveOnto(c1, top, g, stage) else Checked(c1, [])
    else
      var top := TopCell(g, ahead);
      if IsAny(g, top, Actorish) then
        // TryHandleImmediateFlipFor2D
        var c1 := c.(facing := Neg(c.facing));
        var flipped := Add(c1.pos, c1.facing);
        if !InBounds(g, flipped) then Checked(c1, [])
        else
          var newTop := TopCell(g, flipped);
          if IsAny(g, newTop, Standable) then MoveOnto(c1, newTop, g, stage) else Checked(c1, [])
      else if IsAny(g, top, Standable) then MoveOnto(c, top, g, stage)
      else Checked(c, [])
  }

  /** TryFlipDirectionFor2D (public, not called by OnTurn): turn round; the
      answer is true when the cell behind is outside the grid or its column
      is topped by a player or robot, and in the latter case the target
      becomes the cell above that top. */
  function TryFlipDirectionFor2D(c: Character, g: Grid): (r: Flip)
    requires Wf(g)
    ensures r.c.facing == Neg(c.facing) && r.c.pos == c.pos
    ensures !InBounds(g, Add(c.pos, Neg(c.facing))) ==> r.ok && r.c.next == c.next
    ensures InBounds(g, Add(c.pos, Neg(c.facing))) ==>
      var top := TopCell(g, Add(c.pos, Neg(c.facing)));
      (r.ok <==> IsAny(g, top, Actorish)) && r.c.next == (if r.ok then Add(top, Up) else c.next)
  {
    var c1 := c.(facing := Neg(c.facing));
    var flipped := Add(c1.pos, c1.facing);
    if !InBounds(g, flipped) then Flip(c1, true)
    else
      var top := TopCell(g, flipped);
      if IsAny(g, top, Actorish) then Flip(c1.(next := Add(top, Up)), true)
      else Flip(c1, false)
  }

  /** OnTurn: the 2D rules in the 2D view, otherwise the 3D rules. */
  function OnTurn(c: Character, g: Grid, actors: seq<Actor>, stage: int32, is2D: bool): (r: Turn)
    requires Wf(g)
    ensures OnlyBoxesMoved(actors, r.actors)
    ensures r.c.pos == c.pos && r.c.kind == c.kind && r.c.complete == c.complete
  {
    if is2D then
      var m := OnTurn2D(c, g, stage);
      Turn(m.c, actors, m.saved)
    else OnTurn3D(c, g, actors, stage)
  }

  /** The facing a dynamic tile gives: 'U' forward, 'D' back, 'R' right,
      'L' left; any other tile keeps `facing`. */
  function TileFacing(tile: char, facing: Vec): (r: Vec)
    ensures tile == 'U' ==> r == Forward
    ensures tile == 'D' ==> r == Back
    ensures tile == 'R' ==> r == Right
    ensures tile == 'L' ==> r == Left
    ensures tile !in {'U', 'D', 'R', 'L'} ==> r == facing
    ensures tile in {'U', 'D', 'R', 'L'} ==> IsCardinal(r)
  {
    if tile == 'U' then Forward
    else if tile == 'D' then Back
    else if tile == 'R' then Right
    else if tile == 'L' then Left
    else facing
  }

  /** UpdateForwardFromDynamic at cell `p`: an arrow tile there sets the
      facing it points to; no arrow, or a cell outside the dynamic grid
      (which matches no mark), keeps the facing. */
  function UpdateForwardFromDynamic(dyn: Grid, p: Vec, facing: Vec): (r: Vec)
    ensures InBounds(dyn, p) && At(dyn, p) == 'U' ==> r == Forward
    ensures InBounds(dyn, p) && At(dyn, p) == 'D' ==> r == Back
    ensures InBounds(dyn, p) && At(dyn, p) == 'R' ==> r == Right
    ensures InBounds(dyn, p) && At(dyn, p) == 'L' ==> r == Left
    ensures !InBounds(dyn, p) || At(dyn, p) !in {'U', 'D', 'R', 'L'} ==> r == facing
  {
    if InBounds(dyn, p) then TileFacing(At(dyn, p), facing) else facing
  }

  /** What happens between turns: a running tween completes (the character
      reaches `next`, stops moving and takes the facing of the dynamic tile
      there), and a pending goal completion fires. */
  function Arrive(c: Character, dyn: Grid): (r: Character)
    ensures !r.moving && !r.goalPending && r.kind == c.kind && r.next == c.next
    ensures r.pos == (if c.moving then c.next else c.pos)
    ensures r.facing == (if c.moving then UpdateForwardFromDynamic(dyn, c.next, c.facing) else c.facing)
    ensures r.complete == (c.complete || c.goalPending)
  {
    var c1 :=
      if c.moving then c.(pos := c.next, moving := false, facing := UpdateForwardFromDynamic(dyn, c.next, c.facing))
      else c;
    if c1.goalPending then c1.(complete := true, goalPending := false) else c1
  }

  /** The mark a character writes: 'P' for TurnbsedCharacter, 'K' for Robot. */
  function Mark(k: Kind): char {
    match k
    case Walker => 'P'
    case Robot => 'K'
  }

  /** UpdateGridData (both the base and Robot's override): nothing once
      complete; otherwise the mark goes on `next` when that is a valid cell
      free of blocks, players and robots, and on the current cell if not. */
  function UpdateGridData(c: Character, g: Grid): (r: Grid)
    ensures SameShape(g, r)
    ensures c.complete ==> r == g
    ensures !c.complete && InBounds(g, c.next) && At(g, c.next) !in StampBlocking ==>
      At(r, c.next) == Mark(c.kind) && forall q :: InBounds(g, q) && q != c.next ==> At(r, q) == At(g, q)
    ensures !c.complete && !(InBounds(g, c.next) && At(g, c.next) !in StampBlocking) ==>
      (InBounds(g, c.pos) ==> At(r, c.pos) == Mark(c.kind)) && forall q :: InBounds(g, q) && q != c.pos ==> At(r, q) == At(g, q)
  {
    if c.complete then g
    else if !InBounds(g, c.next) || IsAny(g, c.next, StampBlocking) then Put(g, c.pos, Mark(c.kind))
    else Put(g, c.next, Mark(c.kind))
  }

  /** The 3D turn of a character whose way ahead is blocked (invalid cell,
      block or player) and whose way back is blocked too: it only turns
      round and aims at the cell behind. */
  lemma BlockedBothWaysTurnsOnly(c: Character, g: Grid, actors: seq<Actor>, stage: int32)
    requires !c.moving && !c.complete
    requires !InBounds(g, Add(c.pos, c.facing)) || IsAny(g, Add(c.pos, c.facing), Blocking)
    requires !InBounds(g, Add(c.pos, Neg(c.facing))) || IsAny(g, Add(c.pos, Neg(c.facing)), Blocking)
    ensures OnTurn3D(c, g, actors, stage)
      == Turn(c.(facing := Neg(c.facing), next := Add(c.pos, Neg(c.facing))), actors, [])
  {
  }

  /** A walker whose way ahead is blocked (or is a two-deep pit) and whose
      way back is a free cell that is not a box turns round and starts
      walking back. */
  lemma BlockedAheadWalksBack(c: Character, g: Grid, actors: seq<Actor>, stage: int32)
    requires c.kind == Walker && !c.moving && !c.complete
    requires var ahead := Add(c.pos, c.facing);
      || !InBounds(g, ahead) || IsAny(g, ahead, Blocking)
      || (IsCell(g, ahead, 'N') && IsCell(g, Add(ahead, Down), 'N'))
    requires var back := Add(c.pos, Neg(c.facing));
      InBounds(g, back) && At(g, back) !in Blocking && At(g, back) != 'M'
    ensures var r := OnTurn3D(c, g, actors, stage);
      && r.c.facing == Neg(c.facing)
      && r.c.next == Add(c.pos, Neg(c.facing))
      && r.c.moving
      && r.actors == actors
  {
  }

  /** A push is refused when the rule of PushRefused says so: the pusher
      turns round, no object moves and the turn ends there. */
  lemma RefusedPushMovesNoBox(c: Character, g: Grid, actors: seq<Actor>, stage: int32, k: nat)
    requires !c.moving && !c.complete
    requires IsCell(g, Add(c.pos, c.facing), 'M')
    requires FirstBoxAt(actors, Add(c.pos, c.facing)) == Some(k)
    requires PushRefused(c.(next := Add(c.pos, c.facing)), actors[k].box, g)
    ensures var r := OnTurn3D(c, g, actors, stage);
      r.actors == actors && (c.kind == Walker ==> r.c.facing == Neg(c.facing))
  {
  }

  /** An accepted push moves the box one cell in the pusher's facing, and in
      the same turn the pusher starts to walk into the cell the box left. */
  lemma AcceptedPushFollowsBox(c: Character, g: Grid, actors: seq<Actor>, stage: int32, k: nat)
    requires !c.moving && !c.complete
    requires IsCell(g, Add(c.pos, c.facing), 'M')
    requires FirstBoxAt(actors, Add(c.pos, c.facing)) == Some(k)
    requires !PushRefused(c.(next := Add(c.pos, c.facing)), actors[k].box, g)
    ensures var r := OnTurn3D(c, g, actors, stage);
      && r.actors == actors[k := AsBox(MoveBox(actors[k].box.id,
                                               Add(Add(c.pos, c.facing), c.facing),
                                               Add(Add(c.pos, c.facing), c.facing)))]
      && r.c.moving
      && r.c.next == actors[k].box.pos
      && r.c.facing == c.facing
  {
  }

  /** A walker heading onto a goal records the following stage as cleared
      and becomes complete once the move has settled. */
  lemma WalkerReachesGoal(c: Character, g: Grid, dyn: Grid, actors: seq<Actor>, stage: int32)
    requires c.kind == Walker && !c.moving && !c.complete
    requires IsCell(g, Add(c.pos, c.facing), 'G')
    ensures var r := OnTurn3D(c, g, actors, stage);
      && r.saved == [Wrap(stage + 1)]
      && r.c.next == Add(c.pos, c.facing)
      && Arrive(r.c, dyn).complete
      && Arrive(r.c, dyn).pos == Add(c.pos, c.facing)
  {
  }

  /** A robot heading onto a goal turns round instead and records nothing. */
  lemma RobotTurnsAtGoal(c: Character, g: Grid, actors: seq<Actor>, stage: int32)
    requires c.kind == Robot && !c.moving && !c.complete && !c.goalPending
    requires IsCell(g, Add(c.pos, c.facing), 'G')
    ensures var r := OnTurn3D(c, g, actors, stage);
      && r.saved == []
      && r.c.facing == Neg(c.facing)
      && r.c.next == Add(c.pos, Neg(c.facing))
      && r.c.moving
      && !r.c.goalPending
  {
  }

  /** In the 3D view a walker only ever starts a move towards a cell of the
      grid that holds no block and no player. */
  lemma {:induction false} WalkerTargetsFreeCell(c: Character, g: Grid, actors: seq<Actor>, stage: int32)
    requires c.kind == Walker && !c.moving
    ensures var r := OnTurn3D(c, g, actors, stage);
      r.c.moving ==> InBounds(g, r.c.next) && At(g, r.c.next) !in Blocking
  {
    // Starting the move matters only through its contract.
    hide MoveForward;
    if !c.complete {
      var c1 := c.(next := Add(c.pos, c.facing));
      var h := TryHandleImmediateFlip(c1, g);
      if !h.stop {
        assert InBounds(g, h.c.next) && At(g, h.c.next) !in Blocking;
        assert h.c.next == Add(h.c.pos, h.c.facing);
      }
    }
  }

  /** The robot's unchecked flip at a goal: a robot facing a goal with a
      block behind it starts moving into the block, and stands in it once
      the move settles (on a one-column stage whose rows are a block, the
      robot and a goal, for instance). */
  lemma RobotWalksIntoBlock(c: Character, g: Grid, dyn: Grid, actors: seq<Actor>, stage: int32)
    requires c.kind == Robot && !c.moving && !c.complete
    requires IsCell(g, Add(c.pos, c.facing), 'G')
    requires IsCell(g, Add(c.pos, Neg(c.facing)), 'B')
    ensures var r := OnTurn3D(c, g, actors, stage);
      && r.c.moving
      && IsCell(g, r.c.next, 'B')
      && IsCell(g, Arrive(r.c, dyn).pos, 'B')
  {
  }

  /** A robot never becomes complete: no turn arms its completion, so no
      settling ever sets it. */
  lemma RobotNeverCompletes(c: Character, g: Grid, dyn: Grid, actors: seq<Actor>, stage: int32, is2D: bool)
    requires Wf(g)
    requires c.kind == Robot && !c.complete && !c.goalPending
    ensures var r := OnTurn(c, g, actors, stage, is2D);
      !r.c.goalPending && !Arrive(r.c, dyn).complete
  {
  }

  /** In the 2D view a walker either stays where it aims (possibly turned
      round), or starts a move to the cell just above the top of the
      neighbouring column, and only when that top is a block or a box. */
  lemma Walk2DLandsOnTop(c: Character, g: Grid, stage: int32)
    requires Wf(g) && c.kind == Walker
    ensures var r := OnTurn2D(c, g, stage);
      && (r.c.facing == c.facing || r.c.facing == Neg(c.facing))
      && ((r.c.next == c.next && r.c.moving == c.moving && r.saved == [])
          || (&& r.c.moving
              && InBounds(g, Add(c.pos, r.c.facing))
              && IsAny(g, TopCell(g, Add(c.pos, r.c.facing)), Standable)
              && r.c.next == Add(TopCell(g, Add(c.pos, r.c.facing)), Up)))
  {
    // Where a walker aims is stated by MoveOnto's contract.
    hide MoveOnto;
  }
}

=== FILE: turn_manager.dfy ===
/** TurnManager: the turn loop. Every registered object acts once, in list
    order; then the grid is reset and every object stamps its mark again;
    then the completion latch is checked. */
module TurnManager {
  import opened Cells
  import opened Wrappers
  import opened Int32
  import opened StageGrid
  import opened Actors
  import TBC = TurnBasedCharacter
  import PlayerTurn
  import MoveBoxes
  import StageBuilder
  import GM = GameManager

  /** The scene the turn loop drives.
      `grid`, `dynamic`: StageBuilder's main and dynamic grids;
      `actors`: every object of the scene, a slot being its identity;
      `turnObjects`: TurnManager's list, as slots of `actors`;
      `manager`: the GameManager;
      `firstComplete`: the completion latch isFirstComplete;
      `clearScreens`: how many times the clear screen has been shown;
      `saved`: the stage numbers handed to SaveClearedStage, in order;
      `stage`: StageBuilder's stageNumber. */
  datatype World = World(
    grid: Grid,
    dynamic: Grid,
    actors: seq<Actor>,
    turnObjects: seq<nat>,
    manager: GM.Manager,
    firstComplete: bool,
    clearScreens: nat,
    saved: seq<int32>,
    stage: int32)

  /** The references the scene holds are to objects of the scene, and the
      GameManager's players are players. */
  predicate Valid(w: World) {
    && Wf(w.grid)
    && (forall k :: 0 <= k < |w.turnObjects| ==> w.turnObjects[k] < |w.actors|)
    && (forall k :: 0 <= k < |w.manager.players| ==>
          w.manager.players[k] < |w.actors| && w.actors[w.manager.players[k]].AsPlayer?)
  }

  /** The completion flags GameManager.IsComplete reads, player by player. */
  function PlayerFlags(w: World): (r: seq<bool>)
    requires Valid(w)
    ensures |r| == |w.manager.players|
    ensures forall k :: 0 <= k < |r| ==> r[k] == w.actors[w.manager.players[k]].player.complete
  {
    seq(|w.manager.players|, k requires 0 <= k < |w.manager.players| =>
      w.actors[w.manager.players[k]].player.complete)
  }

  /** GameManager.IsComplete on this scene. */
  function IsComplete(w: World): (r: bool)
    requires Valid(w)
    ensures r <==> forall k :: 0 <= k < |w.manager.players| ==> w.actors[w.manager.players[k]].player.complete
  {
    GM.AllComplete(PlayerFlags(w))
  }

  /** Every player keeps its completion flag. */
  predicate SameFlags(before: seq<Actor>, after: seq<Actor>)
    requires SameCast(before, after)
  {
    forall j :: 0 <= j < |before| && before[j].AsPlayer? ==>
      after[j].player.complete == before[j].player.complete
  }

  /** The objects after a character's turn: `moved` (the list with any
      pushed box moved) with the character itself replaced. */
  function Replace(before: seq<Actor>, moved: seq<Actor>, i: nat, a: Actor): (r: seq<Actor>)
    requires OnlyBoxesMoved(before, moved) && i < |before| && Cast(a) == Cast(before[i])
    requires a.AsPlayer? ==> a.player.complete == before[i].player.complete
    ensures SameCast(before, r) && SameFlags(before, r)
    ensures forall j :: 0 <= j < |before| && j != i && !before[j].AsBox? ==> r[j] == before[j]
  {
    OnlyBoxesMovedKeepsCast(before, moved);
    moved[i := a]
  }

  /** OnTurn of the character `c` in slot `i`: the slot becomes the
      character after its turn, the boxes are where its push left them, and
      the stages it cleared are saved after the earlier ones. */
  function ActCharacter(w: World, i: nat, c: Character): (r: World)
    requires Wf(w.grid) && i < |w.actors| && w.actors[i] == AsCharacter(c)
    ensures r == w.(actors := r.actors, saved := r.saved)
    ensures SameCast(w.actors, r.actors) && SameFlags(w.actors, r.actors)
    ensures forall j :: 0 <= j < |w.actors| && j != i && !w.actors[j].AsBox? ==> r.actors[j] == w.actors[j]
    ensures var t := TBC.OnTurn(c, w.grid, w.actors, w.stage, w.manager.is2D);
      && r.actors[i] == AsCharacter(t.c)
      && (forall j :: 0 <= j < |w.actors| && w.actors[j].AsBox? ==> r.actors[j] == t.actors[j])
      && r.saved == w.saved + t.saved
  {
    var t := TBC.OnTurn(c, w.grid, w.actors, w.stage, w.manager.is2D);
    var acts := Replace(w.actors, t.actors, i, AsCharacter(t.c));
    w.(actors := acts, saved := w.saved + t.saved)
  }

  /** OnTurn of the object in slot `i`: a character moves by its rules
      (possibly pushing boxes), a player steps, a box does nothing. The grid
      is only read. */
  function ActOne(w: World, i: nat): (r: World)
    requires Wf(w.grid)
    ensures r == w.(actors := r.actors, saved := r.saved)
    ensures SameCast(w.actors, r.actors) && SameFlags(w.actors, r.actors)
    ensures forall j :: 0 <= j < |w.actors| && j != i && !w.actors[j].AsBox? ==> r.actors[j] == w.actors[j]
    ensures i >= |w.actors| || w.actors[i].AsBox? ==> r == w
    ensures i < |w.actors| && w.actors[i].AsPlayer? ==>
      r == w.(actors := w.actors[i := AsPlayer(PlayerTurn.OnTurn(w.actors[i].player))])
    ensures i < |w.actors| && w.actors[i].AsCharacter? ==>
      var t := TBC.OnTurn(w.actors[i].character, w.grid, w.actors, w.stage, w.manager.is2D);
      r.actors[i] == AsCharacter(t.c) && r.saved == w.saved + t.saved
  {
    if i >= |w.actors| then w
    else match w.actors[i]
      case AsCharacter(c) => ActCharacter(w, i, c)
      case AsPlayer(p) => w.(actors := w.actors[i := AsPlayer(PlayerTurn.OnTurn(p))])
      case AsBox(_) => w
  }

  /** The first loop of ExecuteTurn: OnTurn of every object of `objs`, in
      order. A player takes one step for every time its slot is listed; a
      character that is not listed stays as it was; saved stages are only
      appended. */
  function ActAll(w: World, objs: seq<nat>): (r: World)
    requires Wf(w.grid)
    ensures r == w.(actors := r.actors, saved := r.saved)
    ensures SameCast(w.actors, r.actors) && SameFlags(w.actors, r.actors)
    ensures w.saved <= r.saved
    ensures forall j :: 0 <= j < |w.actors| && w.actors[j].AsPlayer? ==>
      r.actors[j] == AsPlayer(PlayerTurn.Walk(w.actors[j].player, multiset(objs)[j]))
    ensures forall j :: 0 <= j < |w.actors| && w.actors[j].AsCharacter? && j !in objs ==>
      r.actors[j] == w.actors[j]
    decreases |objs|
  {
    if |objs| == 0 then w
    else
      SplitHead(objs);
      hide ActOne, ActCharacter, TBC.OnTurn;
      var r := ActAll(ActOne(w, objs[0]), objs[1..]);
      assert forall j :: 0 <= j < |w.actors| && w.actors[j].AsPlayer? ==>
        r.actors[j] == AsPlayer(PlayerTurn.Walk(w.actors[j].player, multiset(objs)[j])) by {
        forall j | 0 <= j < |w.actors| && w.actors[j].AsPlayer?
          ensures r.actors[j] == AsPlayer(PlayerTurn.Walk(w.actors[j].player, multiset(objs)[j]))
        {
          WalkHead(w.actors[j].player, objs, j);
        }
      }
      r
  }

  /** The steps a listed player takes: one for the head of the list if it
      is the player's slot, then those for the tail. */
  lemma WalkHead(p: Player, objs: seq<nat>, j: nat)
    requires |objs| > 0
    ensures PlayerTurn.Walk(if objs[0] == j then PlayerTurn.OnTurn(p) else p, multiset(objs[1..])[j])
         == PlayerTurn.Walk(p, multiset(objs)[j])
  {
    SplitHead(objs);
  }

  /** A non-empty list is its head and its tail, as a multiset and for
      membership. */
  lemma SplitHead(objs: seq<nat>)
    requires |objs| > 0
    ensures multiset(objs) == multiset{objs[0]} + multiset(objs[1..])
    ensures forall j :: j in objs <==> j == objs[0] || j in objs[1..]
  {
    assert objs == [objs[0]] + objs[1..];
  }

  /** The first loop and then the second: acting on `xs + ys` is acting on
      `xs`, then on `ys`. */
  lemma {:induction false} ActAllAppend(w: World, xs: seq<nat>, ys: seq<nat>)
    requires Wf(w.grid)
    ensures ActAll(w, xs + ys) == ActAll(ActAll(w, xs), ys)
    decreases |xs|
  {
    if |xs| > 0 {
      assert (xs + ys)[0] == xs[0];
      assert (xs + ys)[1..] == xs[1..] + ys;
      ActAllAppend(ActOne(w, xs[0]), xs[1..], ys);
    } else {
      assert xs + ys == ys;
    }
  }

  /** Acting on a one-element list is that object's OnTurn. With
      ActAllAppend this makes the first loop of ExecuteTurn the in-order
      sequence of ActOne over the list, so every listed object, character
      or not, takes exactly its own turn at its place in the order. */
  lemma ActAllSingle(w: World, i: nat)
    requires Wf(w.grid)
    ensures ActAll(w, [i]) == ActOne(w, i)
  {
    assert [i][1..] == [];
  }

  /** The in-order reading of the first loop: acting on `xs + [i]` is acting
      on `xs` and then running the OnTurn of slot `i`. */
  lemma ActAllSnoc(w: World, xs: seq<nat>, i: nat)
    requires Wf(w.grid)
    ensures ActAll(w, xs + [i]) == ActOne(ActAll(w, xs), i)
  {
    ActAllAppend(w, xs, [i]);
    ActAllSingle(ActAll(w, xs), i);
  }

  /** The cells the UpdateGridData of `a` may write its own mark to (a
      player's update also clears the other 'P' cells). */
  predicate MayStamp(a: Actor, q: Vec) {
    match a
    case AsCharacter(c) => q == c.pos || q == c.next
    case AsPlayer(p) => q == p.pos
    case AsBox(b) => q == b.pos
  }

  /** UpdateGridData of one object: a box writes 'M' on its cell; a
      character that is not complete writes its mark on its target or its
      cell; a player becomes the single 'P' and throws outside the grid. No
      other cell changes, except that a player's update clears 'P' cells. */
  function StampOne(g: Grid, a: Actor): (r: Step<Grid>)
    ensures SameShape(g, r.State()) && (Wf(g) ==> Wf(r.State()))
    ensures forall q :: InBounds(r.State(), q) <==> InBounds(g, q)
    ensures r.Threw? <==> a.AsPlayer? && !InBounds(g, a.player.pos)
    ensures r.Done? ==> forall q :: InBounds(g, q) && !MayStamp(a, q) && At(g, q) != 'P' ==> At(r.value, q) == At(g, q)
    ensures a.AsBox? && InBounds(g, a.box.pos) ==> At(r.value, a.box.pos) == 'M'
    ensures a.AsPlayer? && r.Done? ==> forall q :: InBounds(g, q) ==> (At(r.value, q) == 'P' <==> q == a.player.pos)
    ensures a.AsCharacter? && a.character.complete ==> r == Done(g)
    ensures a.AsCharacter? && !a.character.complete && InBounds(g, a.character.pos) ==>
      var c := a.character;
      (InBounds(g, c.next) && At(r.value, c.next) == TBC.Mark(c.kind)) || At(r.value, c.pos) == TBC.Mark(c.kind)
  {
    match a
    case AsCharacter(c) =>
      var g1 := TBC.UpdateGridData(c, g);
      SameShapeInBounds(g, g1);
      Done(g1)
    case AsPlayer(p) => PlayerTurn.UpdateGridData(p, g)
    case AsBox(b) =>
      var g1 := MoveBoxes.UpdateGridData(b, g);
      SameShapeInBounds(g, g1);
      Done(g1)
  }

  /** No object of `objs` may stamp cell `q`. */
  predicate Unstamped(actors: seq<Actor>, objs: seq<nat>, q: Vec) {
    forall k :: 0 <= k < |objs| && objs[k] < |actors| ==> !MayStamp(actors[objs[k]], q)
  }

  /** A listed player standing outside the grid. */
  predicate PlayerOffGrid(g: Grid, actors: seq<Actor>, objs: seq<nat>) {
    exists k :: 0 <= k < |objs| && objs[k] < |actors| && actors[objs[k]].AsPlayer?
      && !InBounds(g, actors[objs[k]].player.pos)
  }

  /** The loop of TurnManager.UpdateGridData over `objs`: each object stamps
      in turn, and the first exception ends the loop (and the turn). It
      throws exactly when a listed player stands outside the grid; a cell no
      listed object may stamp, and that is not 'P', keeps its mark. */
  function StampAll(g: Grid, actors: seq<Actor>, objs: seq<nat>): (r: Step<Grid>)
    ensures SameShape(g, r.State())
    ensures Wf(g) ==> Wf(r.State())
    ensures forall q :: InBounds(r.State(), q) <==> InBounds(g, q)
    ensures r.Threw? <==> PlayerOffGrid(g, actors, objs)
    ensures r.Done? ==> forall q :: InBounds(g, q) && At(g, q) != 'P' && Unstamped(actors, objs, q) ==>
      At(r.value, q) == At(g, q)
    decreases |objs|
  {
    if |objs| == 0 then Done(g)
    else
      var i := objs[0];
      if i >= |actors| then
        var r := StampAll(g, actors, objs[1..]);
        assert PlayerOffGrid(g, actors, objs) <==> PlayerOffGrid(g, actors, objs[1..]) by {
          if PlayerOffGrid(g, actors, objs) {
            var k :| 0 <= k < |objs| && objs[k] < |actors| && actors[objs[k]].AsPlayer?
              && !InBounds(g, actors[objs[k]].player.pos);
            assert objs[1..][k - 1] == objs[k];
          }
        }
        r
      else match StampOne(g, actors[i])
        case Threw(partial) => Threw(partial)
        case Done(g1) =>
          var r := StampAll(g1, actors, objs[1..]);
          assert PlayerOffGrid(g, actors, objs) <==> PlayerOffGrid(g1, actors, objs[1..]) by {
            if PlayerOffGrid(g, actors, objs) {
              var k :| 0 <= k < |objs| && objs[k] < |actors| && actors[objs[k]].AsPlayer?
                && !InBounds(g, actors[objs[k]].player.pos);
              assert objs[1..][k - 1] == objs[k];
            }
            if PlayerOffGrid(g1, actors, objs[1..]) {
              var k :| 0 <= k < |objs[1..]| && objs[1..][k] < |actors| && actors[objs[1..][k]].AsPlayer?
                && !InBounds(g1, actors[objs[1..][k]].player.pos);
              assert objs[k + 1] == objs[1..][k];
            }
          }
          assert forall q :: Unstamped(actors, objs, q) ==> !MayStamp(actors[i], q) && Unstamped(actors, objs[1..], q) by {
            forall q | Unstamped(actors, objs, q)
              ensures !MayStamp(actors[i], q) && Unstamped(actors, objs[1..], q)
            {
              forall k | 0 <= k < |objs[1..]| && objs[1..][k] < |actors|
                ensures !MayStamp(actors[objs[1..][k]], q)
              {
                assert objs[1..][k] == objs[k + 1];
              }
            }
          }
          r
  }

  /** Stamping `xs + ys` is stamping `xs` and, unless that threw, then `ys`. */
  lemma {:induction false} StampAllAppend(g: Grid, actors: seq<Actor>, xs: seq<nat>, ys: seq<nat>)
    ensures StampAll(g, actors, xs + ys) ==
      match StampAll(g, actors, xs)
      case Threw(partial) => Threw(partial)
      case Done(g1) => StampAll(g1, actors, ys)
    decreases |xs|
  {
    if |xs| > 0 {
      assert (xs + ys)[0] == xs[0];
      assert (xs + ys)[1..] == xs[1..] + ys;
      if xs[0] >= |actors| {
        StampAllAppend(g, actors, xs[1..], ys);
      } else if StampOne(g, actors[xs[0]]).Done? {
        StampAllAppend(StampOne(g, actors[xs[0]]).value, actors, xs[1..], ys);
      }
    } else {
      assert xs + ys == ys;
    }
  }

  /** The last object stamped has the last word on its own cell: after a
      loop that ends with a box, the box's cell holds 'M'; after one that
      ends with a player, the player's cell is the only 'P'. */
  lemma LastStampWins(g: Grid, actors: seq<Actor>, xs: seq<nat>, i: nat)
    requires i < |actors| && StampAll(g, actors, xs + [i]).Done?
    ensures var r := StampAll(g, actors, xs + [i]).value;
      && (actors[i].AsBox? && InBounds(g, actors[i].box.pos) ==> At(r, actors[i].box.pos) == 'M')
      && (actors[i].AsPlayer? ==>
            InBounds(g, actors[i].player.pos)
            && forall q :: InBounds(g, q) ==> (At(r, q) == 'P' <==> q == actors[i].player.pos))
  {
    StampAllAppend(g, actors, xs, [i]);
    var g1 := StampAll(g, actors, xs).value;
    assert StampAll(g1, actors, [i]) == StampOne(g1, actors[i]) by {
      assert [i][1..] == [];
    }
  }

  /** The grid reset, then stamped by every object of `objs`: it throws
      exactly when a listed player stands outside the grid; a cell no listed
      object may stamp and that is not 'P' is reset (B, G and S kept, any
      other mark cleared to 'N'). Only the grid changes. */
  function Restamp(w: World, objs: seq<nat>): (r: Step<World>)
    requires Wf(w.grid)
    ensures r.State() == w.(grid := r.State().grid)
    ensures Wf(r.State().grid) && SameShape(w.grid, r.State().grid)
    ensures r.Threw? <==> PlayerOffGrid(w.grid, w.actors, objs)
    ensures r.Done? ==> forall q :: InBounds(w.grid, q) && At(w.grid, q) != 'P' && Unstamped(w.actors, objs, q) ==>
      At(r.value.grid, q) == (if StageBuilder.IsStatic(At(w.grid, q)) then At(w.grid, q) else 'N')
  {
    var reset := StageBuilder.ResetGridData(w.grid);
    PlayerOffGridSameBounds(w.grid, reset, w.actors, objs);
    match StampAll(reset, w.actors, objs)
    case Done(g) => Done(w.(grid := g))
    case Threw(g) => Threw(w.(grid := g))
  }

  lemma PlayerOffGridSameBounds(a: Grid, b: Grid, actors: seq<Actor>, objs: seq<nat>)
    requires forall q :: InBounds(a, q) <==> InBounds(b, q)
    ensures PlayerOffGrid(a, actors, objs) <==> PlayerOffGrid(b, actors, objs)
  {
  }

  /** TurnManager.UpdateGridData: the grid reset and stamped by the turn
      objects, in list order. */
  function Reconcile(w: World): (r: Step<World>)
    requires Wf(w.grid)
    ensures r.State() == w.(grid := r.State().grid)
    ensures Wf(r.State().grid) && SameShape(w.grid, r.State().grid)
    ensures r.Threw? <==> PlayerOffGrid(w.grid, w.actors, w.turnObjects)
    ensures r.Done? ==> forall q :: InBounds(w.grid, q) && At(w.grid, q) != 'P' && Unstamped(w.actors, w.turnObjects, q) ==>
      At(r.value.grid, q) == (if StageBuilder.IsStatic(At(w.grid, q)) then At(w.grid, q) else 'N')
  {
    Restamp(w, w.turnObjects)
  }

  /** After a reconciliation whose last turn object is a player, that
      player's cell is the only 'P' of the grid. */
  lemma ReconcileMarksLastPlayer(w: World, xs: seq<nat>, i: nat)
    requires Wf(w.grid) && w.turnObjects == xs + [i] && i < |w.actors| && w.actors[i].AsPlayer?
    requires Reconcile(w).Done?
    ensures var g := Reconcile(w).value.grid;
      && InBounds(g, w.actors[i].player.pos)
      && forall q :: InBounds(g, q) ==> (At(g, q) == 'P' <==> q == w.actors[i].player.pos)
  {
    var reset := StageBuilder.ResetGridData(w.grid);
    LastStampWins(reset, w.actors, xs, i);
  }

  /** ExecuteTurn. Nothing happens once the latch is set. Otherwise every
      object acts, the grid is reconciled, and the first time every player
      is complete the latch is set and the clear screen is shown. */
  function ExecuteTurn(w: World): (r: Step<World>)
    requires Valid(w)
    ensures Valid(r.State())
    ensures w.firstComplete ==> r == Done(w)
    ensures r.State().manager == w.manager && r.State().turnObjects == w.turnObjects
    ensures r.State().firstComplete == (w.firstComplete || (r.Done? && IsComplete(r.State())))
    ensures r.State().clearScreens == w.clearScreens + (if r.State().firstComplete && !w.firstComplete then 1 else 0)
    ensures !w.firstComplete ==>
      var acted := ActAll(w, w.turnObjects);
      && r.State().actors == acted.actors && r.State().saved == acted.saved
      && r.State().grid == Reconcile(acted).State().grid
      && (r.Threw? <==> Reconcile(acted).Threw?)
  {
    if w.firstComplete then Done(w)
    else
      var acted := ActAll(w, w.turnObjects);
      assert Valid(acted);
      match Reconcile(acted)
      case Threw(w1) => Threw(w1)
      case Done(w1) =>
        if IsComplete(w1) then Done(w1.(firstComplete := true, clearScreens := w1.clearScreens + 1))
        else Done(w1)
  }

  /** In a turn, every player takes one step for each time it is listed,
      and a character that is not listed does not move. */
  lemma TurnStepsListedPlayers(w: World, j: nat)
    requires Valid(w) && !w.firstComplete && j < |w.actors|
    ensures w.actors[j].AsPlayer? ==>
      ExecuteTurn(w).State().actors[j] == AsPlayer(PlayerTurn.Walk(w.actors[j].player, multiset(w.turnObjects)[j]))
    ensures w.actors[j].AsCharacter? && j !in w.turnObjects ==> ExecuteTurn(w).State().actors[j] == w.actors[j]
  {
  }

  /** The time between turns: every running move tween completes and every
      pending goal completion fires. Players and boxes have nothing pending. */
  function Settle(w: World): (r: World)
    ensures r == w.(actors := r.actors)
    ensures Valid(w) ==> Valid(r)
    ensures SameCast(w.actors, r.actors)
    ensures forall j :: 0 <= j < |w.actors| && !w.actors[j].AsCharacter? ==> r.actors[j] == w.actors[j]
    ensures forall j :: 0 <= j < |w.actors| && w.actors[j].AsCharacter? ==>
      r.actors[j] == AsCharacter(TBC.Arrive(w.actors[j].character, w.dynamic))
  {
    w.(actors := seq(|w.actors|, j requires 0 <= j < |w.actors| =>
      match w.actors[j]
      case AsCharacter(c) => AsCharacter(TBC.Arrive(c, w.dynamic))
      case other => other))
  }

  /** The TurnLoop coroutine for at most `n` more turns: while the game is
      started, execute a turn and let a second pass. An exception escaping a
      turn ends the coroutine. */
  function Rounds(w: World, n: nat): (r: Step<World>)
    requires Valid(w)
    ensures Valid(r.State())
    ensures r.State().manager == w.manager && r.State().turnObjects == w.turnObjects
    ensures !w.manager.isStart ==> r == Done(w)
    decreases n
  {
    if n == 0 || !w.manager.isStart then Done(w)
    else match ExecuteTurn(w)
      case Threw(w1) => Threw(w1)
      case Done(w1) => Rounds(Settle(w1), n - 1)
  }

  /** StartMove followed by `n` seconds of its coroutine. Refused while the
      game is started; otherwise the latch is cleared, the object list is
      rebuilt from the objects found in the scene (`found`, in the order the
      engine lists them), the game is started and the loop begins with an
      immediate turn. */
  function StartMove(w: World, found: seq<nat>, n: nat): (r: Step<World>)
    requires Valid(w)
    requires forall k :: 0 <= k < |found| ==> found[k] < |w.actors|
    ensures w.manager.isStart ==> r == Done(w)
    ensures !w.manager.isStart ==> r.State().manager == GM.SetIsStart(w.manager) && r.State().turnObjects == found
    ensures Valid(r.State())
  {
    if w.manager.isStart then Done(w)
    else
      var started := w.(firstComplete := false, turnObjects := found, manager := GM.SetIsStart(w.manager));
      Rounds(started, n + 1)
  }

  /** Once the latch is set, a turn changes nothing. */
  lemma LatchedTurnIsNoOp(w: World)
    requires Valid(w) && w.firstComplete
    ensures ExecuteTurn(w) == Done(w)
  {
  }

  /** However long the loop runs, the clear screen is shown at most once
      more, and not at all if the latch was already set. */
  lemma {:induction false} ClearScreenAtMostOnce(w: World, n: nat)
    requires Valid(w)
    ensures Rounds(w, n).State().clearScreens <= w.clearScreens + (if w.firstComplete then 0 else 1)
    ensures w.firstComplete ==> Rounds(w, n).State().firstComplete
    ensures Rounds(w, n).State().clearScreens > w.clearScreens ==> Rounds(w, n).State().firstComplete
    decreases n
  {
    // Only the contracts of one turn and of settling are needed here.
    hide ExecuteTurn, Settle, Valid, IsComplete, ActAll, Reconcile;
    if n == 0 || !w.manager.isStart {
      assert Rounds(w, n) == Done(w);
    } else {
      var t := ExecuteTurn(w);
      if t.Threw? {
        assert Rounds(w, n) == t;
      } else {
        var w2 := Settle(t.value);
        assert Rounds(w, n) == Rounds(w2, n - 1);
        ClearScreenAtMostOnce(w2, n - 1);
      }
    }
  }

  /** With no registered player GameManager.IsComplete holds vacuously, so
      the very first turn that reconciles without an exception sets the
      latch and shows the clear screen. */
  lemma NoPlayersClearAtOnce(w: World)
    requires Valid(w) && !w.firstComplete && w.manager.players == []
    ensures ExecuteTurn(w).Done? ==>
      ExecuteTurn(w).value.firstComplete && ExecuteTurn(w).value.clearScreens == w.clearScreens + 1
  {
  }

  /** Starting while started is refused; starting a stopped game runs a turn
      at once with the latch cleared. */
  lemma StartRunsAnImmediateTurn(w: World, found: seq<nat>)
    requires Valid(w) && !w.manager.isStart
    requires forall k :: 0 <= k < |found| ==> found[k] < |w.actors|
    ensures var started := w.(firstComplete := false, turnObjects := found, manager := GM.SetIsStart(w.manager));
      StartMove(w, found, 0) == ExecuteTurn(started).(value := Settle(ExecuteTurn(started).State()))
                             || (ExecuteTurn(started).Threw? && StartMove(w, found, 0) == ExecuteTurn(started))
  {
  }
}

=== FILE: undo_manager.dfy ===
/** UndoManager: a stack of snapshots of the first player, the boxes, the
    clear flag and the main grid; Undo restores the latest one and lets every
    object stamp its mark again. */
module UndoManager {
  import opened Cells
  import opened Wrappers
  import opened StageGrid
  import opened Actors
  import StageBuilder
  import TM = TurnManager

  /** MoveBoxState. */
  datatype BoxState = BoxState(id: int, pos: Vec, target: Vec)

  /** GameState: what one Record keeps. */
  datatype GameState = GameState(
    playerPos: Vec,
    playerFacing: Vec,
    isGameClear: bool,
    boxes: seq<BoxState>,
    grid: Grid)

  /** The stack of snapshots; the top is the last element. */
  type History = seq<GameState>

  // ---------------------------------------------------------------------
  // Reading the scene
  // ---------------------------------------------------------------------

  /** FindObjectOfType<Player>(): the first player of the scene, if any. */
  function FirstPlayer(actors: seq<Actor>): (r: Option<nat>)
    ensures r.Some? ==> r.value < |actors| && actors[r.value].AsPlayer?
    ensures r.Some? ==> forall j :: 0 <= j < r.value ==> !actors[j].AsPlayer?
    ensures r.None? ==> forall j :: 0 <= j < |actors| ==> !actors[j].AsPlayer?
  {
    if |actors| == 0 then None
    else if actors[0].AsPlayer? then Some(0)
    else match FirstPlayer(actors[1..])
      case None => None
      case Some(k) => Some(k + 1)
  }

  function StateOf(b: MoveBox): BoxState {
    BoxState(b.id, b.pos, b.target)
  }

  /** Some box of the scene has exactly this state. */
  predicate HasBox(actors: seq<Actor>, s: BoxState) {
    exists j :: 0 <= j < |actors| && actors[j].AsBox? && StateOf(actors[j].box) == s
  }

  /** The states of all boxes of the scene, in scene order. */
  function BoxStates(actors: seq<Actor>): (r: seq<BoxState>)
    ensures forall j :: 0 <= j < |actors| && actors[j].AsBox? ==> StateOf(actors[j].box) in r
    ensures forall s :: s in r ==> HasBox(actors, s)
  {
    if |actors| == 0 then []
    else
      var rest := BoxStates(actors[1..]);
      assert forall s :: s in rest ==> HasBox(actors, s) by {
        forall s | s in rest
          ensures HasBox(actors, s)
        {
          var j :| 0 <= j < |actors[1..]| && actors[1..][j].AsBox? && StateOf(actors[1..][j].box) == s;
          assert actors[j + 1] == actors[1..][j];
        }
      }
      assert forall j :: 1 <= j < |actors| && actors[j].AsBox? ==> StateOf(actors[j].box) in rest by {
        forall j | 1 <= j < |actors| && actors[j].AsBox?
          ensures StateOf(actors[j].box) in rest
        {
          assert actors[1..][j - 1] == actors[j];
        }
      }
      if actors[0].AsBox? then [StateOf(actors[0].box)] + rest else rest
  }

  // ---------------------------------------------------------------------
  // OrderBy(GetInstanceID)
  // ---------------------------------------------------------------------

  predicate SortedById(s: seq<BoxState>) {
    forall i, j :: 0 <= i < j < |s| ==> s[i].id <= s[j].id
  }

  function Insert(x: BoxState, s: seq<BoxState>): (r: seq<BoxState>)
    requires SortedById(s)
    ensures SortedById(r)
    ensures multiset(r) == multiset(s) + multiset{x}
    ensures |r| > 0 && (r[0] == x || (|s| > 0 && r[0] == s[0]))
  {
    if |s| == 0 then [x]
    else if x.id <= s[0].id then [x] + s
    else
      var tail := Insert(x, s[1..]);
      assert s == [s[0]] + s[1..];
      assert s[0].id <= tail[0].id;
      [s[0]] + tail
  }

  /** The snapshot's box list, ordered by instance id. */
  function SortById(s: seq<BoxState>): (r: seq<BoxState>)
    ensures SortedById(r)
    ensures multiset(r) == multiset(s)
  {
    if |s| == 0 then []
    else
      assert s == [s[0]] + s[1..];
      Insert(s[0], SortById(s[1..]))
  }

  /** `FirstOrDefault(x => x.id == id)`. */
  function Lookup(states: seq<BoxState>, id: int): (r: Option<BoxState>)
    ensures r.Some? ==> r.value in states && r.value.id == id
    ensures r.None? ==> forall s :: s in states ==> s.id != id
  {
    if |states| == 0 then None
    else if states[0].id == id then Some(states[0])
    else Lookup(states[1..], id)
  }

  /** Instance ids identify boxes: no two box slots share one. */
  predicate UniqueBoxIds(actors: seq<Actor>) {
    forall i, j ::
      (0 <= i < |actors| && 0 <= j < |actors| && actors[i].AsBox? && actors[j].AsBox?
       && actors[i].box.id == actors[j].box.id) ==> i == j
  }

  // ---------------------------------------------------------------------
  // Record, Undo, Clear
  // ---------------------------------------------------------------------

  /** The snapshot Record takes of a scene whose first player is in slot `p`. */
  function Snapshot(w: TM.World, p: nat): (gs: GameState)
    requires p < |w.actors| && w.actors[p].AsPlayer?
    ensures gs.playerPos == w.actors[p].player.pos && gs.playerFacing == w.actors[p].player.facing
    ensures gs.isGameClear == w.manager.isGameClear && gs.grid == w.grid
    ensures SortedById(gs.boxes) && multiset(gs.boxes) == multiset(BoxStates(w.actors))
  {
    GameState(w.actors[p].player.pos, w.actors[p].player.facing, w.manager.isGameClear,
              SortById(BoxStates(w.actors)), w.grid)
  }

  /** Record: push one snapshot, or nothing when the scene has no player. */
  function Record(h: History, w: TM.World): (r: History)
    ensures FirstPlayer(w.actors).None? ==> r == h
    ensures FirstPlayer(w.actors).Some? ==>
      |r| == |h| + 1 && r[..|h|] == h && r[|h|] == Snapshot(w, FirstPlayer(w.actors).value)
  {
    match FirstPlayer(w.actors)
    case None => h
    case Some(p) => h + [Snapshot(w, p)]
  }

  function Clear(h: History): (r: History)
    ensures |r| == 0
  {
    []
  }

  /** The box after its restore: the snapshot's state for its id, if any. */
  function RestoreBox(b: MoveBox, states: seq<BoxState>): (r: MoveBox)
    ensures r.id == b.id
    ensures Lookup(states, b.id).None? ==> r == b
    ensures Lookup(states, b.id).Some? ==>
      r.pos == Lookup(states, b.id).value.pos && r.target == Lookup(states, b.id).value.target
  {
    match Lookup(states, b.id)
    case None => b
    case Some(s) => b.(pos := s.pos, target := s.target)
  }

  /** The scene after the restore part of Undo, before the re-stamping: the
      grid, the first player's cell and facing, every box with a recorded
      id and the clear flag come from the snapshot. */
  function Restore(w: TM.World, gs: GameState): (r: TM.World)
    ensures r.grid == gs.grid && r.manager == w.manager.(isGameClear := gs.isGameClear)
    ensures SameCast(w.actors, r.actors)
    ensures FirstPlayer(w.actors).Some? ==>
      var p := FirstPlayer(w.actors).value;
      r.actors[p] == AsPlayer(w.actors[p].player.(pos := gs.playerPos, facing := gs.playerFacing))
    ensures forall j :: 0 <= j < |w.actors| && w.actors[j].AsBox? ==>
      r.actors[j] == AsBox(RestoreBox(w.actors[j].box, gs.boxes))
    ensures forall j :: 0 <= j < |w.actors| && w.actors[j].AsCharacter? ==> r.actors[j] == w.actors[j]
    ensures forall j :: 0 <= j < |w.actors| && w.actors[j].AsPlayer? && Some(j) != FirstPlayer(w.actors) ==>
      r.actors[j] == w.actors[j]
  {
    var p := FirstPlayer(w.actors);
    var actors := seq(|w.actors|, j requires 0 <= j < |w.actors| =>
      match w.actors[j]
      case AsPlayer(pl) =>
        if Some(j) == p then AsPlayer(pl.(pos := gs.playerPos, facing := gs.playerFacing))
        else w.actors[j]
      case AsBox(b) => AsBox(RestoreBox(b, gs.boxes))
      case AsCharacter(_) => w.actors[j]);
    w.(grid := gs.grid, actors := actors, manager := w.manager.(isGameClear := gs.isGameClear))
  }

  datatype Undone = Undone(history: History, world: Step<TM.World>)

  /** Undo: nothing on an empty history; otherwise pop the latest snapshot,
      restore it, reset the grid and let every object of the scene (`found`,
      in the order the engine lists them) stamp its mark; a player outside
      the grid makes the stamping throw. */
  function Undo(h: History, w: TM.World, found: seq<nat>): (r: Undone)
    ensures |h| == 0 ==> r == Undone(h, Done(w))
    ensures |h| > 0 ==> r.history == h[..|h| - 1]
    ensures |h| > 0 ==>
      var gs := h[|h| - 1];
      var restored := Restore(w, gs);
      && r.world.State() == restored.(grid := r.world.State().grid)
      && SameShape(gs.grid, r.world.State().grid)
      && (r.world.Threw? <==> TM.PlayerOffGrid(gs.grid, restored.actors, found))
      && (r.world.Done? ==> forall q :: InBounds(gs.grid, q) && At(gs.grid, q) != 'P' && TM.Unstamped(restored.actors, found, q) ==>
            At(r.world.value.grid, q) == (if StageBuilder.IsStatic(At(gs.grid, q)) then At(gs.grid, q) else 'N'))
    ensures |h| > 0 && Wf(h[|h| - 1].grid) ==> r.world == TM.Restamp(Restore(w, h[|h| - 1]), found)
  {
    if |h| == 0 then Undone(h, Done(w))
    else
      var restored := Restore(w, h[|h| - 1]);
      var reset := StageBuilder.ResetGridData(restored.grid);
      TM.PlayerOffGridSameBounds(restored.grid, reset, restored.actors, found);
      match TM.StampAll(reset, restored.actors, found)
      case Done(g) => Undone(h[..|h| - 1], Done(restored.(grid := g)))
      case Threw(g) => Undone(h[..|h| - 1], Threw(restored.(grid := g)))
  }

  // ---------------------------------------------------------------------
  // Properties
  // ---------------------------------------------------------------------

  /** Undo takes back exactly the latest Record: the history is as before. */
  lemma UndoPopsLastRecord(h: History, w: TM.World, w': TM.World, found: seq<nat>)
    requires FirstPlayer(w.actors).Some?
    ensures Undo(Record(h, w), w', found).history == h
  {
    var r := Record(h, w);
    assert r[..|r| - 1] == h;
  }

  /** After Clear there is nothing to undo. */
  lemma UndoAfterClearIsNoOp(h: History, w: TM.World, found: seq<nat>)
    ensures Undo(Clear(h), w, found) == Undone([], Done(w))
  {
  }

  /** The restamping starts from the snapshot's grid with its dynamic marks
      reset: with no object to stamp, that reset grid is what Undo leaves. */
  lemma UndoResetsSnapshotGrid(h: History, w: TM.World)
    requires |h| > 0
    ensures var gs := h[|h| - 1];
      Undo(h, w, []) == Undone(h[..|h| - 1], Done(Restore(w, gs).(grid := StageBuilder.ResetGridData(gs.grid))))
  {
  }

  /** With unique instance ids, the snapshot holds, for each box, a state
      that Lookup finds by the box's id, and it is that box's own state. */
  lemma {:induction false} SnapshotFindsEveryBox(actors: seq<Actor>, j: nat)
    requires UniqueBoxIds(actors) && j < |actors| && actors[j].AsBox?
    ensures Lookup(SortById(BoxStates(actors)), actors[j].box.id) == Some(StateOf(actors[j].box))
  {
    var states := BoxStates(actors);
    var sorted := SortById(states);
    var mine := StateOf(actors[j].box);
    assert mine in states;
    assert multiset(sorted)[mine] == multiset(states)[mine];
    assert mine in sorted;
    var found := Lookup(sorted, mine.id);
    assert found.Some?;
    assert found.value in multiset(sorted);
    assert found.value in states;
    assert HasBox(actors, found.value);
    var k :| 0 <= k < |actors| && actors[k].AsBox? && StateOf(actors[k].box) == found.value;
    assert k == j;
  }

  /** Record then Undo brings back what was recorded, whatever happened in
      between, as long as the scene keeps its objects: the first player's
      cell and facing, every box's cell and TargetPos, and the clear flag.
      Characters are not part of a snapshot and stay where they are. */
  lemma {:induction false} UndoRestoresRecord(w: TM.World, w': TM.World, h: History, found: seq<nat>)
    requires FirstPlayer(w.actors).Some?
    requires SameCast(w.actors, w'.actors) && UniqueBoxIds(w.actors)
    ensures var u := Undo(Record(h, w), w', found).world.State();
      var p := FirstPlayer(w.actors).value;
      && u.actors[p].player.pos == w.actors[p].player.pos
      && u.actors[p].player.facing == w.actors[p].player.facing
      && u.manager.isGameClear == w.manager.isGameClear
      && (forall j :: 0 <= j < |w.actors| && w.actors[j].AsBox? ==>
            u.actors[j].box.pos == w.actors[j].box.pos && u.actors[j].box.target == w.actors[j].box.target)
      && (forall j :: 0 <= j < |w.actors| && w.actors[j].AsCharacter? ==> u.actors[j] == w'.actors[j])
  {
    var p := FirstPlayer(w.actors).value;
    FirstPlayerFollowsCast(w.actors, w'.actors);
    var gs := Snapshot(w, p);
    assert Record(h, w)[|Record(h, w)| - 1] == gs;
    forall j | 0 <= j < |w.actors| && w.actors[j].AsBox?
      ensures Lookup(gs.boxes, w'.actors[j].box.id) == Some(StateOf(w.actors[j].box))
    {
      assert Cast(w'.actors[j]) == Cast(w.actors[j]);
      SnapshotFindsEveryBox(w.actors, j);
    }
    forall j | 0 <= j < |w.actors| && w.actors[j].AsCharacter?
      ensures w'.actors[j].AsCharacter?
    {
      assert Cast(w'.actors[j]) == Cast(w.actors[j]);
    }
  }

  /** Scenes with the same objects have their first player in the same slot. */
  lemma {:induction false} FirstPlayerFollowsCast(a: seq<Actor>, b: seq<Actor>)
    requires SameCast(a, b)
    ensures FirstPlayer(a) == FirstPlayer(b)
    decreases |a|
  {
    if |a| > 0 {
      assert Cast(a[0]) == Cast(b[0]);
      assert SameCast(a[1..], b[1..]) by {
        forall i | 0 <= i < |a[1..]|
          ensures Cast(b[1..][i]) == Cast(a[1..][i])
        {
          assert Cast(a[i + 1]) == Cast(b[i + 1]);
        }
      }
      FirstPlayerFollowsCast(a[1..], b[1..]);
    }
  }
}

=== FILE: world_units.dfy ===
/** Conversion between world coordinates (Unity units, floats modelled as
    reals) and grid indices: one cell is `blockSize` = 2.0 wide and one layer
    `heightOffset` = 2.0 high, and the game rounds with Mathf.RoundToInt. */
module WorldUnits {
  import opened Cells

  const BlockSize: real := 2.0
  const HeightOffset: real := 2.0

  /** Mathf.RoundToInt / Mathf.Round: the nearest integer, a tie going to the
      even neighbour (.NET's Math.Round default). */
  function RoundToInt(x: real): (r: int)
    ensures r as real - 0.5 <= x <= r as real + 0.5
    ensures x - x.Floor as real == 0.5 ==> r % 2 == 0
  {
    var f := x.Floor;
    var d := x - f as real;
    if d < 0.5 then f
    else if d > 0.5 then f + 1
    else if f % 2 == 0 then f
    else f + 1
  }

  /** Within less than half a unit of `n`, rounding gives `n`. */
  lemma RoundNear(n: int, x: real)
    requires n as real - 0.5 < x < n as real + 0.5
    ensures RoundToInt(x) == n
  {
    var r := RoundToInt(x);
    assert r as real - 1.0 < n as real < r as real + 1.0;
  }

  /** A Vector3 in world units. */
  datatype Point = Point(x: real, y: real, z: real)

  /** Where GenerateStage places the block of cell `p` (row already
      corrected): a point that the index computation reads back as `p`, so
      distinct cells get distinct positions. */
  function WorldFromGrid(p: Vec): (r: Point)
    ensures GridFromWorld(r) == p
  {
    var r := Point(p.x as real * BlockSize, p.y as real * HeightOffset, p.z as real * BlockSize);
    GridFromNearWorld(p, r);
    r
  }

  /** GridFromPosition / the index computation of UpdatePlayerPosition: the
      cell whose block position is nearest to `w`, at most half a block (or
      half a layer) away on every axis. */
  function GridFromWorld(w: Point): (r: Vec)
    ensures -BlockSize / 2.0 <= w.x - r.x as real * BlockSize <= BlockSize / 2.0
    ensures -HeightOffset / 2.0 <= w.y - r.y as real * HeightOffset <= HeightOffset / 2.0
    ensures -BlockSize / 2.0 <= w.z - r.z as real * BlockSize <= BlockSize / 2.0
  {
    Vec(RoundToInt(w.x / BlockSize), RoundToInt(w.y / HeightOffset), RoundToInt(w.z / BlockSize))
  }

  /** Any world point less than half a cell (one unit) away from the centre
      of cell `p` on every axis rounds back to `p`; in particular the centre
      itself does, so placing a block and reading its cell back agree. */
  lemma GridFromNearWorld(p: Vec, w: Point)
    requires -1.0 < w.x - p.x as real * BlockSize < 1.0
    requires -1.0 < w.y - p.y as real * HeightOffset < 1.0
    requires -1.0 < w.z - p.z as real * BlockSize < 1.0
    ensures GridFromWorld(w) == p
  {
    RoundNear(p.x, w.x / BlockSize);
    RoundNear(p.y, w.y / HeightOffset);
    RoundNear(p.z, w.z / BlockSize);
  }

  lemma GridWorldRoundTrip(p: Vec)
    ensures GridFromWorld(WorldFromGrid(p)) == p
  {
    GridFromNearWorld(p, WorldFromGrid(p));
  }

  /** DraggableGimmic.SnapToGrid on one axis. */
  function Snap(x: real): (r: real)
    ensures -BlockSize / 2.0 <= r - x <= BlockSize / 2.0
    ensures r == RoundToInt(r / BlockSize) as real * BlockSize
  {
    var n := RoundToInt(x / BlockSize);
    RoundNear(n, n as real);
    n as real * BlockSize
  }

  /** Snapping an already snapped coordinate changes nothing. */
  lemma SnapIdempotent(x: real)
    ensures Snap(Snap(x)) == Snap(x)
  {
    var n := RoundToInt(x / BlockSize);
    RoundNear(n, Snap(x) / BlockSize);
  }

  /** DraggableGimmic.SnapToGrid: every axis snapped to a multiple of the
      block size (the layer height equals the block size, so the height axis
      snaps to a layer). */
  function SnapToGrid(w: Point): (r: Point)
    ensures -BlockSize / 2.0 <= r.x - w.x <= BlockSize / 2.0
    ensures -BlockSize / 2.0 <= r.y - w.y <= BlockSize / 2.0
    ensures -BlockSize / 2.0 <= r.z - w.z <= BlockSize / 2.0
    ensures r.x == RoundToInt(r.x / BlockSize) as real * BlockSize
    ensures r.y == RoundToInt(r.y / BlockSize) as real * BlockSize
    ensures r.z == RoundToInt(r.z / BlockSize) as real * BlockSize
  {
    Point(Snap(w.x), Snap(w.y), Snap(w.z))
  }

  /** Snapping a point does not change the cell it names, and the snapped
      point is the world position of that cell. */
  lemma SnapKeepsCell(w: Point)
    ensures GridFromWorld(SnapToGrid(w)) == GridFromWorld(w)
    ensures WorldFromGrid(GridFromWorld(w)) == SnapToGrid(w)
  {
    var p := GridFromWorld(w);
    RoundNear(p.x, p.x as real);
    RoundNear(p.y, p.y as real);
    RoundNear(p.z, p.z as real);
  }

  /** The snapped point is the world position of the cell it rounds to. */
  lemma SnapIsCellCentre(w: Point)
    ensures WorldFromGrid(GridFromWorld(w)).x == Snap(w.x)
    ensures WorldFromGrid(GridFromWorld(w)).z == Snap(w.z)
  {
  }
}

=== FILE: wrappers.dfy ===
/** Failure-carrying datatypes shared by the whole model. */
module Wrappers {

  /** A value that may be absent (the source's `null`). */
  datatype Option<+T> = None | Some(value: T)

  /** A computation that either produced a value or reported an error. */
  datatype Result<+T, +E> = Success(value: T) | Failure(error: E)

  /** The state an in-place C# operation leaves behind: `Done` when it ran to
      the end, `Threw` when an exception cut it short after some of its writes
      had already happened. */
  datatype Step<+T> = Done(value: T) | Threw(partial: T) {

    /** The state left behind, whichever way the operation ended. */
    function State(): T {
      match this
      case Done(v) => v
      case Threw(v) => v
    }
  }
}
